=== FILE: README.md ===
# GitHub dashboard sync and compliance engine, in Dafny

This project models the core of a small GitHub organisation dashboard. It covers:

- the sync engine that copies repositories, teams, security alerts, ownership
  (CODEOWNERS) rules, compliance verdicts and a metrics summary from the GitHub
  API into a browser-side keyed store;
- the staleness test on that store;
- the pure view logic of four pages: the compliance page, the security findings
  page, the repositories page and the dashboard.

The network is not modelled. Every remote answer the engine would receive is an
input: a map keyed by repository id, where a missing entry is a call that threw.
Which sync stages throw at stage level is also an input (a set of stages).

Modules, following the program's structure:

- `Wrappers`, `Seqs`, `Utf16`, `Text`: option values, filtering and counting,
  strings as UTF-16 code units, and the string operations the code relies on. These are JavaScript's `trim`,
  `split(/\s+/)`, `split("\n")`, `includes`, `endsWith`, `toLowerCase`,
  `localeCompare` and number-to-string.
- `Table`: one object-store table. It is a sequence of records in strictly
  increasing primary-key order, with `get`, `put` and `bulkPut`. A sequence is
  used rather than a map because the code reads tables with `toArray`, in key
  order. That order decides which rule wins an ownership tie and which
  repositories are "the first five" for the commit count.
- `Store`: the record types, the key of each table, the cache as six tables, and
  `isDataStale`.
- `Severity`: the exact severity spellings the compliance evaluator and the
  dashboard count.
- `CodeOwners`: locating and parsing ownership files, the glob matcher, and the
  owner assignment.
- `Findings`, `FindingsOrder`: turning the three alert kinds into finding
  records, and where each alert's finding sits in a repository's findings.
- `Compliance`: the four compliance facets and `performComplianceChecks`.
- `Sync`: the seven stages of `fetchAllData`, run as a fold that stops at the
  first failing stage, and the metrics summary.
- `SyncStages`: what each stage writes into its own table.
- `ComplianceView`, `FindingsView`, `RepositoriesView`, `Dashboard`: the logic
  inside the page components.

Where the project's design description and its code disagree, the model follows
the code:

- Ownership rules are upserted by (repository id, pattern) and never cleared, so
  a rule whose line was deleted from the file stays in the store
  (`Sync.SyncKeepsRules`).
- The compliance evaluator and the dashboard test severities case-sensitively
  against four spellings, so `High` is not high
  (`Compliance.SeverityTestIsCaseSensitive`). Only the findings page
  lower-cases severities.
- Compliance records of repositories that are no longer `Production` are not
  removed (`Compliance.PerformComplianceChecks`).
- Findings whose alerts disappeared are not removed either
  (`SyncStages.FindingsStageKeeps`). A re-fetched finding
  is stored with no owner. The assignment stage gives it an owner again only
  when a rule of its repository applies to its current path; otherwise it stays
  unowned (`SyncStages.FindingsStageStores`, `SyncStages.AssignStageStores`).

## Model

| member | source | states |
|---|---|---|
| Store.Summary | src/db/index.ts:90-91 | the singleton summary is the record with id 1, and there is none exactly when no record has id 1 |
| Store.IsDataStale | src/db/index.ts:90-98 | the data is stale when there is no summary; otherwise it is stale exactly when the summary was fetched strictly more than one day before now |
| Store.StaleBoundary | src/db/index.ts:94-97 | data exactly one day old is fresh, and data one millisecond older is stale |
| Store.StaleMonotonic | src/db/index.ts:90-98 | data that is stale now is stale at every later time |
| Store.FreshAfterSummaryPut | src/db/index.ts:90-98 | after a summary fetched at time t is put, get(1) returns that record and the data stays fresh until t plus one day |
| Table.Get | src/db/index.ts:77-87 | get by primary key returns a stored record with that key, and returns nothing exactly when no record has it |
| Table.GetAt | src/db/index.ts:77-87 | in a key-ordered table, get returns the record stored under its own key |
| Table.Put | src/db/index.ts:77-87 | put keeps the table in key order and stores the record under its key; every other key reads as before; the size grows by one only for a new key |
| Table.PutExisting | src/db/index.ts:77-87 | putting a record whose key is already stored replaces that record in place |
| Table.PutAllOther | src/services/github.ts:300 | keys that a bulk put does not mention keep their old record |
| Table.PutAllLast | src/services/github.ts:300 | for a key repeated in a bulk put, the last record with that key is the one stored |
| Table.PutAllKeepsKeys | src/db/index.ts:84 | a bulk put never removes a key, so rules for vanished patterns persist |
| Table.OrderedDistinct | src/db/index.ts:77-87 | a table in key order never holds a key twice |
| Table.PutAllFinds | src/services/github.ts:222 | after a bulk put, each key given reads back the last record given for that key |
| Table.PutAllDistinct | src/services/github.ts:222 | a bulk put of records with distinct keys, in any order, stores each of them and leaves every other key untouched |
| Table.FilterOrdered | src/services/github.ts:357-359 | a filtered table is still in key order |
| CodeOwners.FirstFile | src/services/github.ts:246-265 | the lookup stops at the first path whose response holds a file; every earlier path has none |
| CodeOwners.Locate | src/services/github.ts:242-267 | the file found is at one of the three candidate paths and its content is that response's content; nothing is found exactly when no candidate holds a file |
| CodeOwners.LocateOrder | src/services/github.ts:242-265 | `CODEOWNERS` wins over `.github/CODEOWNERS`, which wins over `docs/CODEOWNERS`, whatever the others hold |
| CodeOwners.ParseLine | src/services/github.ts:269-289 | a line yields a rule exactly when its trimmed text is non-empty, does not start with `#`, and has at least two words; the pattern is the first word and the owner field's words are the rest |
| CodeOwners.ParseLineOfWords | src/services/github.ts:276-283 | a trimmed rule line parses to its first word and the remaining words joined by single spaces |
| CodeOwners.ParseLineOfJoin | src/services/github.ts:276-283 | words written as one line, separated by single spaces, parse back to the rule of those words |
| CodeOwners.ParseLineOfRule | src/services/github.ts:276-283 | a rule written as a line parses back to the same rule, and its owner field splits back into the owners written |
| CodeOwners.ParseFile | src/services/github.ts:267-289 | a rule is produced exactly when some line of the content parses to it; there are at most as many rules as lines; every pattern is one word not starting with `#` and every owner field is non-empty; empty content gives no rules |
| CodeOwners.RuleRecords | src/services/github.ts:275-288 | one record per parsed rule, in file order, carrying the repository's id and full name |
| CodeOwners.RepoRules | src/services/github.ts:267-289 | a repository with no ownership file gets no rules; otherwise its records are those of the parsed file, and a record is among them exactly when it carries the repository's id, name and fetch time and its pattern and owner are a rule of the file |
| CodeOwners.FetchCodeOwners | src/services/github.ts:231-302 | every rule of every repository of the table is gathered, and every rule gathered is one of some repository's rules, carries that repository's id and has a one-word pattern |
| CodeOwners.MatchesLiteral | src/services/github.ts:327-334 | a pattern that is not `*` and does not end in `/*` or `/**` matches only the identical path, so `*.js` matches only `*.js` |
| CodeOwners.DirectoryGlobs | src/services/github.ts:330-333 | `d/*` and `d/**` both match exactly the paths that start with `d/` |
| CodeOwners.MatchExamples | src/services/github.ts:327-334 | `*` matches every path; `src/*` matches `src/foo.go` but not `lib/foo.go`; `src/**` matches nested paths |
| CodeOwners.ScanFindsFirstLongest | src/services/github.ts:320-341 | the scan with a strict `>` finds a rule exactly when one applies, and the rule it finds is the first of greatest pattern length |
| CodeOwners.PatternLength | src/services/github.ts:336-338 | a pattern's length is its JavaScript `length`: between its number of characters and twice that |
| CodeOwners.RulesOf | src/services/github.ts:316-318 | the rules considered are exactly those of the finding's repository, in table order |
| CodeOwners.BestMatch | src/services/github.ts:316-341 | the winner belongs to the repository and applies to the path, and no applicable rule is longer in UTF-16 code units; of the longest it is the first in table order; there is none exactly when no rule of the repository applies |
| CodeOwners.AssignOwner | src/services/github.ts:316-346 | only the owner field changes; with no applicable rule the finding is unchanged; otherwise the owner becomes that of the first longest applicable rule of the repository |
| CodeOwners.AstralPatternIsLonger | src/services/github.ts:336-338 | for a path `a/😀`, the literal rule `a/😀` (four code units) beats an earlier `a/*` (three), because a character above U+FFFF counts twice |
| CodeOwners.AssignOwnerIgnoresPriorOwner | src/services/github.ts:316-346 | when a rule applies, the outcome does not depend on the owner the finding had before |
| CodeOwners.AssignOwnerIdempotent | src/services/github.ts:316-346 | assigning twice gives the same finding as assigning once |
| CodeOwners.AssignOwners | src/services/github.ts:309-352 | the findings table stays in key order through the puts |
| CodeOwners.AssignLoopResolves | src/services/github.ts:314-347 | the loop of puts over the findings as read resolves the remaining findings one by one in place |
| CodeOwners.AssignOwnersPointwise | src/services/github.ts:309-352 | the table after assignment holds, position by position, each finding with its own assignment applied |
| CodeOwners.AssignOwnersIdempotent | src/services/github.ts:309-352 | running the assignment stage twice leaves the same table as running it once |
| Findings.IdPrefix | src/services/github.ts:130-197 | each tool's id prefix is non-empty and ends in `_` |
| Findings.FindingId | src/services/github.ts:130-197 | a finding id starts with its tool's prefix |
| Findings.FindingIdInjective | src/services/github.ts:130-197 | two ids are equal exactly when tool, repository id and alert number are all equal |
| Findings.FromCodeScanning | src/services/github.ts:129-142 | a missing rule severity becomes `unknown`; a missing message or path becomes empty; the owner starts unset |
| Findings.FromSecretScanning | src/services/github.ts:163-176 | the severity is always `critical`; the title and description are built from the secret type; a missing location becomes empty |
| Findings.FromDependabot | src/services/github.ts:196-209 | severity, title and description are taken from the advisory; a missing manifest path becomes empty |
| Findings.CodeScanningFindings | src/services/github.ts:128-145 | one finding per code-scanning alert, in order |
| Findings.SecretScanningFindings | src/services/github.ts:162-179 | one finding per secret-scanning alert, in order |
| Findings.DependabotFindings | src/services/github.ts:195-212 | one finding per dependabot alert, in order |
| Findings.CodeScanningFresh | src/services/github.ts:129-142 | every code-scanning finding belongs to its repository, is unowned, and has an id of its tool's form |
| Findings.SecretScanningFresh | src/services/github.ts:163-176 | every secret-scanning finding is critical, unowned, and has an id of its tool's form |
| Findings.DependabotFresh | src/services/github.ts:196-209 | every dependabot finding belongs to its repository, is unowned, and has an id of its tool's form |
| Findings.RepoFindings | src/services/github.ts:116-218 | a repository gets one finding per alert of each listing that succeeded; a failed listing contributes none |
| FindingsOrder.RepoFindingsCodeScanningAt | src/services/github.ts:120-145 | the code-scanning findings come first, the i-th being the i-th alert's finding |
| FindingsOrder.RepoFindingsSecretScanningAt | src/services/github.ts:154-179 | the secret-scanning findings follow the code-scanning ones, in alert order |
| FindingsOrder.RepoFindingsDependabotAt | src/services/github.ts:188-212 | the Dependabot findings come last, in alert order |
| Findings.RepoFindingsFresh | src/services/github.ts:116-218 | every finding of a repository is fresh: its repository, unowned, fetched now, with an id of its tool's form |
| Findings.FetchSecurityFindings | src/services/github.ts:113-222 | every finding of every repository of the table is gathered, and every finding gathered is one of some repository's findings; with no alerts at all there are none |
| Findings.FetchedFresh | src/services/github.ts:113-222 | every finding gathered is a fresh finding of some repository of the table |
| Findings.FreshFindingsUnowned | src/services/github.ts:110-229 | every finding written by the fetch is unowned, stamped with the sync time, and carries its tool's id prefix |
| Compliance.ValidCodeowners | src/services/github.ts:366-403 | the facet holds exactly when an ownership file was found and its content contains `*` anywhere |
| Compliance.HasOldHighCritical | src/services/github.ts:405-431 | the facet holds exactly when some finding of the repository is high or critical, in one of four spellings, and was created strictly before now minus 30 days |
| Compliance.DirectUserAccess | src/services/github.ts:433-454 | the facet holds exactly when the collaborator listing succeeded and is non-empty |
| Compliance.AdminOwnerAccess | src/services/github.ts:433-454 | the facet holds exactly when the listing succeeded and some collaborator has admin or maintain permission; it implies direct access |
| Compliance.Evaluate | src/services/github.ts:456-465 | the record carries the repository's id and name and the check time, and each of its four facets has the meaning stated above |
| Compliance.FailedLookupsAreFalse | src/services/github.ts:366-454 | with no ownership file found, no findings and a failed collaborator listing, all four facets are false |
| Compliance.SeverityTestIsCaseSensitive | src/services/github.ts:415-421 | an old `HIGH` finding counts and an old `High` one does not |
| Compliance.OldFindingBoundary | src/services/github.ts:408-421 | an old high finding turns the facet on; one created exactly 30 days before now does not count |
| Compliance.ProductionRepos | src/services/github.ts:357-359 | the repositories evaluated are exactly those whose environment type is `Production`, in table order |
| Compliance.EvaluateAll | src/services/github.ts:363-470 | one record per production repository, in order, each evaluated from that repository's own lookups |
| Compliance.PerformComplianceChecks | src/services/github.ts:354-477 | after the stage every production repository reads back its fresh record, and every other key, stale records included, reads as before |
| Compliance.EvaluateAllKeys | src/services/github.ts:363-470 | the records are in key order and their keys are exactly the ids of the production repositories |
| Sync.Property | src/services/github.ts:45-69 | a custom property is stored when present and non-empty, with its value |
| Sync.ToRepositories | src/services/github.ts:34-84 | one record per remote repository, in order, with its id and full name, stamped with the sync time |
| Sync.ToTeams | src/services/github.ts:86-108 | one record per remote team, in order, copying its fields and stamped with the sync time |
| Sync.CommitCount | src/services/github.ts:495-511 | with at most five repositories the commit count is the sum over all of them |
| Sync.RunStage | src/services/github.ts:531-544 | each stage writes only its own table (the findings table is shared by the findings and assignment stages), so every other table reads as before; the rules stage bulk-puts the parsed rules; the metrics stage puts the new summary and changes nothing else |
| Sync.RepositoriesStage | src/services/github.ts:34-84 | the repositories stage changes the repositories table and nothing else |
| Sync.TeamsStage | src/services/github.ts:86-108 | the teams stage changes the teams table and nothing else |
| Sync.FindingsStage | src/services/github.ts:110-229 | the findings stage changes the findings table and nothing else |
| Sync.RulesStage | src/services/github.ts:231-307 | the rules stage changes the rules table and nothing else |
| Sync.AssignStage | src/services/github.ts:309-352 | the assignment stage changes the findings table and nothing else |
| Sync.ComplianceStage | src/services/github.ts:354-477 | the compliance stage changes the compliance table and nothing else |
| Sync.MetricsStage | src/services/github.ts:479-529 | the metrics stage changes the summary table and nothing else |
| SyncStages.RepositoriesStageStores | src/services/github.ts:43-77 | each listed repository whose id is not listed again later reads back, under its id, as the record built from that listing |
| SyncStages.RepositoriesStageKeeps | src/services/github.ts:43-77 | a repository id that is not listed reads as before |
| SyncStages.TeamsStageStores | src/services/github.ts:89-101 | each listed team whose id is not listed again later reads back, under its id, as the record built from that listing |
| SyncStages.TeamsStageKeeps | src/services/github.ts:89-101 | a team id that is not listed reads as before |
| SyncStages.FindingsStageStores | src/services/github.ts:113-222 | under every fetched finding's id the table holds the last finding fetched with that id, which has the same tool and repository |
| SyncStages.FindingsStageDistinct | src/services/github.ts:113-222 | when the fetched ids are distinct, every fetched finding reads back exactly |
| SyncStages.FindingsStageKeeps | src/services/github.ts:113-222 | ids not fetched read as before, so findings whose alerts disappeared stay |
| SyncStages.FindingsStored | src/services/github.ts:222 | in a bulk put of fresh findings, each id reads back the last finding put with it, of the same tool and repository |
| SyncStages.FindingStored | src/services/github.ts:113-222 | a fetched finding's id reads back the last fetched finding with that id, which has the same tool and repository |
| SyncStages.SameIdSameSource | src/services/github.ts:130-197 | two fresh findings with the same id have the same tool and repository |
| SyncStages.RepositoryStored | src/services/github.ts:43-77 | the last listing of a repository id is the record stored under it |
| SyncStages.TeamStored | src/services/github.ts:89-101 | the last listing of a team id is the record stored under it |
| SyncStages.RulesStageStores | src/services/github.ts:231-300 | every fetched rule's (repository, pattern) key reads back the last fetched rule with that key |
| SyncStages.RulesStageLast | src/services/github.ts:231-300 | a fetched rule whose key is not repeated later in the fetch reads back exactly, so of a repeated line the last one wins |
| SyncStages.RulesStageKeeps | src/services/github.ts:231-300 | keys not fetched read as before, so rules for deleted lines stay |
| SyncStages.RulesStored | src/services/github.ts:300 | in a bulk put of rules, each key reads back the last rule put with it |
| SyncStages.AssignStageStores | src/services/github.ts:309-352 | the findings table keeps its size, and each finding becomes that finding with the owner the assignment gives it |
| Sync.SummaryOf | src/services/github.ts:479-522 | the summary has id 1, the table sizes as counts, the commit count of the first five repositories, and the sync time |
| Sync.RunUntil | src/services/github.ts:531-544 | the run fails exactly when some stage is in the fault set, and it reports a faulty stage |
| Sync.FirstFault | src/services/github.ts:531-544 | the first stage, in order, that throws |
| Sync.RunUntilStopsAtFirstFault | src/services/github.ts:531-544 | the result is exactly the stages before the first faulty one, applied in order, and it reports that stage |
| Sync.RunSplit | src/services/github.ts:531-544 | running two stage lists one after the other is running their concatenation |
| Sync.RunUntilPreserves | src/services/github.ts:531-544 | an invariant every stage keeps holds after the sync, however it ends |
| Sync.RunKeeps | src/services/github.ts:531-544 | a part of the cache that no stage writes is unchanged by the run |
| Sync.FailedRunKeeps | src/services/github.ts:531-544 | when some stage fails, a part of the cache written only by the last stage is unchanged |
| Sync.AllStagesInOrder | src/services/github.ts:531-544 | every stage is in the stage order |
| Sync.FetchAllData | src/services/github.ts:531-544 | the sync succeeds exactly when no stage throws, and a failure names a stage that threw |
| Sync.NoFaultInOrder | src/services/github.ts:531-544 | no stage of the order throws exactly when the fault set is empty |
| Sync.FailedSyncKeepsSummary | src/services/github.ts:531-544 | a failed sync leaves the summary table, and so the staleness verdict, as they were |
| Sync.SuccessfulSyncWritesSummary | src/services/github.ts:479-544 | a successful sync stores the summary of the cache the six earlier stages produced, and the data is then fresh |
| Sync.StageOrderEnds | src/services/github.ts:533-539 | metrics is the seventh and last of the seven stages |
| Sync.MetricsStageFresh | src/services/github.ts:513-522 | after the metrics stage, get(1) returns the new summary and the data is fresh |
| Sync.CommitCountFirstFive | src/services/github.ts:495 | two tables that agree on their first five repositories get the same commit count |
| Sync.SumCommitsBound | src/services/github.ts:500-507 | with at most `page` commits per listing, the sum is at most `page` times the number of repositories |
| Sync.CommitCountBound | src/services/github.ts:495-507 | with one page of at most 100 commits per repository, the count is at most 500 |
| Sync.SumCommitsOfFailures | src/services/github.ts:499-510 | repositories whose commit listing failed contribute 0 |
| Sync.SyncKeepsRules | src/services/github.ts:300 | a stored ownership rule is still stored after any sync, successful or not |
| ComplianceView.CompareChecks | src/components/Compliance.tsx:32-38 | a non-compliant check sorts before a compliant one; equal verdicts compare by repository name |
| Text.CompareIsCodeUnitOrder | src/components/Compliance.tsx:36 | the string comparison is the lexicographic order of the UTF-16 encodings |
| Text.CodeUnitOrderExamples | src/components/Compliance.tsx:36 | U+E000 sorts after U+1F600, whose first code unit is a surrogate, although its code point is smaller |
| ComplianceView.BeforeTotal | src/components/Compliance.tsx:32-38 | any two checks are ordered one way or the other |
| ComplianceView.BeforeTransitive | src/components/Compliance.tsx:32-38 | the comparator's order is transitive |
| ComplianceView.Insert | src/components/Compliance.tsx:32-38 | inserting into a sorted list gives a sorted list holding the same elements plus the new one |
| ComplianceView.Sort | src/components/Compliance.tsx:32-38 | the sorted list is in comparator order and is a permutation of the loaded checks |
| ComplianceView.SortOrder | src/components/Compliance.tsx:32-38 | after sorting every non-compliant check precedes every compliant one, and checks with the same verdict are in ascending name order |
| ComplianceView.CompliantCount | src/components/Compliance.tsx:106 | the compliant count is at most the total, and equals it exactly when every check is compliant |
| ComplianceView.NonCompliantCount | src/components/Compliance.tsx:113 | the non-compliant count is 0 exactly when every check is compliant |
| ComplianceView.CountsPartition | src/components/Compliance.tsx:99-113 | compliant plus non-compliant is the total |
| ComplianceView.Percent | src/components/Compliance.tsx:122-129 | the percentage is within half a point of the exact share, lies in 0..100, and is 0 for none and 100 for all |
| ComplianceView.Rate | src/components/Compliance.tsx:122-129 | the rate is 0 with no checks; otherwise it is the compliant share to the nearest percent, in 0..100 |
| ComplianceView.SortKeepsFigures | src/components/Compliance.tsx:29-129 | sorting changes neither the counts nor the rate |
| ComplianceView.SortKeepsCount | src/components/Compliance.tsx:29-129 | sorting keeps the compliant count |
| ComplianceView.InsertCount | src/components/Compliance.tsx:32-38 | insertion adds the inserted check's verdict to the count |
| ComplianceView.CountSplit | src/components/Compliance.tsx:106 | the count of a concatenation is the sum of the counts |
| FindingsView.ClearFilters | src/components/SecurityFindings.tsx:92-97 | clearing empties all four selections |
| FindingsView.ByRepository | src/components/SecurityFindings.tsx:60-64 | the repository filter keeps exactly the findings of the selected repository name, or all when none is selected |
| FindingsView.ByTool | src/components/SecurityFindings.tsx:66-68 | the tool filter keeps exactly the findings of the selected tool, or all when none is selected |
| FindingsView.BySeverity | src/components/SecurityFindings.tsx:70-75 | the severity filter keeps exactly the findings whose lower-cased severity equals the lower-cased selection |
| FindingsView.ByOwner | src/components/SecurityFindings.tsx:77-81 | `with-owner` keeps owned findings, `without-owner` unowned ones, and any other value keeps all |
| FindingsView.OwnerFilter | src/components/SecurityFindings.tsx:77-81 | the two owner branches of the page filter by owner presence, and any other value filters nothing |
| FindingsView.Apply | src/components/SecurityFindings.tsx:58-83 | the shown list is an order-preserving subsequence of the loaded findings, holding exactly those every selection keeps |
| FindingsView.ApplyIsOneFilter | src/components/SecurityFindings.tsx:58-83 | the chain of four filters equals a single filter by the conjunction of the selections |
| FindingsView.ClearedShowsAll | src/components/SecurityFindings.tsx:58-97 | with cleared selections every finding is shown, in order |
| FindingsView.OwnerStatusPartition | src/components/SecurityFindings.tsx:77-81 | `with-owner` and `without-owner` split the findings into two parts whose union, as a multiset, is all of them |
| FindingsView.SeverityIgnoresCase | src/components/SecurityFindings.tsx:70-75 | `HIGH`, `high` and `High` are all kept for a `high` selection, and `critical` is not |
| FindingsView.RepositoryOptions | src/components/SecurityFindings.tsx:40-45 | the options are exactly the repository names of the findings, each once |
| Seqs.Distinct | src/components/SecurityFindings.tsx:41-45 | the result holds each element of the input exactly once, in order of first appearance |
| RepositoriesView.ClearFilters | src/components/Repositories.tsx:89-93 | clearing empties all three selections |
| RepositoriesView.Apply | src/components/Repositories.tsx:62-86 | the shown list is an order-preserving subsequence of the repositories, holding exactly those matching pod, environment and search |
| RepositoriesView.ApplyIsOneFilter | src/components/Repositories.tsx:62-86 | the chain of three conditional filters equals a single filter by their conjunction |
| RepositoriesView.ClearedShowsAll | src/components/Repositories.tsx:60-93 | with cleared selections every repository is shown, in order |
| RepositoriesView.SearchIgnoresCase | src/components/Repositories.tsx:76-84 | searching for a term or for its lower-cased form gives the same verdict |
| RepositoriesView.SearchSkipsMissingDescription | src/components/Repositories.tsx:76-84 | without a description, only the name and the full name are searched |
| RepositoriesView.Options | src/components/Repositories.tsx:33-49 | the options are exactly the present, non-empty property values, each once |
| RepositoriesView.PodOptions | src/components/Repositories.tsx:33-40 | the pod options are exactly the non-empty pods of the repositories, each once |
| RepositoriesView.EnvOptions | src/components/Repositories.tsx:42-49 | the environment options are exactly the non-empty environment types of the repositories, each once |
| Dashboard.SecurityStatsOf | src/components/Dashboard.tsx:73-96 | each bucket is the number of findings whose severity is one of that bucket's exact spellings |
| Dashboard.BucketsDisjoint | src/components/Dashboard.tsx:74-90 | the three buckets add up to the findings in some bucket, at most all findings; `unknown` and `High` are in none |
| Dashboard.ComplianceStatsOf | src/components/Dashboard.tsx:99-111 | the compliant count uses the compliance page's verdict, and non-compliant is the total minus compliant |
| Dashboard.Load | src/components/Dashboard.tsx:59-111 | the load shows the staleness verdict, the stored summary when there is one (else the previous one), and the figures of the cache |
| Dashboard.ShouldRefresh | src/components/Dashboard.tsx:113-116 | the load triggers a sync exactly when the data is stale, which covers the case of no summary |
| Dashboard.Refresh | src/components/Dashboard.tsx:125-180 | the cache is whatever the sync left; a failed sync leaves the page as it was; a successful one shows fresh data with a summary stamped now |
| Dashboard.RefreshIsLoad | src/components/Dashboard.tsx:131-174 | after a successful sync, the refresh shows exactly what a fresh load of the synced cache shows |
| Dashboard.Open | src/components/Dashboard.tsx:59-123 | fresh data is only loaded; stale data is loaded and refreshed, and a successful refresh shows fresh data |
| Dashboard.FailedOpenRetries | src/components/Dashboard.tsx:113-116 | after a failed sync on opening the data is still stale, so the next opening syncs again |

## Left out

- Network access: every Octokit call, pagination (one page of at most 100
  commits and collaborators is the answer), base64 decoding of file contents,
  and the `owner/repo` split of the full name. Remote answers are inputs.
- Token handling, the module-level client, `localStorage`, the sign-in page, the
  layout, routing, the API-usage page, the server and the shutdown endpoint.
  None of them is part of the engine.
- The store library's asynchronous behaviour and transactions. Each table is a
  key-ordered sequence, and each stage runs to completion or not at all.
- `Sync.RunStage`: a stage that throws is taken to throw before its first
  write. In the code, `fetchRepositories` puts repositories one by one and
  `performComplianceChecks` puts one record at a time, so a throw in the middle
  of such a loop would leave a partial write.
- The exact shape of the custom-properties response. The properties of a
  repository are given as a map from property name to value.
- Calendar arithmetic: `setDate(getDate() - 1)` and `- 30` are modelled as
  fixed spans of 86,400,000 and 30 × 86,400,000 milliseconds. Daylight-saving
  days are not modelled. One `now` stands for all the clock reads of a sync.
- `Text.Compare` stands in for `localeCompare`. It is UTF-16 code-unit order,
  the order of the store's string keys, not locale collation.
- `Text.ToLower` lower-cases ASCII letters only. JavaScript's `toLowerCase`
  also maps other scripts.
- `ComplianceView.Rate`: `Math.round(c / n * 100)` in floating point is modelled
  as exact rounding of the rational share, halves up. The float result can
  differ by one on a half-way share that is not exactly representable.
- `Sync.CommitCount`: the commit listing's `since` parameter is not modelled.
  Each repository's answer is the length of the page returned.
- The compliance stage repeats its own ownership-file lookup. The model assumes
  that lookup sees the same answers as the rules stage. The stage's local query
  for old findings is taken never to fail.
- React state, rendering, loading spinners and `console.error` logging.
- `CodeOwners.AssignOwners`: its own contract states only that key order is kept.
  What it computes is stated by `CodeOwners.AssignOwnersPointwise`.
- `Table.PutAll`: its own contract states only that key order is kept. Its
  effect is stated by `Table.PutAllOther`, `Table.PutAllLast` and
  `Table.PutAllDistinct`.

=== FILE: codeowners.dfy ===
/** Ownership files: locating one per repository, parsing it into
    (pattern, owner) rules, matching a pattern against a finding's path, and
    giving every finding the owner of its most specific matching rule. */
module CodeOwners {
  import opened Wrappers
  import Text
  import Utf16
  import Seqs
  import Table
  import opened Store

  /** The locations tried, in this order. */
  const CandidatePaths: seq<string> := ["CODEOWNERS", ".github/CODEOWNERS", "docs/CODEOWNERS"]

  /** What a content request returned: a file (its decoded text) or data
      without a `content` field, such as a directory listing. A request that
      threw (a missing file) has no entry in the response map. */
  datatype ContentResponse = File(content: string) | NotAFile

  datatype Located = Located(path: string, content: string)

  predicate IsFile(responses: map<string, ContentResponse>, path: string) {
    path in responses && responses[path].File?
  }

  /** Position of the first of `paths` whose response is a file. */
  function FirstFile(responses: map<string, ContentResponse>, paths: seq<string>): (k: Option<nat>)
    ensures k.None? <==> forall j :: 0 <= j < |paths| ==> !IsFile(responses, paths[j])
    ensures k.Some? ==> k.value < |paths| && IsFile(responses, paths[k.value])
    ensures k.Some? ==> forall j :: 0 <= j < k.value ==> !IsFile(responses, paths[j])
  {
    if |paths| == 0 then None
    else if IsFile(responses, paths[0]) then Some(0)
    else
      match FirstFile(responses, paths[1..])
      case Some(k) => Some(k + 1)
      case None => None
  }

  /** The ownership file of one repository: the first candidate location,
      in order, that holds a file. */
  function Locate(responses: map<string, ContentResponse>): (r: Option<Located>)
    ensures r.None? <==> forall p :: p in CandidatePaths ==> !IsFile(responses, p)
    ensures r.Some? ==> (r.value.path in CandidatePaths && IsFile(responses, r.value.path)
                         && responses[r.value.path].content == r.value.content)
  {
    match FirstFile(responses, CandidatePaths)
    case Some(k) => Some(Located(CandidatePaths[k], responses[CandidatePaths[k]].content))
    case None => None
  }

  /** A file at the canonical location wins whatever the other locations hold;
      otherwise the nested locations are tried in order. */
  lemma LocateOrder(responses: map<string, ContentResponse>)
    ensures IsFile(responses, "CODEOWNERS") ==>
              Locate(responses) == Some(Located("CODEOWNERS", responses["CODEOWNERS"].content))
    ensures !IsFile(responses, "CODEOWNERS") && IsFile(responses, ".github/CODEOWNERS") ==>
              Locate(responses) == Some(Located(".github/CODEOWNERS", responses[".github/CODEOWNERS"].content))
    ensures !IsFile(responses, "CODEOWNERS") && !IsFile(responses, ".github/CODEOWNERS") ==>
              Locate(responses) == (if IsFile(responses, "docs/CODEOWNERS")
                                    then Some(Located("docs/CODEOWNERS", responses["docs/CODEOWNERS"].content))
                                    else None)
  {
    var rest := CandidatePaths[1..];
    assert CandidatePaths[0] == "CODEOWNERS";
    assert rest == [".github/CODEOWNERS", "docs/CODEOWNERS"];
    assert rest[1..] == ["docs/CODEOWNERS"];
    assert rest[1..][1..] == [];
    assert CandidatePaths[1] == ".github/CODEOWNERS" && CandidatePaths[2] == "docs/CODEOWNERS";
    if !IsFile(responses, "CODEOWNERS") && IsFile(responses, ".github/CODEOWNERS") {
      assert FirstFile(responses, rest) == Some(0);
      assert FirstFile(responses, CandidatePaths) == Some(1);
    }
  }

  /** One parsed line: the pattern and the owner field. */
  datatype Rule = Rule(pattern: string, owner: string)

  /** One line of an ownership file. Blank lines and lines whose trimmed text
      starts with `#` are skipped; otherwise the first word is the pattern and
      the remaining words, joined by single spaces, are the owner. A line with
      a single word yields nothing. */
  function ParseLine(line: string): (r: Option<Rule>)
    ensures Text.AllSpace(line) ==> r.None?
    ensures Text.Trim(line) != [] && Text.Trim(line)[0] == '#' ==> r.None?
    ensures r.Some? ==> Text.IsWord(r.value.pattern) && r.value.pattern[0] != '#'
    ensures r.Some? ==> r.value.owner != "" && Text.Trim(r.value.owner) == r.value.owner
    ensures r.Some? <==> Text.Trim(line) != [] && Text.Trim(line)[0] != '#' && |Text.Words(Text.Trim(line))| >= 2
    ensures r.Some? ==> Text.Words(Text.Trim(line)) == [r.value.pattern] + Text.Words(r.value.owner)
  {
    Text.TrimEmpty(line);
    var t := Text.Trim(line);
    if t == "" || t[0] == '#' then None
    else
      Text.WordsHead(t);
      var ws := Text.Words(t);
      if |ws| >= 2 then Some(RuleOfWords(ws)) else None
  }

  /** The first word is the pattern; the others, joined by single spaces,
      are the owner field. */
  function RuleOfWords(ws: seq<string>): (r: Rule)
    requires |ws| >= 2 && forall w :: w in ws ==> Text.IsWord(w)
    ensures r.pattern == ws[0] && Text.Words(r.owner) == ws[1..]
    ensures r.owner != "" && Text.Trim(r.owner) == r.owner
  {
    var owners := ws[1..];
    assert forall w :: w in owners ==> w in ws;
    Text.JoinTrimmed(owners);
    Text.WordsOfJoin(owners);
    Rule(ws[0], Text.Join(owners, " "))
  }

  /** A rule written as a line parses back to that rule, and its owner field
      splits back into the owners written. */
  lemma ParseLineOfWords(line: string, ws: seq<string>)
    requires Text.Trim(line) == line && line != [] && line[0] != '#'
    requires Text.Words(line) == ws && |ws| >= 2
    ensures ParseLine(line) == Some(Rule(ws[0], Text.Join(ws[1..], " ")))
  {
  }

  /** Words joined by single spaces form a line whose first word is the
      pattern and whose remaining words are the owner field. */
  lemma ParseLineOfJoin(ws: seq<string>)
    requires |ws| >= 2 && forall w :: w in ws ==> Text.IsWord(w)
    requires Text.IsWord(ws[0]) && ws[0][0] != '#'
    ensures ParseLine(Text.Join(ws, " ")) == Some(Rule(ws[0], Text.Join(ws[1..], " ")))
  {
    var line := Text.Join(ws, " ");
    var last := ws[|ws| - 1];
    assert last in ws;
    Text.JoinFirst(ws, " ");
    Text.JoinLast(ws, " ");
    assert line[|line| - 1] == last[|last| - 1];
    Text.TrimOfTrimmed(line);
    Text.WordsOfJoin(ws);
    assert Text.Trim(line) == line && line != [] && line[0] != '#';
    assert Text.Words(line) == ws;
    ParseLineOfWords(line, ws);
  }

  lemma ParseLineOfRule(pattern: string, owners: seq<string>)
    requires Text.IsWord(pattern) && pattern[0] != '#'
    requires |owners| >= 1 && forall w :: w in owners ==> Text.IsWord(w)
    ensures ParseLine(Text.Join([pattern] + owners, " ")) == Some(Rule(pattern, Text.Join(owners, " ")))
    ensures Text.Words(Text.Join(owners, " ")) == owners
  {
    var ws := [pattern] + owners;
    assert ws[1..] == owners;
    ParseLineOfJoin(ws);
    Text.WordsOfJoin(owners);
  }

  /** The rules of a file's content, split into lines at `\n`: exactly the
      rules of its lines that parse, at most one per line. */
  function ParseFile(content: string): (rules: seq<Rule>)
    ensures |rules| <= |Text.Split(content, '\n')|
    ensures forall r :: r in rules <==> exists line :: line in Text.Split(content, '\n') && ParseLine(line) == Some(r)
    ensures forall r :: r in rules ==> Text.IsWord(r.pattern) && r.pattern[0] != '#' && r.owner != ""
    ensures content == "" ==> rules == []
  {
    var lines := Text.Split(content, '\n');
    assert content == "" ==> lines == [""] && ParseLine("").None? by {
      if content == "" {
        Text.SplitEmpty('\n');
        Text.TrimEmpty("");
      }
    }
    Seqs.FilterMap(lines, ParseLine)
  }

  /** Rule records of one repository, one per parsed rule, in file order. */
  function RuleRecords(repo: Repository, rules: seq<Rule>, now: Time): (rs: seq<CodeOwner>)
    ensures |rs| == |rules|
    ensures forall i :: 0 <= i < |rules| ==>
              rs[i] == CodeOwner(repo.id, repo.fullName, rules[i].pattern, rules[i].owner, now)
    ensures forall c :: c in rs ==> c.repositoryId == repo.id && c.repositoryName == repo.fullName
    ensures forall c :: c in rs ==> exists r :: r in rules && c.directoryPath == r.pattern && c.owner == r.owner
  {
    if |rules| == 0 then []
    else [CodeOwner(repo.id, repo.fullName, rules[0].pattern, rules[0].owner, now)] + RuleRecords(repo, rules[1..], now)
  }

  /** The rules of one repository, in file order, stamped with the
      repository and the time. No file, or an empty one, gives no rules. */
  function RepoRules(repo: Repository, located: Option<Located>, now: Time): (rs: seq<CodeOwner>)
    ensures located.None? ==> rs == []
    ensures located.Some? ==> rs == RuleRecords(repo, ParseFile(located.value.content), now)
    ensures forall c :: c in rs <==>
              (&& located.Some?
               && c.repositoryId == repo.id && c.repositoryName == repo.fullName && c.lastFetched == now
               && Rule(c.directoryPath, c.owner) in ParseFile(located.value.content))
    ensures forall c :: c in rs ==> c.repositoryId == repo.id && c.repositoryName == repo.fullName
    ensures forall c :: c in rs ==> Text.IsWord(c.directoryPath) && c.owner != ""
  {
    if located.None? || located.value.content == "" then []
    else
      var rules := ParseFile(located.value.content);
      RuleRecords(repo, rules, now)
  }

  /** The content responses of one repository; a repository missing from
      `contents` had every request fail. */
  function ContentsOf(contents: map<nat, map<string, ContentResponse>>, id: nat): map<string, ContentResponse> {
    if id in contents then contents[id] else map[]
  }

  /** `fetchCodeOwners` before its bulk put: the rules of every repository, in
      table order. A repository whose lookups all fail contributes none. */
  function FetchCodeOwners(repos: seq<Repository>, contents: map<nat, map<string, ContentResponse>>, now: Time): (rs: seq<CodeOwner>)
    ensures forall i, c :: 0 <= i < |repos| && c in RepoRules(repos[i], Locate(ContentsOf(contents, repos[i].id)), now) ==> c in rs
    ensures forall c :: c in rs ==>
              exists i :: 0 <= i < |repos| && c in RepoRules(repos[i], Locate(ContentsOf(contents, repos[i].id)), now)
    ensures forall c :: c in rs ==> exists i :: 0 <= i < |repos| && repos[i].id == c.repositoryId && Text.IsWord(c.directoryPath)
  {
    var rs := Seqs.FlatMap(repos, (repo: Repository) => RepoRules(repo, Locate(ContentsOf(contents, repo.id)), now));
    forall c | c in rs ensures exists i :: 0 <= i < |repos| && repos[i].id == c.repositoryId && Text.IsWord(c.directoryPath) {
      var i :| 0 <= i < |repos| && c in RepoRules(repos[i], Locate(ContentsOf(contents, repos[i].id)), now);
    }
    rs
  }

  // The ad-hoc glob of the resolver: "*" matches everything, a pattern
  // matches itself, and a pattern ending in "/*" or "/**" matches every path
  // starting with the pattern minus its trailing stars.
  predicate Matches(pattern: string, path: string) {
    || pattern == "*"
    || path == pattern
    || (Text.EndsWith(pattern, "/*") && pattern[..|pattern| - 1] <= path)
    || (Text.EndsWith(pattern, "/**") && pattern[..|pattern| - 2] <= path)
  }

  /** Any other pattern, `*.js` included, matches only itself. */
  lemma MatchesLiteral(pattern: string, path: string)
    requires pattern != "*" && !Text.EndsWith(pattern, "/*") && !Text.EndsWith(pattern, "/**")
    ensures Matches(pattern, path) <==> path == pattern
  {
  }

  // "d/*" and "d/**" both mean "anything under d/", at any depth.
  lemma DirectoryGlobs(d: string, path: string)
    ensures Matches(d + "/*", path) <==> d + "/" <= path
    ensures Matches(d + "/**", path) <==> d + "/" <= path
  {
    var p1 := d + "/*";
    var p2 := d + "/**";
    assert p1[..|p1| - 1] == d + "/";
    assert p2[..|p2| - 2] == d + "/";
    assert p1[|p1| - 2..] == "/*";
    assert p2[|p2| - 2..] == "**";
    if path == p1 {
      assert path[..|d| + 1] == d + "/";
    }
    if path == p2 {
      assert path[..|d| + 1] == d + "/";
    }
    assert !Text.EndsWith(p1, "/**") by {
      assert p1[|p1| - 2] == '/';
    }
  }

  lemma MatchExamples()
    ensures forall path :: Matches("*", path)
    ensures Matches("src/*", "src/foo.go") && !Matches("src/*", "lib/foo.go")
    ensures Matches("src/**", "src/a/b.go")
    ensures forall path :: Matches("src/foo.go", path) <==> path == "src/foo.go"
    ensures forall path :: Matches("*.js", path) <==> path == "*.js"
  {
    DirectoryGlobs("src", "src/foo.go");
    DirectoryGlobs("src", "lib/foo.go");
    assert "lib/foo.go"[0] == 'l';
    DirectoryGlobs("src", "src/a/b.go");
    assert "src" + "/*" == "src/*";
    assert "src" + "/**" == "src/**";
    assert "src/foo.go"[|"src/foo.go"| - 2..] == "go";
    assert "*.js"[|"*.js"| - 2..] == "js";
    forall path
      ensures Matches("src/foo.go", path) <==> path == "src/foo.go"
    {
      MatchesLiteral("src/foo.go", path);
    }
    forall path
      ensures Matches("*.js", path) <==> path == "*.js"
    {
      MatchesLiteral("*.js", path);
    }
  }

  /** A rule can win only with a non-empty pattern: the loop starts from a
      best length of 0 and replaces only on a strictly longer pattern. */
  predicate Applies(c: CodeOwner, path: string) {
    |c.directoryPath| > 0 && Matches(c.directoryPath, path)
  }

  /** A pattern's length as JavaScript counts it, in UTF-16 code units. */
  function PatternLength(c: CodeOwner): (n: nat)
    ensures |c.directoryPath| <= n <= 2 * |c.directoryPath|
  {
    Utf16.Length(c.directoryPath)
  }

  /** Rule `i` is the first among rules `0..k` of greatest pattern length
      that applies. */
  ghost predicate IsFirstLongest(rules: seq<CodeOwner>, applies: CodeOwner -> bool, k: nat, i: nat)
    requires k <= |rules|
  {
    && i < k
    && applies(rules[i])
    && (forall j :: 0 <= j < k && applies(rules[j]) ==> PatternLength(rules[j]) <= PatternLength(rules[i]))
    && (forall j :: 0 <= j < i && applies(rules[j]) ==> PatternLength(rules[j]) < PatternLength(rules[i]))
  }

  /** The resolver's scan over the first `k` rules, keeping the index of the
      best rule so far: a rule replaces it only when the rule applies and its
      pattern is strictly longer than the best length, which starts at 0. */
  function Scan(rules: seq<CodeOwner>, applies: CodeOwner -> bool, k: nat): (best: Option<nat>)
    requires k <= |rules|
    ensures best.Some? ==> best.value < k
  {
    if k == 0 then None
    else
      var b := Scan(rules, applies, k - 1);
      var bestLength := if b.Some? then PatternLength(rules[b.value]) else 0;
      var c := rules[k - 1];
      if applies(c) && PatternLength(c) > bestLength then Some(k - 1) else b
  }

  /** When only non-empty patterns apply, the scan finds a rule exactly when
      one applies, and it finds the first of the longest. */
  lemma {:induction false} ScanFindsFirstLongest(rules: seq<CodeOwner>, applies: CodeOwner -> bool, k: nat)
    requires k <= |rules|
    requires forall c :: applies(c) ==> |c.directoryPath| > 0
    ensures Scan(rules, applies, k).None? <==> forall j :: 0 <= j < k ==> !applies(rules[j])
    ensures Scan(rules, applies, k).Some? ==> IsFirstLongest(rules, applies, k, Scan(rules, applies, k).value)
  {
    if k > 0 {
      ScanFindsFirstLongest(rules, applies, k - 1);
    }
  }

  /** The rules of one repository, in table order. */
  function RulesOf(rules: seq<CodeOwner>, repositoryId: nat): (rs: seq<CodeOwner>)
    ensures forall c :: c in rs <==> c in rules && c.repositoryId == repositoryId
    ensures Seqs.IsSubsequence(rs, rules)
  {
    Seqs.Filter(rules, (c: CodeOwner) => c.repositoryId == repositoryId)
  }

  function AppliesTo(path: string): CodeOwner -> bool {
    (c: CodeOwner) => Applies(c, path)
  }

  /** The winning rule for a path in a repository, if any applies: among the
      repository's rules in table order, the first of the longest patterns
      that apply. */
  function BestMatch(rules: seq<CodeOwner>, repositoryId: nat, path: string): (best: Option<CodeOwner>)
    ensures best.None? <==> forall c :: c in rules && c.repositoryId == repositoryId ==> !Applies(c, path)
    ensures best.Some? ==> best.value in rules && best.value.repositoryId == repositoryId && Applies(best.value, path)
    ensures best.Some? ==> forall c :: c in rules && c.repositoryId == repositoryId && Applies(c, path) ==>
              PatternLength(c) <= PatternLength(best.value)
    ensures best.Some? ==>
              exists i: nat :: (IsFirstLongest(RulesOf(rules, repositoryId), AppliesTo(path), |RulesOf(rules, repositoryId)|, i)
                                && best.value == RulesOf(rules, repositoryId)[i])
  {
    var rs := RulesOf(rules, repositoryId);
    var applies := AppliesTo(path);
    ScanFindsFirstLongest(rs, applies, |rs|);
    var b := Scan(rs, applies, |rs|);
    if b.Some? then Some(rs[b.value]) else None
  }

  /** The owner assignment for one finding: the owner of the winning rule of
      its repository, or the finding unchanged when no rule applies. */
  function AssignOwner(f: Finding, rules: seq<CodeOwner>): (g: Finding)
    ensures g == f.(owner := g.owner)
    ensures (forall c :: c in rules && c.repositoryId == f.repositoryId ==> !Applies(c, f.directoryPath)) ==> g == f
    ensures (exists c :: c in rules && c.repositoryId == f.repositoryId && Applies(c, f.directoryPath)) ==>
              exists c :: (c in rules && c.repositoryId == f.repositoryId && Applies(c, f.directoryPath)
              && g.owner == Some(c.owner)
              && forall d :: d in rules && d.repositoryId == f.repositoryId && Applies(d, f.directoryPath) ==>
                   PatternLength(d) <= PatternLength(c))
    ensures BestMatch(rules, f.repositoryId, f.directoryPath).Some? ==>
              g.owner == Some(BestMatch(rules, f.repositoryId, f.directoryPath).value.owner)
  {
    match BestMatch(rules, f.repositoryId, f.directoryPath)
    case Some(c) => f.(owner := Some(c.owner))
    case None => f
  }

  /** The outcome does not depend on the owner a finding had before. */
  lemma AssignOwnerIgnoresPriorOwner(f: Finding, rules: seq<CodeOwner>, prior: Option<string>)
    requires exists c :: c in rules && c.repositoryId == f.repositoryId && Applies(c, f.directoryPath)
    ensures AssignOwner(f.(owner := prior), rules) == AssignOwner(f, rules)
  {
  }

  lemma AssignOwnerIdempotent(f: Finding, rules: seq<CodeOwner>)
    ensures AssignOwner(AssignOwner(f, rules), rules) == AssignOwner(f, rules)
  {
  }

  // Lengths count UTF-16 units: the emoji pattern below is four units long and
  // beats the earlier directory glob of three units, though both patterns are
  // three characters long.
  lemma AstralPatternIsLonger(f: Finding, now: Time)
    requires f.repositoryId == 1 && f.directoryPath == "a/\U{1F600}"
    ensures AssignOwner(f, [CodeOwner(1, "r", "a/*", "@x", now), CodeOwner(1, "r", "a/\U{1F600}", "@y", now)]).owner == Some("@y")
  {
    var x, y := CodeOwner(1, "r", "a/*", "@x", now), CodeOwner(1, "r", "a/\U{1F600}", "@y", now);
    Utf16.LengthExamples();
    assert RulesOf([x, y], 1) == [x, y];
    assert Applies(y, f.directoryPath) by {
      MatchesLiteral(y.directoryPath, f.directoryPath);
    }
    assert Scan([x, y], AppliesTo(f.directoryPath), 2) == Some(1) by {
      assert PatternLength(x) == 3 && PatternLength(y) == 4;
    }
  }

  /** The findings table after each finding of `pending` has been looked at:
      a finding with a winning rule is put back with the new owner. */
  function AssignLoop(table: seq<Finding>, pending: seq<Finding>, rules: seq<CodeOwner>): (t: seq<Finding>)
    requires Table.Ordered(table, FindingKey)
    ensures Table.Ordered(t, FindingKey)
    decreases |pending|
  {
    if |pending| == 0 then table
    else
      var f := pending[0];
      var next := if BestMatch(rules, f.repositoryId, f.directoryPath).Some?
                  then Table.Put(table, AssignOwner(f, rules), FindingKey)
                  else table;
      AssignLoop(next, pending[1..], rules)
  }

  /** `assignOwnersToFindings`: a scan of the findings table, as read at the start. */
  function AssignOwners(findings: seq<Finding>, rules: seq<CodeOwner>): (t: seq<Finding>)
    requires Table.Ordered(findings, FindingKey)
    ensures Table.Ordered(t, FindingKey)
  {
    AssignLoop(findings, findings, rules)
  }

  /** The first `k` findings resolved, the rest as read. */
  function ResolvedUpTo(findings: seq<Finding>, rules: seq<CodeOwner>, k: nat): (t: seq<Finding>)
    ensures |t| == |findings|
    ensures forall i :: 0 <= i < |t| ==> FindingKey(t[i]) == FindingKey(findings[i])
  {
    seq(|findings|, i requires 0 <= i < |findings| =>
      if i < k then AssignOwner(findings[i], rules) else findings[i])
  }

  lemma ResolvedOrdered(findings: seq<Finding>, rules: seq<CodeOwner>, k: nat)
    requires Table.Ordered(findings, FindingKey)
    ensures Table.Ordered(ResolvedUpTo(findings, rules, k), FindingKey)
  {
    var t := ResolvedUpTo(findings, rules, k);
    forall i, j | 0 <= i < j < |t|
      ensures Table.Less(FindingKey(t[i]), FindingKey(t[j]))
    {
    }
  }

  /** Resolving finding `k` in place is one more step of `ResolvedUpTo`. */
  lemma ResolvedStep(findings: seq<Finding>, rules: seq<CodeOwner>, k: nat)
    requires k < |findings|
    ensures ResolvedUpTo(findings, rules, k)[k := AssignOwner(findings[k], rules)] == ResolvedUpTo(findings, rules, k + 1)
  {
    var t := ResolvedUpTo(findings, rules, k)[k := AssignOwner(findings[k], rules)];
    var u := ResolvedUpTo(findings, rules, k + 1);
    forall i | 0 <= i < |t|
      ensures t[i] == u[i]
    {
    }
  }

  lemma {:induction false} AssignLoopResolves(findings: seq<Finding>, rules: seq<CodeOwner>, k: nat)
    requires Table.Ordered(findings, FindingKey) && k <= |findings|
    ensures Table.Ordered(ResolvedUpTo(findings, rules, k), FindingKey)
    ensures AssignLoop(ResolvedUpTo(findings, rules, k), findings[k..], rules) == ResolvedUpTo(findings, rules, |findings|)
    decreases |findings| - k
  {
    ResolvedOrdered(findings, rules, k);
    var t := ResolvedUpTo(findings, rules, k);
    if k < |findings| {
      var f := findings[k];
      var g := AssignOwner(f, rules);
      assert findings[k..][0] == f && findings[k..][1..] == findings[k + 1..];
      ResolvedStep(findings, rules, k);
      if BestMatch(rules, f.repositoryId, f.directoryPath).Some? {
        Table.PutExisting(t, k, g, FindingKey);
      } else {
        assert g == f == t[k];
        assert t[k := g] == t;
      }
      assert AssignLoop(t, findings[k..], rules) == AssignLoop(t[k := g], findings[k + 1..], rules);
      AssignLoopResolves(findings, rules, k + 1);
    } else {
      assert findings[k..] == [];
    }
  }

  /** Resolving the table finding by finding, through puts on the live table,
      is the same as resolving every finding on its own. */
  lemma AssignOwnersPointwise(findings: seq<Finding>, rules: seq<CodeOwner>)
    requires Table.Ordered(findings, FindingKey)
    ensures |AssignOwners(findings, rules)| == |findings|
    ensures forall i :: 0 <= i < |findings| ==> AssignOwners(findings, rules)[i] == AssignOwner(findings[i], rules)
  {
    assert ResolvedUpTo(findings, rules, 0) == findings;
    AssignLoopResolves(findings, rules, 0);
  }

  /** Running the resolver twice is running it once. */
  lemma AssignOwnersIdempotent(findings: seq<Finding>, rules: seq<CodeOwner>)
    requires Table.Ordered(findings, FindingKey)
    ensures AssignOwners(AssignOwners(findings, rules), rules) == AssignOwners(findings, rules)
  {
    var once := AssignOwners(findings, rules);
    AssignOwnersPointwise(findings, rules);
    AssignOwnersPointwise(once, rules);
    forall i | 0 <= i < |findings|
      ensures AssignOwners(once, rules)[i] == once[i]
    {
      AssignOwnerIdempotent(findings[i], rules);
    }
  }
}

=== FILE: compliance.dfy ===
/** The compliance evaluator of `performComplianceChecks`
    (src/services/github.ts): four facets per production repository, each
    falling back to `false` when its lookup fails. */
module Compliance {
  import opened Wrappers
  import Text
  import Seqs
  import Table
  import Severity
  import opened Store
  import CodeOwners

  datatype Permissions = Permissions(admin: bool, maintain: bool)

  /** A collaborator; the listing may omit the permissions object. */
  datatype Collaborator = Collaborator(login: string, permissions: Option<Permissions>)

  /** Findings of at least this age count against a repository. */
  const OldFindingMs: int := 30 * DayMs

  /** Only repositories whose environment type is exactly `Production` are evaluated. */
  predicate IsProduction(r: Repository) {
    r.properties.environmentType == Some("Production")
  }

  /** Facet 1: an ownership file was found, and it mentions `*` somewhere. */
  function ValidCodeowners(located: Option<CodeOwners.Located>): (valid: bool)
    ensures valid <==> located.Some? && '*' in located.value.content
  {
    if located.Some? then
      Text.ContainsChar(located.value.content, '*');
      located.value.content != "" && Text.Contains(located.value.content, "*")
    else false
  }

  /** A finding of the repository, high or critical in one of the four
      accepted spellings, created strictly before the 30-day cut-off. */
  predicate IsOldHighCritical(f: Finding, repositoryId: nat, now: Time) {
    && f.repositoryId == repositoryId
    && Severity.IsHighOrCritical(f.severity)
    && f.createdAt < now - OldFindingMs
  }

  /** Facet 2: the count of old high or critical findings is positive. */
  function HasOldHighCritical(findings: seq<Finding>, repositoryId: nat, now: Time): (stale: bool)
    ensures stale <==> exists f :: f in findings && IsOldHighCritical(f, repositoryId, now)
  {
    Seqs.Count(findings, (f: Finding) => IsOldHighCritical(f, repositoryId, now)) > 0
  }

  /** Facet 3: the collaborator listing succeeded and is non-empty. */
  function DirectUserAccess(collaborators: Option<seq<Collaborator>>): (direct: bool)
    ensures direct <==> collaborators.Some? && |collaborators.value| > 0
  {
    collaborators.Some? && |collaborators.value| > 0
  }

  predicate Elevated(c: Collaborator) {
    c.permissions.Some? && (c.permissions.value.admin || c.permissions.value.maintain)
  }

  /** Facet 4: the collaborator listing succeeded and some collaborator has
      admin or maintain permission. */
  function AdminOwnerAccess(collaborators: Option<seq<Collaborator>>): (elevated: bool)
    ensures elevated <==> collaborators.Some? && exists c :: c in collaborators.value && Elevated(c)
    ensures elevated ==> DirectUserAccess(collaborators)
  {
    collaborators.Some? && Seqs.Count(collaborators.value, Elevated) > 0
  }

  /** The compliance record of one repository. */
  function Evaluate(repo: Repository, located: Option<CodeOwners.Located>, findings: seq<Finding>,
                    collaborators: Option<seq<Collaborator>>, now: Time): (c: ComplianceCheck)
    ensures c.repositoryId == repo.id && c.repositoryName == repo.fullName && c.lastChecked == now
    ensures c.validCodeowners <==> located.Some? && '*' in located.value.content
    ensures c.oldHighCriticalFindings <==> exists f :: f in findings && IsOldHighCritical(f, repo.id, now)
    ensures c.directUserAccess <==> collaborators.Some? && |collaborators.value| > 0
    ensures c.adminOwnerAccess <==> collaborators.Some? && exists p :: p in collaborators.value && Elevated(p)
  {
    ComplianceCheck(repo.id, repo.fullName, ValidCodeowners(located), HasOldHighCritical(findings, repo.id, now),
                    DirectUserAccess(collaborators), AdminOwnerAccess(collaborators), now)
  }

  /** Failed lookups leave their facets `false`: a repository with no
      ownership file found, no findings and a failed collaborator listing
      gets the all-false record. */
  lemma FailedLookupsAreFalse(repo: Repository, now: Time)
    ensures var c := Evaluate(repo, None, [], None, now);
            !c.validCodeowners && !c.oldHighCriticalFindings && !c.directUserAccess && !c.adminOwnerAccess
  {
  }

  /** The severity test is case-sensitive: `High` counts for nothing. */
  lemma SeverityTestIsCaseSensitive(f: Finding, now: Time)
    requires f.createdAt < now - OldFindingMs
    ensures f.(severity := "High").repositoryId == f.repositoryId
    ensures HasOldHighCritical([f.(severity := "HIGH")], f.repositoryId, now)
    ensures !HasOldHighCritical([f.(severity := "High")], f.repositoryId, now)
  {
    assert f.(severity := "HIGH") in [f.(severity := "HIGH")];
    assert "High" != "high" && "High" != "HIGH";
  }

  /** An old finding turns the facet on whatever else the table holds; one
      exactly 30 days old does not. */
  lemma OldFindingBoundary(f: Finding, findings: seq<Finding>, now: Time)
    requires Severity.IsHighOrCritical(f.severity)
    ensures f.createdAt < now - OldFindingMs && f in findings ==> HasOldHighCritical(findings, f.repositoryId, now)
    ensures !IsOldHighCritical(f.(createdAt := now - OldFindingMs), f.repositoryId, now)
  {
  }

  /** The repositories evaluated: the production ones, in table order. */
  function ProductionRepos(repos: seq<Repository>): (prod: seq<Repository>)
    ensures forall r :: r in prod <==> r in repos && IsProduction(r)
    ensures Seqs.IsSubsequence(prod, repos)
  {
    Seqs.Filter(repos, IsProduction)
  }

  /** The inputs the evaluator reads for one repository. */
  function CollaboratorsOf(collaborators: map<nat, seq<Collaborator>>, id: nat): Option<seq<Collaborator>> {
    if id in collaborators then Some(collaborators[id]) else None
  }

  /** The compliance records, one per repository of `prod`, in order. */
  function EvaluateAll(prod: seq<Repository>, contents: map<nat, map<string, CodeOwners.ContentResponse>>,
                       findings: seq<Finding>, collaborators: map<nat, seq<Collaborator>>, now: Time): (cs: seq<ComplianceCheck>)
    ensures |cs| == |prod|
    ensures forall i :: 0 <= i < |prod| ==>
              cs[i] == Evaluate(prod[i], CodeOwners.Locate(CodeOwners.ContentsOf(contents, prod[i].id)), findings,
                                CollaboratorsOf(collaborators, prod[i].id), now)
  {
    if |prod| == 0 then []
    else
      [Evaluate(prod[0], CodeOwners.Locate(CodeOwners.ContentsOf(contents, prod[0].id)), findings,
                CollaboratorsOf(collaborators, prod[0].id), now)]
      + EvaluateAll(prod[1..], contents, findings, collaborators, now)
  }

  /** The keys of the production repositories of the table. */
  function ProductionKeys(repos: seq<Repository>): set<Table.Key> {
    set r | r in repos && IsProduction(r) :: Table.Key(r.id, "")
  }

  /** `performComplianceChecks`: evaluate the production repositories of the
      table and put each record, keyed by repository id. Records of other
      keys, those of repositories that are no longer production included,
      stay as they were. */
  function PerformComplianceChecks(checks: seq<ComplianceCheck>, repos: seq<Repository>,
                                   contents: map<nat, map<string, CodeOwners.ContentResponse>>,
                                   findings: seq<Finding>, collaborators: map<nat, seq<Collaborator>>,
                                   now: Time): (u: seq<ComplianceCheck>)
    requires Table.Ordered(checks, ComplianceKey) && Table.Ordered(repos, RepositoryKey)
    ensures Table.Ordered(u, ComplianceKey)
    ensures forall r :: r in repos && IsProduction(r) ==>
              Table.Get(u, Table.Key(r.id, ""), ComplianceKey)
              == Some(Evaluate(r, CodeOwners.Locate(CodeOwners.ContentsOf(contents, r.id)), findings,
                               CollaboratorsOf(collaborators, r.id), now))
    ensures forall k :: k !in ProductionKeys(repos) ==>
              Table.Get(u, k, ComplianceKey) == Table.Get(checks, k, ComplianceKey)
  {
    var prod := ProductionRepos(repos);
    var cs := EvaluateAll(prod, contents, findings, collaborators, now);
    EvaluateAllKeys(repos, contents, findings, collaborators, now);
    Table.OrderedDistinct(cs, ComplianceKey);
    Table.PutAllDistinct(checks, cs, ComplianceKey);
    Table.PutAll(checks, cs, ComplianceKey)
  }

  /** The records to put are in key order, one per production repository. */
  lemma EvaluateAllKeys(repos: seq<Repository>, contents: map<nat, map<string, CodeOwners.ContentResponse>>,
                        findings: seq<Finding>, collaborators: map<nat, seq<Collaborator>>, now: Time)
    requires Table.Ordered(repos, RepositoryKey)
    ensures var cs := EvaluateAll(ProductionRepos(repos), contents, findings, collaborators, now);
            && Table.Ordered(cs, ComplianceKey)
            && Table.Keys(cs, ComplianceKey) == ProductionKeys(repos)
            && forall r :: r in repos && IsProduction(r) ==>
                 Evaluate(r, CodeOwners.Locate(CodeOwners.ContentsOf(contents, r.id)), findings,
                          CollaboratorsOf(collaborators, r.id), now) in cs
  {
    var prod := ProductionRepos(repos);
    var cs := EvaluateAll(prod, contents, findings, collaborators, now);
    Table.FilterOrdered(repos, IsProduction, RepositoryKey);
    assert forall i :: 0 <= i < |cs| ==> ComplianceKey(cs[i]) == RepositoryKey(prod[i]);
    OrderedLikeRepos(prod, cs);
    forall r | r in repos && IsProduction(r)
      ensures Evaluate(r, CodeOwners.Locate(CodeOwners.ContentsOf(contents, r.id)), findings,
                       CollaboratorsOf(collaborators, r.id), now) in cs
    {
      var i :| 0 <= i < |prod| && prod[i] == r;
      assert cs[i] in cs;
    }
    KeysOfEvaluated(repos, prod, cs);
  }

  /** Records keyed like an ordered list of repositories are ordered too. */
  lemma OrderedLikeRepos(prod: seq<Repository>, cs: seq<ComplianceCheck>)
    requires Table.Ordered(prod, RepositoryKey) && |cs| == |prod|
    requires forall i :: 0 <= i < |cs| ==> ComplianceKey(cs[i]) == RepositoryKey(prod[i])
    ensures Table.Ordered(cs, ComplianceKey)
  {
    forall i, j | 0 <= i < j < |cs|
      ensures Table.Less(ComplianceKey(cs[i]), ComplianceKey(cs[j]))
    {
      assert Table.Less(RepositoryKey(prod[i]), RepositoryKey(prod[j]));
    }
  }

  lemma KeysOfEvaluated(repos: seq<Repository>, prod: seq<Repository>, cs: seq<ComplianceCheck>)
    requires prod == ProductionRepos(repos) && |cs| == |prod|
    requires forall i :: 0 <= i < |cs| ==> ComplianceKey(cs[i]) == RepositoryKey(prod[i])
    ensures Table.Keys(cs, ComplianceKey) == ProductionKeys(repos)
  {
    forall k | k in ProductionKeys(repos)
      ensures k in Table.Keys(cs, ComplianceKey)
    {
      var r :| r in repos && IsProduction(r) && k == Table.Key(r.id, "");
      var i :| 0 <= i < |prod| && prod[i] == r;
      assert ComplianceKey(cs[i]) == k;
    }
    forall k | k in Table.Keys(cs, ComplianceKey)
      ensures k in ProductionKeys(repos)
    {
      var i :| 0 <= i < |cs| && ComplianceKey(cs[i]) == k;
      assert prod[i] in prod;
    }
  }
}

=== FILE: complianceview.dfy ===
/** The compliance page (src/components/Compliance.tsx): the verdict of a
    record, the order the records are listed in, and the summary figures. */
module ComplianceView {
  import Text
  import Seqs
  import opened Store

  /** Compliant: a valid ownership file, no old high or critical finding, no
      direct user access, no admin or maintain access. */
  predicate IsCompliant(c: ComplianceCheck) {
    c.validCodeowners && !c.oldHighCriticalFindings && !c.directUserAccess && !c.adminOwnerAccess
  }

  /** The sort comparator: non-compliant first, then by repository name. */
  function CompareChecks(a: ComplianceCheck, b: ComplianceCheck): (r: int)
    ensures IsCompliant(a) != IsCompliant(b) ==> (r < 0 <==> !IsCompliant(a))
    ensures IsCompliant(a) == IsCompliant(b) ==> r == Text.Compare(a.repositoryName, b.repositoryName)
  {
    if IsCompliant(a) == IsCompliant(b) then Text.Compare(a.repositoryName, b.repositoryName)
    else if IsCompliant(a) then 1 else -1
  }

  /** `a` may be listed before `b`. */
  predicate Before(a: ComplianceCheck, b: ComplianceCheck) {
    CompareChecks(a, b) <= 0
  }

  lemma BeforeTotal(a: ComplianceCheck, b: ComplianceCheck)
    ensures Before(a, b) || Before(b, a)
  {
    Text.CompareAntisymmetric(a.repositoryName, b.repositoryName);
  }

  lemma BeforeTransitive(a: ComplianceCheck, b: ComplianceCheck, c: ComplianceCheck)
    requires Before(a, b) && Before(b, c)
    ensures Before(a, c)
  {
    if IsCompliant(a) == IsCompliant(b) == IsCompliant(c) {
      Text.CompareTransitiveLe(a.repositoryName, b.repositoryName, c.repositoryName);
    }
  }

  predicate Sorted(s: seq<ComplianceCheck>) {
    forall i, j :: 0 <= i < j < |s| ==> Before(s[i], s[j])
  }

  /** `x` inserted into a sorted list after every element not after it. */
  function Insert(x: ComplianceCheck, s: seq<ComplianceCheck>): (r: seq<ComplianceCheck>)
    requires Sorted(s)
    ensures Sorted(r)
    ensures forall y :: y in r <==> y == x || y in s
    ensures multiset(r) == multiset(s) + multiset{x}
  {
    if |s| == 0 then [x]
    else
      Text.HeadTail(s);
      if Before(s[0], x) then
        var rest := Insert(x, s[1..]);
        forall y | y in rest
          ensures Before(s[0], y)
        {
          if y != x {
            var j :| 0 <= j < |s[1..]| && s[1..][j] == y;
            assert s[j + 1] == y;
          }
        }
        SortedCons(s[0], rest);
        [s[0]] + rest
      else
        BeforeTotal(s[0], x);
        forall y | y in s
          ensures Before(x, y)
        {
          var i :| 0 <= i < |s| && s[i] == y;
          if i > 0 {
            BeforeTransitive(x, s[0], s[i]);
          }
        }
        SortedCons(x, s);
        [x] + s
  }

  lemma SortedCons(a: ComplianceCheck, t: seq<ComplianceCheck>)
    requires Sorted(t) && forall y :: y in t ==> Before(a, y)
    ensures Sorted([a] + t)
  {
    var u := [a] + t;
    forall i, j | 0 <= i < j < |u|
      ensures Before(u[i], u[j])
    {
      assert u[j] == t[j - 1];
      if i > 0 {
        assert u[i] == t[i - 1];
      } else {
        assert t[j - 1] in t;
      }
    }
  }

  /** The listing order: a stable insertion sort by the comparator. */
  function Sort(s: seq<ComplianceCheck>): (r: seq<ComplianceCheck>)
    ensures Sorted(r)
    ensures multiset(r) == multiset(s)
    ensures |r| == |s|
  {
    if |s| == 0 then []
    else
      var r := Insert(s[|s| - 1], Sort(s[..|s| - 1]));
      assert s == s[..|s| - 1] + [s[|s| - 1]];
      assert |r| == |multiset(r)|;
      r
  }

  /** After sorting, non-compliant records come first, and records of the
      same status are in ascending repository-name order. */
  lemma SortOrder(s: seq<ComplianceCheck>)
    ensures forall i, j :: 0 <= i < j < |Sort(s)| && IsCompliant(Sort(s)[i]) ==> IsCompliant(Sort(s)[j])
    ensures forall i, j :: 0 <= i < j < |Sort(s)| && IsCompliant(Sort(s)[i]) == IsCompliant(Sort(s)[j]) ==>
              Text.Compare(Sort(s)[i].repositoryName, Sort(s)[j].repositoryName) <= 0
  {
  }

  function CompliantCount(s: seq<ComplianceCheck>): (n: nat)
    ensures n <= |s|
    ensures n == |s| <==> forall i :: 0 <= i < |s| ==> IsCompliant(s[i])
  {
    Seqs.Count(s, IsCompliant)
  }

  predicate IsNonCompliant(c: ComplianceCheck) {
    !IsCompliant(c)
  }

  function NonCompliantCount(s: seq<ComplianceCheck>): (n: nat)
    ensures n == 0 <==> forall i :: 0 <= i < |s| ==> IsCompliant(s[i])
  {
    Seqs.Count(s, IsNonCompliant)
  }

  /** The two counts split the total. */
  lemma CountsPartition(s: seq<ComplianceCheck>)
    ensures CompliantCount(s) + NonCompliantCount(s) == |s|
  {
    Seqs.FilterPartition(s, IsCompliant, IsNonCompliant);
  }

  /** JavaScript's `Math.round(100 * c / n)` for `0 <= c <= n`: the
      percentage to the nearest integer, halves rounding up. */
  function Percent(c: nat, n: nat): (pct: nat)
    requires c <= n && n > 0
    ensures 200 * c - n <= 2 * n * pct <= 200 * c + n
    ensures pct <= 100
    ensures c == 0 ==> pct == 0
    ensures c == n ==> pct == 100
  {
    var q := (200 * c + n) / (2 * n);
    assert 2 * n * q <= 200 * c + n < 2 * n * q + 2 * n by {
      DivBounds(200 * c + n, 2 * n);
    }
    PercentBounds(c, n, q);
    q
  }

  lemma DivBounds(x: nat, d: nat)
    requires d > 0
    ensures d * (x / d) <= x < d * (x / d) + d
  {
  }

  lemma PercentBounds(c: nat, n: nat, q: nat)
    requires c <= n && n > 0
    requires 2 * n * q <= 200 * c + n < 2 * n * q + 2 * n
    ensures q <= 100
    ensures c == 0 ==> q == 0
    ensures c == n ==> q == 100
  {
    if q > 100 {
      MulMonotone(101, q, 2 * n);
    }
    if c == 0 && q > 0 {
      MulMonotone(1, q, 2 * n);
    }
    if c == n && q < 100 {
      MulMonotone(q + 1, 100, 2 * n);
    }
  }

  lemma MulMonotone(a: nat, b: nat, m: nat)
    requires a <= b
    ensures m * a <= m * b
  {
  }

  /** The compliance rate shown as a percentage; 0 for an empty list, and
      otherwise the compliant share to the nearest percent. */
  function Rate(s: seq<ComplianceCheck>): (pct: nat)
    ensures |s| == 0 ==> pct == 0
    ensures |s| > 0 ==> 200 * CompliantCount(s) - |s| <= 2 * |s| * pct <= 200 * CompliantCount(s) + |s|
    ensures pct <= 100
    ensures |s| > 0 && CompliantCount(s) == |s| ==> pct == 100
    ensures CompliantCount(s) == 0 ==> pct == 0
  {
    if |s| > 0 then Percent(CompliantCount(s), |s|) else 0
  }

  /** Sorting changes neither the counts nor the rate. */
  lemma SortKeepsFigures(s: seq<ComplianceCheck>)
    ensures CompliantCount(Sort(s)) == CompliantCount(s)
    ensures NonCompliantCount(Sort(s)) == NonCompliantCount(s)
    ensures Rate(Sort(s)) == Rate(s)
  {
    SortKeepsCount(s);
    CountsPartition(s);
    CountsPartition(Sort(s));
  }

  lemma {:induction false} SortKeepsCount(s: seq<ComplianceCheck>)
    ensures CompliantCount(Sort(s)) == CompliantCount(s)
    decreases |s|
  {
    if |s| > 0 {
      var init, x := s[..|s| - 1], s[|s| - 1];
      assert s == init + [x];
      CountSplit(init, [x]);
      SortKeepsCount(init);
      InsertCount(x, Sort(init));
      assert Sort(s) == Insert(x, Sort(init));
    }
  }

  lemma {:induction false} InsertCount(x: ComplianceCheck, s: seq<ComplianceCheck>)
    requires Sorted(s)
    ensures CompliantCount(Insert(x, s)) == CompliantCount(s) + CompliantCount([x])
    decreases |s|
  {
    if |s| > 0 {
      assert s == [s[0]] + s[1..];
      CountSplit([s[0]], s[1..]);
      if Before(s[0], x) {
        InsertCount(x, s[1..]);
        CountSplit([s[0]], Insert(x, s[1..]));
      } else {
        CountSplit([x], s);
      }
    }
  }

  lemma {:induction false} CountSplit(a: seq<ComplianceCheck>, b: seq<ComplianceCheck>)
    ensures CompliantCount(a + b) == CompliantCount(a) + CompliantCount(b)
    decreases |a|
  {
    if |a| > 0 {
      assert (a + b)[1..] == a[1..] + b;
      CountSplit(a[1..], b);
    } else {
      assert a + b == b;
    }
  }
}

=== FILE: dashboard.dfy ===
/** The dashboard (src/components/Dashboard.tsx): the figures it derives from
    the cache on load, the condition that starts a sync on load, and the
    refresh that re-derives them after a sync. */
module Dashboard {
  import opened Wrappers
  import Seqs
  import Severity
  import opened Store
  import ComplianceView
  import Sync

  datatype SecurityStats = SecurityStats(high: nat, medium: nat, low: nat)

  datatype ComplianceStats = ComplianceStats(compliant: nat, nonCompliant: nat)

  /** The state the page shows. */
  datatype View = View(
    stale: bool,
    metrics: Option<MetricsSummary>,
    lastFetched: Option<Time>,
    security: SecurityStats,
    compliance: ComplianceStats)

  /** The state before anything is loaded. */
  const Initial: View := View(false, None, None, SecurityStats(0, 0, 0), ComplianceStats(0, 0))

  predicate IsHigh(f: Finding) { Severity.IsHighOrCritical(f.severity) }
  predicate IsMedium(f: Finding) { Severity.IsMedium(f.severity) }
  predicate IsLow(f: Finding) { Severity.IsLow(f.severity) }

  /** The three severity buckets, each an exact-spelling count. */
  function SecurityStatsOf(findings: seq<Finding>): (st: SecurityStats)
    ensures st.high == |Seqs.Filter(findings, IsHigh)|
    ensures st.medium == |Seqs.Filter(findings, IsMedium)|
    ensures st.low == |Seqs.Filter(findings, IsLow)|
  {
    SecurityStats(Seqs.Count(findings, IsHigh), Seqs.Count(findings, IsMedium), Seqs.Count(findings, IsLow))
  }

  predicate InSomeBucket(f: Finding) { IsHigh(f) || IsMedium(f) || IsLow(f) }
  predicate HighOrMedium(f: Finding) { IsHigh(f) || IsMedium(f) }

  /** No severity is in two buckets, so the buckets add up to at most the
      number of findings; a severity outside the ten spellings is in none. */
  lemma BucketsDisjoint(findings: seq<Finding>)
    ensures var st := SecurityStatsOf(findings);
            st.high + st.medium + st.low == |Seqs.Filter(findings, InSomeBucket)| <= |findings|
    ensures forall f: Finding :: f.severity == "unknown" || f.severity == "High" ==> !InSomeBucket(f)
  {
    forall f: Finding
      ensures !(IsHigh(f) && IsMedium(f)) && !(HighOrMedium(f) && IsLow(f))
    {
    }
    Seqs.CountDisjoint(findings, IsHigh, IsMedium, HighOrMedium);
    Seqs.CountDisjoint(findings, HighOrMedium, IsLow, InSomeBucket);
  }

  /** The compliant count, with the page's own verdict, and the rest. */
  function ComplianceStatsOf(checks: seq<ComplianceCheck>): (st: ComplianceStats)
    ensures st.compliant == ComplianceView.CompliantCount(checks)
    ensures st.nonCompliant == ComplianceView.NonCompliantCount(checks)
    ensures st.compliant + st.nonCompliant == |checks|
  {
    var c := ComplianceView.CompliantCount(checks);
    ComplianceView.CountsPartition(checks);
    ComplianceStats(c, |checks| - c)
  }

  /** `loadData` without its sync: the staleness flag, the summary when there
      is one (otherwise the previous one stays), and the figures. */
  function Load(db: Db, now: Time, v: View): (v': View)
    ensures v'.stale == IsDataStale(db, now)
    ensures Summary(db).Some? ==> v'.metrics == Summary(db) && v'.lastFetched == Some(Summary(db).value.lastFetched)
    ensures Summary(db).None? ==> v'.metrics == v.metrics && v'.lastFetched == v.lastFetched
    ensures v'.security == SecurityStatsOf(db.securityFindings)
    ensures v'.compliance == ComplianceStatsOf(db.complianceChecks)
  {
    var s := Summary(db);
    View(IsDataStale(db, now),
         if s.Some? then s else v.metrics,
         if s.Some? then Some(s.value.lastFetched) else v.lastFetched,
         SecurityStatsOf(db.securityFindings),
         ComplianceStatsOf(db.complianceChecks))
  }

  /** The load starts a sync when there is no summary or the data is stale,
      which is exactly when the data is stale. */
  function ShouldRefresh(db: Db, now: Time): (refresh: bool)
    ensures refresh <==> IsDataStale(db, now)
  {
    Summary(db).None? || IsDataStale(db, now)
  }

  /** `handleRefresh`: sync, then re-derive everything from the cache. A
      failed sync is caught and leaves the page as it was, although the
      stages before the failure have written the cache. */
  function Refresh(v: View, db: ValidDb, remote: Sync.Remote, faults: set<Sync.Stage>, now: Time): (r: (View, ValidDb))
    ensures r.1 == Sync.FetchAllData(db, remote, faults, now).db
    ensures faults != {} ==> r.0 == v
    ensures faults == {} ==> !r.0.stale && r.0.metrics.Some? && r.0.metrics.value.lastFetched == now
  {
    var out := Sync.FetchAllData(db, remote, faults, now);
    if out.failed.Some? then (v, out.db)
    else
      Sync.SuccessfulSyncWritesSummary(db, remote, now);
      var s := Summary(out.db);
      (View(false,
            if s.Some? then s else v.metrics,
            if s.Some? then Some(s.value.lastFetched) else v.lastFetched,
            SecurityStatsOf(out.db.securityFindings),
            ComplianceStatsOf(out.db.complianceChecks)),
       out.db)
  }

  /** After a successful sync the refresh shows what a fresh load of the
      synced cache would show. */
  lemma RefreshIsLoad(v: View, db: ValidDb, remote: Sync.Remote, now: Time)
    ensures Refresh(v, db, remote, {}, now).0 == Load(Refresh(v, db, remote, {}, now).1, now, v)
  {
    Sync.SuccessfulSyncWritesSummary(db, remote, now);
  }

  /** The page on opening: load, and when the data is stale, refresh. */
  function Open(db: ValidDb, remote: Sync.Remote, faults: set<Sync.Stage>, now: Time): (r: (View, ValidDb))
    ensures !IsDataStale(db, now) ==> r == (Load(db, now, Initial), db)
    ensures IsDataStale(db, now) && faults != {} ==> r.0 == Load(db, now, Initial)
    ensures IsDataStale(db, now) && faults == {} ==> !r.0.stale && r.0.metrics.Some?
  {
    var v := Load(db, now, Initial);
    if ShouldRefresh(db, now) then Refresh(v, db, remote, faults, now) else (v, db)
  }

  /** A failed sync on opening keeps the cache's summary, so the next
      opening is stale again and retries. */
  lemma FailedOpenRetries(db: ValidDb, remote: Sync.Remote, faults: set<Sync.Stage>, now: Time)
    requires IsDataStale(db, now) && faults != {}
    ensures IsDataStale(Open(db, remote, faults, now).1, now)
  {
    Sync.FailedSyncKeepsSummary(db, remote, faults, now);
  }
}

=== FILE: findings.dfy ===
/** Normalisation of the three alert kinds into finding records, as done by
    `fetchSecurityFindings` (src/services/github.ts). */
module Findings {
  import opened Wrappers
  import Text
  import Seqs
  import Table
  import opened Store

  /** The fields of a code-scanning alert the engine reads. `message` and
      `path` come from the alert's most recent instance, which may lack them. */
  datatype CodeScanningAlert = CodeScanningAlert(
    number: nat,
    ruleSeverity: Option<string>,
    ruleDescription: string,
    message: Option<string>,
    htmlUrl: string,
    createdAt: Time,
    path: Option<string>)

  datatype SecretScanningAlert = SecretScanningAlert(
    number: nat,
    secretType: string,
    htmlUrl: string,
    createdAt: Time,
    location: Option<string>)

  datatype DependabotAlert = DependabotAlert(
    number: nat,
    severity: string,
    summary: string,
    description: string,
    htmlUrl: string,
    createdAt: Time,
    manifestPath: Option<string>)

  /** The three alert listings of one repository; `None` is a listing whose
      call failed, which contributes no findings. */
  datatype RepoAlerts = RepoAlerts(
    codeScanning: Option<seq<CodeScanningAlert>>,
    secretScanning: Option<seq<SecretScanningAlert>>,
    dependabot: Option<seq<DependabotAlert>>)

  const NoAlerts: RepoAlerts := RepoAlerts(None, None, None)

  function IdPrefix(tool: Tool): (p: string)
    ensures |p| > 0 && p[|p| - 1] == '_'
  {
    match tool
    case CodeScanning => "code_"
    case SecretScanning => "secret_"
    case Dependabot => "dependabot_"
  }

  /** The finding id: tool prefix, repository id, `_`, alert number. */
  function FindingId(tool: Tool, repositoryId: nat, number: nat): (id: string)
    ensures IdPrefix(tool) <= id
  {
    IdPrefix(tool) + Text.NatToString(repositoryId) + "_" + Text.NatToString(number)
  }

  lemma NoSeparatorInDigits(n: nat)
    ensures '_' !in Text.NatToString(n)
  {
  }

  /** Distinct (tool, repository, alert number) triples get distinct ids. */
  lemma FindingIdInjective(t1: Tool, r1: nat, n1: nat, t2: Tool, r2: nat, n2: nat)
    ensures FindingId(t1, r1, n1) == FindingId(t2, r2, n2) <==> t1 == t2 && r1 == r2 && n1 == n2
  {
    if FindingId(t1, r1, n1) == FindingId(t2, r2, n2) {
      SameIdSameTool(t1, r1, n1, t2, r2, n2);
      SameIdSameNumbers(t1, r1, n1, r2, n2);
    }
  }

  /** The tool prefixes differ in their first character. */
  lemma SameIdSameTool(t1: Tool, r1: nat, n1: nat, t2: Tool, r2: nat, n2: nat)
    requires FindingId(t1, r1, n1) == FindingId(t2, r2, n2)
    ensures t1 == t2
  {
    var id := FindingId(t1, r1, n1);
    assert IdPrefix(t1)[0] == id[0] == IdPrefix(t2)[0];
  }

  lemma SameIdSameNumbers(t: Tool, r1: nat, n1: nat, r2: nat, n2: nat)
    requires FindingId(t, r1, n1) == FindingId(t, r2, n2)
    ensures r1 == r2 && n1 == n2
  {
    var p := IdPrefix(t);
    var a, b := Text.NatToString(r1), Text.NatToString(n1);
    var c, d := Text.NatToString(r2), Text.NatToString(n2);
    var id1 := FindingId(t, r1, n1);
    assert id1 == p + (a + "_" + b);
    assert id1 == p + (c + "_" + d);
    assert a + "_" + b == id1[|p|..] == c + "_" + d;
    NoSeparatorInDigits(r1);
    NoSeparatorInDigits(r2);
    Text.SeparatorSplit(a, b, c, d, '_');
    Text.NatToStringInjective(r1, r2);
    Text.NatToStringInjective(n1, n2);
  }

  /** A code-scanning alert as a finding: a missing rule severity becomes
      `unknown`, a missing message or path becomes empty. */
  function FromCodeScanning(repo: Repository, a: CodeScanningAlert, now: Time): (f: Finding)
    ensures f.id == FindingId(CodeScanning, repo.id, a.number)
    ensures f.repositoryId == repo.id && f.repositoryName == repo.fullName && f.tool == CodeScanning
    ensures f.severity == (if Truthy(a.ruleSeverity) then a.ruleSeverity.value else "unknown")
    ensures f.severity != ""
    ensures f.description == (if Truthy(a.message) then a.message.value else "")
    ensures f.directoryPath == (if Truthy(a.path) then a.path.value else "")
    ensures f.title == a.ruleDescription && f.htmlUrl == a.htmlUrl && f.createdAt == a.createdAt
    ensures f.owner.None? && f.lastFetched == now
  {
    Finding(FindingId(CodeScanning, repo.id, a.number), repo.id, repo.fullName, CodeScanning,
            OrElse(a.ruleSeverity, "unknown"), a.ruleDescription, OrElse(a.message, ""),
            a.htmlUrl, a.createdAt, OrElse(a.path, ""), None, now)
  }

  /** A secret-scanning alert as a finding: always critical, titled after the
      secret type. */
  function FromSecretScanning(repo: Repository, a: SecretScanningAlert, now: Time): (f: Finding)
    ensures f.id == FindingId(SecretScanning, repo.id, a.number)
    ensures f.repositoryId == repo.id && f.repositoryName == repo.fullName && f.tool == SecretScanning
    ensures f.severity == "critical"
    ensures f.title == "Exposed " + a.secretType && f.description == "Secret detected in " + a.secretType
    ensures f.directoryPath == (if Truthy(a.location) then a.location.value else "")
    ensures f.htmlUrl == a.htmlUrl && f.createdAt == a.createdAt
    ensures f.owner.None? && f.lastFetched == now
  {
    Finding(FindingId(SecretScanning, repo.id, a.number), repo.id, repo.fullName, SecretScanning,
            "critical", "Exposed " + a.secretType, "Secret detected in " + a.secretType,
            a.htmlUrl, a.createdAt, OrElse(a.location, ""), None, now)
  }

  /** A Dependabot alert as a finding: the advisory's severity, verbatim. */
  function FromDependabot(repo: Repository, a: DependabotAlert, now: Time): (f: Finding)
    ensures f.id == FindingId(Dependabot, repo.id, a.number)
    ensures f.repositoryId == repo.id && f.repositoryName == repo.fullName && f.tool == Dependabot
    ensures f.severity == a.severity && f.title == a.summary && f.description == a.description
    ensures f.directoryPath == (if Truthy(a.manifestPath) then a.manifestPath.value else "")
    ensures f.htmlUrl == a.htmlUrl && f.createdAt == a.createdAt
    ensures f.owner.None? && f.lastFetched == now
  {
    Finding(FindingId(Dependabot, repo.id, a.number), repo.id, repo.fullName, Dependabot,
            a.severity, a.summary, a.description,
            a.htmlUrl, a.createdAt, OrElse(a.manifestPath, ""), None, now)
  }

  /** What every freshly normalised finding of `repo` satisfies. */
  ghost predicate Fresh(f: Finding, repo: Repository, now: Time) {
    && f.repositoryId == repo.id
    && f.repositoryName == repo.fullName
    && f.owner.None?
    && f.lastFetched == now
    && (f.tool == SecretScanning ==> f.severity == "critical")
    && (exists n: nat :: f.id == FindingId(f.tool, repo.id, n))
  }

  function CodeScanningFindings(repo: Repository, alerts: seq<CodeScanningAlert>, now: Time): (fs: seq<Finding>)
    ensures |fs| == |alerts|
    ensures forall i :: 0 <= i < |alerts| ==> fs[i] == FromCodeScanning(repo, alerts[i], now)
  {
    if |alerts| == 0 then []
    else [FromCodeScanning(repo, alerts[0], now)] + CodeScanningFindings(repo, alerts[1..], now)
  }

  function SecretScanningFindings(repo: Repository, alerts: seq<SecretScanningAlert>, now: Time): (fs: seq<Finding>)
    ensures |fs| == |alerts|
    ensures forall i :: 0 <= i < |alerts| ==> fs[i] == FromSecretScanning(repo, alerts[i], now)
  {
    if |alerts| == 0 then []
    else [FromSecretScanning(repo, alerts[0], now)] + SecretScanningFindings(repo, alerts[1..], now)
  }

  function DependabotFindings(repo: Repository, alerts: seq<DependabotAlert>, now: Time): (fs: seq<Finding>)
    ensures |fs| == |alerts|
    ensures forall i :: 0 <= i < |alerts| ==> fs[i] == FromDependabot(repo, alerts[i], now)
  {
    if |alerts| == 0 then []
    else [FromDependabot(repo, alerts[0], now)] + DependabotFindings(repo, alerts[1..], now)
  }

  lemma CodeScanningFresh(repo: Repository, alerts: seq<CodeScanningAlert>, now: Time)
    ensures forall f :: f in CodeScanningFindings(repo, alerts, now) ==> Fresh(f, repo, now)
  {
    var fs := CodeScanningFindings(repo, alerts, now);
    forall f | f in fs ensures Fresh(f, repo, now) {
      var i :| 0 <= i < |fs| && fs[i] == f;
      assert f.id == FindingId(f.tool, repo.id, alerts[i].number);
    }
  }

  lemma SecretScanningFresh(repo: Repository, alerts: seq<SecretScanningAlert>, now: Time)
    ensures forall f :: f in SecretScanningFindings(repo, alerts, now) ==> Fresh(f, repo, now)
  {
    var fs := SecretScanningFindings(repo, alerts, now);
    forall f | f in fs ensures Fresh(f, repo, now) {
      var i :| 0 <= i < |fs| && fs[i] == f;
      assert f.id == FindingId(f.tool, repo.id, alerts[i].number);
    }
  }

  lemma DependabotFresh(repo: Repository, alerts: seq<DependabotAlert>, now: Time)
    ensures forall f :: f in DependabotFindings(repo, alerts, now) ==> Fresh(f, repo, now)
  {
    var fs := DependabotFindings(repo, alerts, now);
    forall f | f in fs ensures Fresh(f, repo, now) {
      var i :| 0 <= i < |fs| && fs[i] == f;
      assert f.id == FindingId(f.tool, repo.id, alerts[i].number);
    }
  }

  /** The number of alerts of a listing; a failed listing has none. */
  function Listed<T>(listing: Option<seq<T>>): (n: nat)
    ensures n > 0 ==> listing.Some?
  {
    if listing.Some? then |listing.value| else 0
  }

  /** The findings of a code-scanning listing; a failed one gives none. */
  function CodeScanningListing(repo: Repository, listing: Option<seq<CodeScanningAlert>>, now: Time): (fs: seq<Finding>)
    ensures |fs| == Listed(listing)
    ensures forall i :: 0 <= i < Listed(listing) ==> fs[i] == FromCodeScanning(repo, listing.value[i], now)
  {
    if listing.None? then [] else CodeScanningFindings(repo, listing.value, now)
  }

  /** The findings of a secret-scanning listing; a failed one gives none. */
  function SecretScanningListing(repo: Repository, listing: Option<seq<SecretScanningAlert>>, now: Time): (fs: seq<Finding>)
    ensures |fs| == Listed(listing)
    ensures forall i :: 0 <= i < Listed(listing) ==> fs[i] == FromSecretScanning(repo, listing.value[i], now)
  {
    if listing.None? then [] else SecretScanningFindings(repo, listing.value, now)
  }

  /** The findings of a Dependabot listing; a failed one gives none. */
  function DependabotListing(repo: Repository, listing: Option<seq<DependabotAlert>>, now: Time): (fs: seq<Finding>)
    ensures |fs| == Listed(listing)
    ensures forall i :: 0 <= i < Listed(listing) ==> fs[i] == FromDependabot(repo, listing.value[i], now)
  {
    if listing.None? then [] else DependabotFindings(repo, listing.value, now)
  }

  /** The findings of one repository: one per alert, code scanning first,
      then secret scanning, then Dependabot, each in listing order. A failed
      listing contributes nothing and does not stop the others. */
  function RepoFindings(repo: Repository, alerts: RepoAlerts, now: Time): (fs: seq<Finding>)
    ensures |fs| == Listed(alerts.codeScanning) + Listed(alerts.secretScanning) + Listed(alerts.dependabot)
  {
    CodeScanningListing(repo, alerts.codeScanning, now)
    + SecretScanningListing(repo, alerts.secretScanning, now)
    + DependabotListing(repo, alerts.dependabot, now)
  }

  /** Every finding of a repository is fresh, whichever listings failed. */
  lemma RepoFindingsFresh(repo: Repository, alerts: RepoAlerts, now: Time)
    ensures forall f :: f in RepoFindings(repo, alerts, now) ==> Fresh(f, repo, now)
  {
    var code := CodeScanningListing(repo, alerts.codeScanning, now);
    var secret := SecretScanningListing(repo, alerts.secretScanning, now);
    var dependabot := DependabotListing(repo, alerts.dependabot, now);
    if alerts.codeScanning.Some? { CodeScanningFresh(repo, alerts.codeScanning.value, now); }
    if alerts.secretScanning.Some? { SecretScanningFresh(repo, alerts.secretScanning.value, now); }
    if alerts.dependabot.Some? { DependabotFresh(repo, alerts.dependabot.value, now); }
  }

  /** The alerts of a repository; a repository missing from `alerts` had all
      three listings fail. */
  function AlertsOf(alerts: map<nat, RepoAlerts>, id: nat): RepoAlerts {
    if id in alerts then alerts[id] else NoAlerts
  }

  /** `fetchSecurityFindings` before its bulk put: the findings of every
      repository of the table, in table order. */
  function FetchSecurityFindings(repos: seq<Repository>, alerts: map<nat, RepoAlerts>, now: Time): (fs: seq<Finding>)
    ensures forall i, f :: 0 <= i < |repos| && f in RepoFindings(repos[i], AlertsOf(alerts, repos[i].id), now) ==> f in fs
    ensures forall f :: f in fs ==>
              exists i :: 0 <= i < |repos| && f in RepoFindings(repos[i], AlertsOf(alerts, repos[i].id), now)
    ensures (forall i :: 0 <= i < |repos| ==> AlertsOf(alerts, repos[i].id) == NoAlerts) ==> fs == []
  {
    Seqs.FlatMap(repos, (repo: Repository) => RepoFindings(repo, AlertsOf(alerts, repo.id), now))
  }

  /** Every finding gathered in one sync is fresh for its repository. */
  lemma FetchedFresh(repos: seq<Repository>, alerts: map<nat, RepoAlerts>, now: Time)
    ensures forall f :: f in FetchSecurityFindings(repos, alerts, now) ==>
              exists i :: 0 <= i < |repos| && Fresh(f, repos[i], now)
  {
    forall f | f in FetchSecurityFindings(repos, alerts, now)
      ensures exists i :: 0 <= i < |repos| && Fresh(f, repos[i], now)
    {
      var i :| 0 <= i < |repos| && f in RepoFindings(repos[i], AlertsOf(alerts, repos[i].id), now);
      RepoFindingsFresh(repos[i], AlertsOf(alerts, repos[i].id), now);
    }
  }

  /** Every stored finding normalised in one sync is unowned and has the
      id of its tool and repository. */
  lemma FreshFindingsUnowned(repos: seq<Repository>, alerts: map<nat, RepoAlerts>, now: Time)
    ensures forall f :: f in FetchSecurityFindings(repos, alerts, now) ==>
              f.owner.None? && f.lastFetched == now && IdPrefix(f.tool) <= f.id
  {
    FetchedFresh(repos, alerts, now);
    forall f | f in FetchSecurityFindings(repos, alerts, now)
      ensures f.owner.None? && f.lastFetched == now && IdPrefix(f.tool) <= f.id
    {
      var i :| 0 <= i < |repos| && Fresh(f, repos[i], now);
      var n: nat :| f.id == FindingId(f.tool, repos[i].id, n);
    }
  }
}

=== FILE: findingsorder.dfy ===
/** Where each alert's finding sits in a repository's findings: the three
    listings are concatenated in a fixed order (src/services/github.ts). */
module FindingsOrder {
  import Seqs
  import Findings
  import opened Store

  /** Alert by alert: the code-scanning findings come first, in listing order. */
  lemma RepoFindingsCodeScanningAt(repo: Repository, alerts: Findings.RepoAlerts, now: Time)
    ensures forall i :: 0 <= i < Findings.Listed(alerts.codeScanning) ==>
              Findings.RepoFindings(repo, alerts, now)[i] == Findings.FromCodeScanning(repo, alerts.codeScanning.value[i], now)
  {
    forall i | 0 <= i < Findings.Listed(alerts.codeScanning)
      ensures Findings.RepoFindings(repo, alerts, now)[i] == Findings.FromCodeScanning(repo, alerts.codeScanning.value[i], now)
    {
      var code := Findings.CodeScanningListing(repo, alerts.codeScanning, now);
      var secret := Findings.SecretScanningListing(repo, alerts.secretScanning, now);
      var dependabot := Findings.DependabotListing(repo, alerts.dependabot, now);
      Seqs.ConcatFirst(Findings.RepoFindings(repo, alerts, now), code, secret, dependabot, i);
    }
  }

  /** The secret-scanning findings follow the code-scanning ones, in listing order. */
  lemma RepoFindingsSecretScanningAt(repo: Repository, alerts: Findings.RepoAlerts, now: Time)
    ensures forall i :: 0 <= i < Findings.Listed(alerts.secretScanning) ==>
              Findings.RepoFindings(repo, alerts, now)[Findings.Listed(alerts.codeScanning) + i]
              == Findings.FromSecretScanning(repo, alerts.secretScanning.value[i], now)
  {
    forall i | 0 <= i < Findings.Listed(alerts.secretScanning)
      ensures Findings.RepoFindings(repo, alerts, now)[Findings.Listed(alerts.codeScanning) + i]
              == Findings.FromSecretScanning(repo, alerts.secretScanning.value[i], now)
    {
      var code := Findings.CodeScanningListing(repo, alerts.codeScanning, now);
      var secret := Findings.SecretScanningListing(repo, alerts.secretScanning, now);
      var dependabot := Findings.DependabotListing(repo, alerts.dependabot, now);
      Seqs.ConcatSecond(Findings.RepoFindings(repo, alerts, now), code, secret, dependabot,
                        Findings.Listed(alerts.codeScanning), i);
    }
  }

  /** The Dependabot findings come last, in listing order. */
  lemma RepoFindingsDependabotAt(repo: Repository, alerts: Findings.RepoAlerts, now: Time)
    ensures forall i :: 0 <= i < Findings.Listed(alerts.dependabot) ==>
              Findings.RepoFindings(repo, alerts, now)[Findings.Listed(alerts.codeScanning) + Findings.Listed(alerts.secretScanning) + i]
              == Findings.FromDependabot(repo, alerts.dependabot.value[i], now)
  {
    forall i | 0 <= i < Findings.Listed(alerts.dependabot)
      ensures Findings.RepoFindings(repo, alerts, now)[Findings.Listed(alerts.codeScanning) + Findings.Listed(alerts.secretScanning) + i]
              == Findings.FromDependabot(repo, alerts.dependabot.value[i], now)
    {
      var code := Findings.CodeScanningListing(repo, alerts.codeScanning, now);
      var secret := Findings.SecretScanningListing(repo, alerts.secretScanning, now);
      var dependabot := Findings.DependabotListing(repo, alerts.dependabot, now);
      Seqs.ConcatThird(Findings.RepoFindings(repo, alerts, now), code, secret, dependabot,
                       Findings.Listed(alerts.codeScanning), Findings.Listed(alerts.secretScanning), i);
    }
  }
}

=== FILE: findingsview.dfy ===
/** The security-findings page (src/components/SecurityFindings.tsx): the
    filter chain over the loaded findings and the repository options. */
module FindingsView {
  import Text
  import Seqs
  import opened Store

  /** The four selections; the empty string selects nothing. */
  datatype Filters = Filters(repository: string, tool: string, severity: string, ownerStatus: string)

  /** `clearFilters`: every selection back to empty. */
  function ClearFilters(): (sel: Filters)
    ensures sel.repository == "" && sel.tool == "" && sel.severity == "" && sel.ownerStatus == ""
  {
    Filters("", "", "", "")
  }

  predicate RepositoryKeeps(sel: Filters, f: Finding) {
    sel.repository == "" || f.repositoryName == sel.repository
  }

  predicate ToolKeeps(sel: Filters, f: Finding) {
    sel.tool == "" || f.tool.Name() == sel.tool
  }

  /** Severities are compared lower-cased on both sides. */
  predicate SeverityKeeps(sel: Filters, f: Finding) {
    sel.severity == "" || Text.ToLower(f.severity) == Text.ToLower(sel.severity)
  }

  /** `with-owner` keeps owned findings, `without-owner` unowned ones, and
      any other value keeps everything. */
  predicate OwnerKeeps(sel: Filters, f: Finding) {
    && (sel.ownerStatus == "with-owner" ==> f.owner.Some?)
    && (sel.ownerStatus == "without-owner" ==> f.owner.None?)
  }

  /** A finding survives the chain when every selection keeps it. */
  predicate Keeps(sel: Filters, f: Finding) {
    RepositoryKeeps(sel, f) && ToolKeeps(sel, f) && SeverityKeeps(sel, f) && OwnerKeeps(sel, f)
  }

  /** The selections as tests, for filtering. */
  function KeptBy(sel: Filters): Finding -> bool {
    (f: Finding) => Keeps(sel, f)
  }

  /** The repository filter, applied only when a repository is selected:
      the same as filtering by `RepositoryKeeps` unconditionally. */
  function ByRepository(fs: seq<Finding>, sel: Filters): (r: seq<Finding>)
    ensures r == Seqs.Filter(fs, (f: Finding) => RepositoryKeeps(sel, f))
  {
    Seqs.FilterWhen(fs, sel.repository != "", (f: Finding) => f.repositoryName == sel.repository,
                    (f: Finding) => RepositoryKeeps(sel, f));
    if sel.repository != "" then Seqs.Filter(fs, (f: Finding) => f.repositoryName == sel.repository) else fs
  }

  function ByTool(fs: seq<Finding>, sel: Filters): (r: seq<Finding>)
    ensures r == Seqs.Filter(fs, (f: Finding) => ToolKeeps(sel, f))
  {
    Seqs.FilterWhen(fs, sel.tool != "", (f: Finding) => f.tool.Name() == sel.tool,
                    (f: Finding) => ToolKeeps(sel, f));
    if sel.tool != "" then Seqs.Filter(fs, (f: Finding) => f.tool.Name() == sel.tool) else fs
  }

  function BySeverity(fs: seq<Finding>, sel: Filters): (r: seq<Finding>)
    ensures r == Seqs.Filter(fs, (f: Finding) => SeverityKeeps(sel, f))
  {
    Seqs.FilterWhen(fs, sel.severity != "", (f: Finding) => Text.ToLower(f.severity) == Text.ToLower(sel.severity),
                    (f: Finding) => SeverityKeeps(sel, f));
    if sel.severity != "" then Seqs.Filter(fs, (f: Finding) => Text.ToLower(f.severity) == Text.ToLower(sel.severity))
    else fs
  }

  function ByOwner(fs: seq<Finding>, sel: Filters): (r: seq<Finding>)
    ensures r == Seqs.Filter(fs, (f: Finding) => OwnerKeeps(sel, f))
  {
    OwnerFilter(fs, sel);
    if sel.ownerStatus == "with-owner" then Seqs.Filter(fs, (f: Finding) => f.owner.Some?)
    else if sel.ownerStatus == "without-owner" then Seqs.Filter(fs, (f: Finding) => f.owner.None?)
    else fs
  }

  lemma OwnerFilter(fs: seq<Finding>, sel: Filters)
    ensures sel.ownerStatus == "with-owner" ==>
              Seqs.Filter(fs, (f: Finding) => f.owner.Some?) == Seqs.Filter(fs, (f: Finding) => OwnerKeeps(sel, f))
    ensures sel.ownerStatus == "without-owner" ==>
              Seqs.Filter(fs, (f: Finding) => f.owner.None?) == Seqs.Filter(fs, (f: Finding) => OwnerKeeps(sel, f))
    ensures sel.ownerStatus != "with-owner" && sel.ownerStatus != "without-owner" ==>
              fs == Seqs.Filter(fs, (f: Finding) => OwnerKeeps(sel, f))
  {
    var keeps := (f: Finding) => OwnerKeeps(sel, f);
    if sel.ownerStatus == "with-owner" {
      Seqs.FilterCongruent(fs, (f: Finding) => f.owner.Some?, keeps);
    } else if sel.ownerStatus == "without-owner" {
      Seqs.FilterCongruent(fs, (f: Finding) => f.owner.None?, keeps);
    } else {
      Seqs.FilterAll(fs, keeps);
    }
  }

  /** The filter chain: repository, tool, severity, then owner status. */
  function Apply(findings: seq<Finding>, sel: Filters): (r: seq<Finding>)
    ensures |r| <= |findings|
    ensures forall f :: f in r <==> f in findings && Keeps(sel, f)
    ensures Seqs.IsSubsequence(r, findings)
  {
    ApplyIsOneFilter(findings, sel);
    ByOwner(BySeverity(ByTool(ByRepository(findings, sel), sel), sel), sel)
  }

  /** The chain keeps exactly the findings every selection keeps, in order:
      it is one filter by the conjunction. */
  lemma ApplyIsOneFilter(findings: seq<Finding>, sel: Filters)
    ensures ByOwner(BySeverity(ByTool(ByRepository(findings, sel), sel), sel), sel) == Seqs.Filter(findings, KeptBy(sel))
  {
    var pRepo := (f: Finding) => RepositoryKeeps(sel, f);
    var pTool := (f: Finding) => ToolKeeps(sel, f);
    var pSev := (f: Finding) => SeverityKeeps(sel, f);
    var pOwner := (f: Finding) => OwnerKeeps(sel, f);
    var p2 := (f: Finding) => RepositoryKeeps(sel, f) && ToolKeeps(sel, f);
    var p3 := (f: Finding) => RepositoryKeeps(sel, f) && ToolKeeps(sel, f) && SeverityKeeps(sel, f);
    Seqs.FilterFilter(findings, pRepo, pTool, p2);
    Seqs.FilterFilter(findings, p2, pSev, p3);
    Seqs.FilterFilter(findings, p3, pOwner, KeptBy(sel));
  }

  /** With every selection empty, the findings are shown unchanged. */
  lemma ClearedShowsAll(findings: seq<Finding>)
    ensures Apply(findings, ClearFilters()) == findings
  {
    ApplyIsOneFilter(findings, ClearFilters());
    Seqs.FilterAll(findings, KeptBy(ClearFilters()));
  }

  /** `with-owner` and `without-owner` split the findings in two. */
  lemma OwnerStatusPartition(findings: seq<Finding>)
    ensures |Apply(findings, Filters("", "", "", "with-owner"))| + |Apply(findings, Filters("", "", "", "without-owner"))| == |findings|
    ensures multiset(Apply(findings, Filters("", "", "", "with-owner"))) + multiset(Apply(findings, Filters("", "", "", "without-owner")))
            == multiset(findings)
  {
    var w := Filters("", "", "", "with-owner");
    var wo := Filters("", "", "", "without-owner");
    ApplyIsOneFilter(findings, w);
    ApplyIsOneFilter(findings, wo);
    Seqs.FilterPartition(findings, KeptBy(w), KeptBy(wo));
  }

  /** Selecting `high` keeps both `HIGH` and `high`, and `High` as well. */
  lemma SeverityIgnoresCase(f: Finding)
    ensures Keeps(Filters("", "", "high", ""), f.(severity := "HIGH"))
    ensures Keeps(Filters("", "", "high", ""), f.(severity := "high"))
    ensures Keeps(Filters("", "", "HIGH", ""), f.(severity := "High"))
    ensures !Keeps(Filters("", "", "high", ""), f.(severity := "critical"))
  {
    Text.ToLowerExamples();
    assert Text.ToLower("critical") == "critical";
  }

  /** The repository names of the findings, each once, in order of first appearance. */
  function RepositoryOptions(findings: seq<Finding>): (names: seq<string>)
    ensures forall n :: n in names <==> exists f :: f in findings && f.repositoryName == n
    ensures forall i, j :: 0 <= i < j < |names| ==> names[i] != names[j]
  {
    var all := seq(|findings|, i requires 0 <= i < |findings| => findings[i].repositoryName);
    assert forall n :: n in all <==> exists f :: f in findings && f.repositoryName == n by {
      forall n | n in all ensures exists f :: f in findings && f.repositoryName == n {
        var i :| 0 <= i < |all| && all[i] == n;
        assert findings[i] in findings;
      }
      forall n | exists f :: f in findings && f.repositoryName == n ensures n in all {
        var f :| f in findings && f.repositoryName == n;
        var i :| 0 <= i < |findings| && findings[i] == f;
        assert all[i] == n;
      }
    }
    Seqs.Distinct(all)
  }
}

=== FILE: repositoriesview.dfy ===
/** The repositories page (src/components/Repositories.tsx): the pod,
    environment and search filters and the option lists. */
module RepositoriesView {
  import opened Wrappers
  import Text
  import Seqs
  import opened Store

  datatype Filters = Filters(pod: string, env: string, search: string)

  /** `clearFilters`: every selection back to empty. */
  function ClearFilters(): (sel: Filters)
    ensures sel.pod == "" && sel.env == "" && sel.search == ""
  {
    Filters("", "", "")
  }

  /** The search hit: the lower-cased term occurs in the lower-cased name,
      full name, or description when there is a non-empty one. */
  predicate SearchHit(term: string, r: Repository) {
    var t := Text.ToLower(term);
    || Text.Contains(Text.ToLower(r.name), t)
    || Text.Contains(Text.ToLower(r.fullName), t)
    || (Truthy(r.description) && Text.Contains(Text.ToLower(r.description.value), t))
  }

  predicate Keeps(sel: Filters, r: Repository) {
    && (sel.pod == "" || r.properties.pod == Some(sel.pod))
    && (sel.env == "" || r.properties.environmentType == Some(sel.env))
    && (sel.search == "" || SearchHit(sel.search, r))
  }

  /** The filter chain, each filter applied only when its selection is set. */
  function Apply(repos: seq<Repository>, sel: Filters): (r: seq<Repository>)
    ensures |r| <= |repos|
    ensures forall x :: x in r <==> x in repos && Keeps(sel, x)
    ensures Seqs.IsSubsequence(r, repos)
  {
    var byPod := if sel.pod != "" then Seqs.Filter(repos, (x: Repository) => x.properties.pod == Some(sel.pod)) else repos;
    var byEnv := if sel.env != "" then Seqs.Filter(byPod, (x: Repository) => x.properties.environmentType == Some(sel.env)) else byPod;
    var bySearch := if sel.search != "" then Seqs.Filter(byEnv, (x: Repository) => SearchHit(sel.search, x)) else byEnv;
    ApplyIsOneFilter(repos, sel);
    bySearch
  }

  /** The chain is one filter by the conjunction of the selections. */
  lemma ApplyIsOneFilter(repos: seq<Repository>, sel: Filters)
    ensures
      var byPod := if sel.pod != "" then Seqs.Filter(repos, (x: Repository) => x.properties.pod == Some(sel.pod)) else repos;
      var byEnv := if sel.env != "" then Seqs.Filter(byPod, (x: Repository) => x.properties.environmentType == Some(sel.env)) else byPod;
      var bySearch := if sel.search != "" then Seqs.Filter(byEnv, (x: Repository) => SearchHit(sel.search, x)) else byEnv;
      bySearch == Seqs.Filter(repos, (x: Repository) => Keeps(sel, x))
  {
    var pPod := (x: Repository) => sel.pod == "" || x.properties.pod == Some(sel.pod);
    var pEnv := (x: Repository) => sel.env == "" || x.properties.environmentType == Some(sel.env);
    var pSearch := (x: Repository) => sel.search == "" || SearchHit(sel.search, x);
    var p2 := (x: Repository) => pPod(x) && pEnv(x);
    var p3 := (x: Repository) => Keeps(sel, x);

    var byPod := if sel.pod != "" then Seqs.Filter(repos, (x: Repository) => x.properties.pod == Some(sel.pod)) else repos;
    Seqs.FilterWhen(repos, sel.pod != "", (x: Repository) => x.properties.pod == Some(sel.pod), pPod);

    var byEnv := if sel.env != "" then Seqs.Filter(byPod, (x: Repository) => x.properties.environmentType == Some(sel.env)) else byPod;
    Seqs.FilterWhen(byPod, sel.env != "", (x: Repository) => x.properties.environmentType == Some(sel.env), pEnv);
    Seqs.FilterFilter(repos, pPod, pEnv, p2);

    Seqs.FilterWhen(byEnv, sel.search != "", (x: Repository) => SearchHit(sel.search, x), pSearch);
    Seqs.FilterFilter(repos, p2, pSearch, p3);
  }

  /** With every selection empty, the repositories are shown unchanged. */
  lemma ClearedShowsAll(repos: seq<Repository>)
    ensures Apply(repos, ClearFilters()) == repos
  {
    ApplyIsOneFilter(repos, ClearFilters());
    Seqs.FilterAll(repos, (x: Repository) => Keeps(ClearFilters(), x));
  }

  /** The search ignores the case of the term: any spelling of it finds
      the same repositories as its lower-case form. */
  lemma SearchIgnoresCase(term: string, r: Repository)
    ensures SearchHit(term, r) == SearchHit(Text.ToLower(term), r)
  {
    Text.ToLowerIdempotent(term);
  }

  /** A repository without a description is found by name only. */
  lemma SearchSkipsMissingDescription(r: Repository, term: string)
    requires r.description.None?
    ensures SearchHit(term, r) <==>
              Text.Contains(Text.ToLower(r.name), Text.ToLower(term)) || Text.Contains(Text.ToLower(r.fullName), Text.ToLower(term))
  {
  }

  /** The non-empty values of an optional property, each once, in order of
      first appearance. */
  function Options(values: seq<Option<string>>): (opts: seq<string>)
    ensures forall v :: v in opts <==> v != "" && Some(v) in values
    ensures forall i, j :: 0 <= i < j < |opts| ==> opts[i] != opts[j]
  {
    var present := Seqs.FilterMap(values, (v: Option<string>) => if Truthy(v) then v else None);
    assert forall v :: v in present <==> v != "" && Some(v) in values by {
      forall v | v != "" && Some(v) in values ensures v in present {
        var i :| 0 <= i < |values| && values[i] == Some(v);
      }
    }
    Seqs.Distinct(present)
  }

  function PodOptions(repos: seq<Repository>): (opts: seq<string>)
    ensures forall v :: v in opts <==> v != "" && exists r :: r in repos && r.properties.pod == Some(v)
    ensures forall i, j :: 0 <= i < j < |opts| ==> opts[i] != opts[j]
  {
    var values := seq(|repos|, i requires 0 <= i < |repos| => repos[i].properties.pod);
    assert forall v :: Some(v) in values <==> exists r :: r in repos && r.properties.pod == Some(v) by {
      forall v | exists r :: r in repos && r.properties.pod == Some(v) ensures Some(v) in values {
        var r :| r in repos && r.properties.pod == Some(v);
        var i :| 0 <= i < |repos| && repos[i] == r;
        assert values[i] == Some(v);
      }
    }
    Options(values)
  }

  function EnvOptions(repos: seq<Repository>): (opts: seq<string>)
    ensures forall v :: v in opts <==> v != "" && exists r :: r in repos && r.properties.environmentType == Some(v)
    ensures forall i, j :: 0 <= i < j < |opts| ==> opts[i] != opts[j]
  {
    var values := seq(|repos|, i requires 0 <= i < |repos| => repos[i].properties.environmentType);
    assert forall v :: Some(v) in values <==> exists r :: r in repos && r.properties.environmentType == Some(v) by {
      forall v | exists r :: r in repos && r.properties.environmentType == Some(v) ensures Some(v) in values {
        var r :| r in repos && r.properties.environmentType == Some(v);
        var i :| 0 <= i < |repos| && repos[i] == r;
        assert values[i] == Some(v);
      }
    }
    Options(values)
  }
}

=== FILE: seqs.dfy ===
/** Order-preserving filtering, counting, flattening and de-duplication over
    sequences: the `Array.prototype.filter`, `.length`, `.flatMap` and
    `Array.from(new Set(..))` idioms the source uses throughout. */
module Seqs {
  import opened Wrappers

  /** `a` can be obtained from `b` by deleting elements, keeping the rest in order. */
  ghost predicate IsSubsequence<T(!new)>(a: seq<T>, b: seq<T>)
    decreases |b|
  {
    if |b| == 0 then |a| == 0
    else (|a| > 0 && a[0] == b[0] && IsSubsequence(a[1..], b[1..])) || IsSubsequence(a, b[1..])
  }

  function Filter<T(!new)>(s: seq<T>, p: T -> bool): (r: seq<T>)
    ensures |r| <= |s|
    ensures forall x :: x in r <==> x in s && p(x)
    ensures IsSubsequence(r, s)
  {
    if |s| == 0 then []
    else if p(s[0]) then [s[0]] + Filter(s[1..], p)
    else Filter(s[1..], p)
  }

  /** Number of elements satisfying `p`: `s.filter(p).length`. */
  function Count<T(!new)>(s: seq<T>, p: T -> bool): (n: nat)
    ensures n <= |s|
    ensures n == 0 <==> forall i :: 0 <= i < |s| ==> !p(s[i])
    ensures n == |s| <==> forall i :: 0 <= i < |s| ==> p(s[i])
  {
    CountBounds(s, p);
    |Filter(s, p)|
  }

  lemma CountBounds<T(!new)>(s: seq<T>, p: T -> bool)
    ensures |Filter(s, p)| == 0 <==> forall i :: 0 <= i < |s| ==> !p(s[i])
    ensures |Filter(s, p)| == |s| <==> forall i :: 0 <= i < |s| ==> p(s[i])
  {
    var r := Filter(s, p);
    if |r| > 0 {
      assert r[0] in r;
    }
    if i :| 0 <= i < |s| && !p(s[i]) {
      FilterShorter(s, p, i);
    } else {
      FilterAll(s, p);
    }
  }

  /** One element failing the predicate makes the filter shorter than its input. */
  lemma {:induction false} FilterShorter<T(!new)>(s: seq<T>, p: T -> bool, i: nat)
    requires i < |s| && !p(s[i])
    ensures |Filter(s, p)| < |s|
  {
    if i > 0 {
      assert s[1..][i - 1] == s[i];
      FilterShorter(s[1..], p, i - 1);
    }
  }

  /** A filter whose predicate holds everywhere returns its input unchanged. */
  lemma {:induction false} FilterAll<T(!new)>(s: seq<T>, p: T -> bool)
    requires forall i :: 0 <= i < |s| ==> p(s[i])
    ensures Filter(s, p) == s
  {
    if |s| > 0 {
      FilterAll(s[1..], p);
    }
  }

  /** Two filters in a row are one filter by the conjunction. */
  lemma {:induction false} FilterFilter<T(!new)>(s: seq<T>, p: T -> bool, q: T -> bool, pq: T -> bool)
    requires forall x :: pq(x) == (p(x) && q(x))
    ensures Filter(Filter(s, p), q) == Filter(s, pq)
  {
    if |s| > 0 {
      FilterFilter(s[1..], p, q, pq);
    }
  }

  /** Filtering by `p` and by its negation splits a sequence in two. */
  lemma {:induction false} FilterPartition<T(!new)>(s: seq<T>, p: T -> bool, np: T -> bool)
    requires forall x :: np(x) == !p(x)
    ensures |Filter(s, p)| + |Filter(s, np)| == |s|
    ensures multiset(Filter(s, p)) + multiset(Filter(s, np)) == multiset(s)
  {
    if |s| > 0 {
      FilterPartition(s[1..], p, np);
      assert s == [s[0]] + s[1..];
    }
  }

  /** Counts by two predicates that never hold together add up to the count
      by their disjunction. */
  lemma {:induction false} CountDisjoint<T(!new)>(s: seq<T>, p: T -> bool, q: T -> bool, pq: T -> bool)
    requires forall x :: !(p(x) && q(x))
    requires forall x :: pq(x) == (p(x) || q(x))
    ensures |Filter(s, p)| + |Filter(s, q)| == |Filter(s, pq)|
  {
    if |s| > 0 {
      CountDisjoint(s[1..], p, q, pq);
    }
  }

  /** Counting through a predicate only looks at the elements themselves:
      two predicates that agree on every element give the same count. */
  lemma {:induction false} FilterCongruent<T(!new)>(s: seq<T>, p: T -> bool, q: T -> bool)
    requires forall i :: 0 <= i < |s| ==> p(s[i]) == q(s[i])
    ensures Filter(s, p) == Filter(s, q)
  {
    if |s| > 0 {
      FilterCongruent(s[1..], p, q);
    }
  }

  /** A filter applied only when `active` is a filter by "inactive or `p`". */
  lemma FilterWhen<T(!new)>(s: seq<T>, active: bool, p: T -> bool, q: T -> bool)
    requires forall x :: q(x) == (!active || p(x))
    ensures (if active then Filter(s, p) else s) == Filter(s, q)
  {
    if active {
      FilterCongruent(s, p, q);
    } else {
      FilterAll(s, q);
    }
  }

  /** The defined results of `f` over `s`, in order: a map followed by a
      filter of the absent results. */
  function FilterMap<A(!new), B(!new)>(s: seq<A>, f: A -> Option<B>): (r: seq<B>)
    ensures |r| <= |s|
    ensures forall y :: y in r ==> exists i :: 0 <= i < |s| && f(s[i]) == Some(y)
    ensures forall i :: 0 <= i < |s| && f(s[i]).Some? ==> f(s[i]).value in r
  {
    if |s| == 0 then []
    else
      var rest := FilterMap(s[1..], f);
      assert forall i :: 1 <= i < |s| ==> s[i] == s[1..][i - 1];
      match f(s[0])
      case Some(y) => [y] + rest
      case None => rest
  }

  /** The concatenation of `f` over `s`, in order (`s.flatMap(f)`): it holds
      exactly what some element's part holds. */
  function FlatMap<A, B(!new)>(s: seq<A>, f: A -> seq<B>): (r: seq<B>)
    ensures forall i, y :: 0 <= i < |s| && y in f(s[i]) ==> y in r
    ensures forall y :: y in r ==> exists i :: 0 <= i < |s| && y in f(s[i])
    ensures (forall i :: 0 <= i < |s| ==> f(s[i]) == []) ==> r == []
  {
    if |s| == 0 then []
    else
      var rest := FlatMap(s[1..], f);
      assert forall i :: 1 <= i < |s| ==> s[1..][i - 1] == s[i];
      f(s[0]) + rest
  }

  /** The first part of a three-way concatenation sits at its start. */
  lemma ConcatFirst<T>(s: seq<T>, a: seq<T>, b: seq<T>, c: seq<T>, i: nat)
    requires s == a + b + c && i < |a|
    ensures s[i] == a[i]
  {
  }

  /** The second part of a three-way concatenation starts at `na`, the
      length of the first. */
  lemma ConcatSecond<T>(s: seq<T>, a: seq<T>, b: seq<T>, c: seq<T>, na: nat, i: nat)
    requires s == a + b + c && na == |a| && i < |b|
    ensures s[na + i] == b[i]
  {
  }

  /** The third part of a three-way concatenation starts at `na + nb`, the
      length of the first two. */
  lemma ConcatThird<T>(s: seq<T>, a: seq<T>, b: seq<T>, c: seq<T>, na: nat, nb: nat, i: nat)
    requires s == a + b + c && na == |a| && nb == |b| && i < |c|
    ensures s[na + nb + i] == c[i]
  {
  }

  /** The distinct elements of `s`, in order of first occurrence
      (`Array.from(new Set(s))`). */
  function Distinct<T(==,!new)>(s: seq<T>): (r: seq<T>)
    ensures |r| <= |s|
    ensures forall x :: x in r <==> x in s
    ensures forall i, j :: 0 <= i < j < |r| ==> r[i] != r[j]
    ensures forall i, j, k :: 0 <= i < j < |r| && 0 <= k < |s| && s[k] == r[j] ==> r[i] in s[..k]
  {
    if |s| == 0 then []
    else
      var n := |s| - 1;
      var d := Distinct(s[..n]);
      assert s == s[..n] + [s[n]];
      assert forall k :: 0 <= k < n ==> s[..n][k] == s[k] && s[..n][..k] == s[..k];
      var r := if s[n] in d then d else d + [s[n]];
      assert forall i, j, k :: 0 <= i < j < |r| && 0 <= k < |s| && s[k] == r[j] ==> r[i] in s[..k] by {
        forall i, j, k | 0 <= i < j < |r| && 0 <= k < |s| && s[k] == r[j]
          ensures r[i] in s[..k]
        {
          assert r[i] in d;
          if k == n {
            assert s[..n] == s[..k];
          }
        }
      }
      r
  }
}

=== FILE: severity.dfy ===
/** The severity vocabularies. The compliance evaluator and the dashboard
    compare severities case-sensitively against fixed spellings; only the
    findings page lower-cases them. */
module Severity {

  /** Exactly the four spellings counted as high or critical. */
  predicate IsHighOrCritical(s: string) {
    s == "high" || s == "critical" || s == "HIGH" || s == "CRITICAL"
  }

  predicate IsMedium(s: string) {
    s == "medium" || s == "MEDIUM"
  }

  predicate IsLow(s: string) {
    s == "low" || s == "LOW" || s == "note" || s == "NOTE"
  }
}

=== FILE: store.dfy ===
/** The local cache: one keyed table per entity kind, with the key schema of
    the store's version-1 declaration, and the staleness query. */
module Store {
  import opened Wrappers
  import Table

  /** Instants, in milliseconds since the epoch. */
  type Time = int

  /** One day; the staleness window. Calendar days are taken to be fixed
      24-hour spans. */
  const DayMs: int := 86_400_000

  /** The two custom properties the engine reads; an absent or empty upstream
      value is stored as `None`. */
  datatype Properties = Properties(pod: Option<string>, environmentType: Option<string>)

  datatype Repository = Repository(
    id: nat,
    name: string,
    fullName: string,
    description: Option<string>,
    htmlUrl: string,
    properties: Properties,
    lastFetched: Time)

  datatype Team = Team(
    id: nat,
    name: string,
    slug: string,
    description: Option<string>,
    htmlUrl: string,
    lastFetched: Time)

  datatype Tool = CodeScanning | SecretScanning | Dependabot {
    /** The tool name stored in a finding's `tool` field. */
    function Name(): string {
      match this
      case CodeScanning => "code_scanning"
      case SecretScanning => "secret_scanning"
      case Dependabot => "dependabot"
    }
  }

  datatype Finding = Finding(
    id: string,
    repositoryId: nat,
    repositoryName: string,
    tool: Tool,
    severity: string,
    title: string,
    description: string,
    htmlUrl: string,
    createdAt: Time,
    directoryPath: string,
    owner: Option<string>,
    lastFetched: Time)

  /** One line of an ownership file: `directoryPath` is the pattern. */
  datatype CodeOwner = CodeOwner(
    repositoryId: nat,
    repositoryName: string,
    directoryPath: string,
    owner: string,
    lastFetched: Time)

  datatype ComplianceCheck = ComplianceCheck(
    repositoryId: nat,
    repositoryName: string,
    validCodeowners: bool,
    oldHighCriticalFindings: bool,
    directUserAccess: bool,
    adminOwnerAccess: bool,
    lastChecked: Time)

  datatype MetricsSummary = MetricsSummary(
    id: nat,
    repositoryCount: nat,
    teamCount: nat,
    commitCount: nat,
    lastFetched: Time)

  /** The metrics summary is a singleton stored under this key. */
  const SummaryId: nat := 1

  // Primary keys, as declared in the store schema.
  function RepositoryKey(r: Repository): Table.Key { Table.Key(r.id, "") }
  function TeamKey(t: Team): Table.Key { Table.Key(t.id, "") }
  function FindingKey(f: Finding): Table.Key { Table.Key(0, f.id) }
  function CodeOwnerKey(c: CodeOwner): Table.Key { Table.Key(c.repositoryId, c.directoryPath) }
  function ComplianceKey(c: ComplianceCheck): Table.Key { Table.Key(c.repositoryId, "") }
  function SummaryKey(m: MetricsSummary): Table.Key { Table.Key(m.id, "") }

  datatype Db = Db(
    repositories: seq<Repository>,
    teams: seq<Team>,
    securityFindings: seq<Finding>,
    codeOwners: seq<CodeOwner>,
    complianceChecks: seq<ComplianceCheck>,
    metricsSummary: seq<MetricsSummary>)

  /** Every table is in key order with unique keys. */
  predicate Valid(db: Db) {
    && Table.Ordered(db.repositories, RepositoryKey)
    && Table.Ordered(db.teams, TeamKey)
    && Table.Ordered(db.securityFindings, FindingKey)
    && Table.Ordered(db.codeOwners, CodeOwnerKey)
    && Table.Ordered(db.complianceChecks, ComplianceKey)
    && Table.Ordered(db.metricsSummary, SummaryKey)
  }

  function EmptyDb(): (db: Db)
    ensures Valid(db)
  {
    Db([], [], [], [], [], [])
  }

  /** A cache whose tables are all in key order: the only kind the engine
      ever sees. */
  type ValidDb = db: Db | Valid(db) witness Db([], [], [], [], [], [])

  /** `metricsSummary.get(1)`. */
  function Summary(db: Db): (r: Option<MetricsSummary>)
    ensures r.Some? ==> r.value.id == SummaryId && r.value in db.metricsSummary
    ensures r.None? <==> forall i :: 0 <= i < |db.metricsSummary| ==> db.metricsSummary[i].id != SummaryId
  {
    Table.Get(db.metricsSummary, Table.Key(SummaryId, ""), SummaryKey)
  }

  /** `isDataStale`: stale when there is no summary, or when it was fetched
      strictly more than one day before `now`. A query: it returns a flag and
      has no store to change. */
  function IsDataStale(db: Db, now: Time): (stale: bool)
    ensures Summary(db).None? ==> stale
    ensures Summary(db).Some? ==> (stale <==> Summary(db).value.lastFetched < now - DayMs)
  {
    match Summary(db)
    case None => true
    case Some(s) => s.lastFetched < now - DayMs
  }

  /** Data exactly one day old is still fresh; a millisecond older is stale. */
  lemma StaleBoundary(db: Db, now: Time)
    requires Summary(db).Some?
    ensures Summary(db).value.lastFetched == now - DayMs ==> !IsDataStale(db, now)
    ensures Summary(db).value.lastFetched == now - DayMs - 1 ==> IsDataStale(db, now)
  {
  }

  /** Staleness only grows as time passes. */
  lemma StaleMonotonic(db: Db, now: Time, later: Time)
    requires now <= later
    ensures IsDataStale(db, now) ==> IsDataStale(db, later)
  {
  }

  /** A summary written at `at` keeps the data fresh for one day, and the
      summary read back is that record. */
  lemma FreshAfterSummaryPut(db: Db, m: MetricsSummary, at: Time, now: Time)
    requires Valid(db)
    requires m.id == SummaryId && m.lastFetched == at
    requires at <= now <= at + DayMs
    ensures Summary(db.(metricsSummary := Table.Put(db.metricsSummary, m, SummaryKey))) == Some(m)
    ensures !IsDataStale(db.(metricsSummary := Table.Put(db.metricsSummary, m, SummaryKey)), now)
  {
  }
}

=== FILE: sync.dfy ===
/** The sync orchestrator `fetchAllData` (src/services/github.ts): seven
    stages run in a fixed order against the local cache, the first failing
    stage aborting the rest. Remote responses are inputs; so is the set of
    stages whose outer step fails. */
module Sync {
  import opened Wrappers
  import Seqs
  import Table
  import opened Store
  import CodeOwners
  import Findings
  import Compliance

  datatype RemoteRepo = RemoteRepo(id: nat, name: string, fullName: string, description: Option<string>, htmlUrl: string)

  datatype RemoteTeam = RemoteTeam(id: nat, name: string, slug: string, description: Option<string>, htmlUrl: string)

  /** Everything the remote API answers during one sync. A repository missing
      from a per-repository map is one whose call failed: no custom
      properties, no alerts, no ownership file, a failed collaborator listing,
      a failed commit listing. `commits` holds the length of the one commit
      page fetched. */
  datatype Remote = Remote(
    repos: seq<RemoteRepo>,
    customProperties: map<nat, map<string, string>>,
    teams: seq<RemoteTeam>,
    alerts: map<nat, Findings.RepoAlerts>,
    contents: map<nat, map<string, CodeOwners.ContentResponse>>,
    collaborators: map<nat, seq<Compliance.Collaborator>>,
    commits: map<nat, nat>)

  datatype Stage = Repositories | Teams | SecurityFindings | CodeOwnerRules | AssignOwners | ComplianceChecks | Metrics

  /** The order in which `fetchAllData` awaits the stages. */
  const StageOrder: seq<Stage> :=
    [Repositories, Teams, SecurityFindings, CodeOwnerRules, AssignOwners, ComplianceChecks, Metrics]

  /** Only the first this many repositories of the table have their commits counted. */
  const CommitRepoLimit: nat := 5

  /** A custom property as stored: an absent or empty value is `None`. */
  function Property(props: map<string, string>, name: string): (v: Option<string>)
    ensures v.Some? <==> name in props && props[name] != ""
    ensures v.Some? ==> v.value == props[name]
  {
    if name in props && props[name] != "" then Some(props[name]) else None
  }

  function PropertiesOf(remote: Remote, id: nat): Properties {
    var props := if id in remote.customProperties then remote.customProperties[id] else map[];
    Properties(Property(props, "pod"), Property(props, "environmentType"))
  }

  function ToRepository(remote: Remote, r: RemoteRepo, now: Time): (repo: Repository)
    ensures repo.id == r.id && repo.fullName == r.fullName && repo.lastFetched == now
  {
    Repository(r.id, r.name, r.fullName, r.description, r.htmlUrl, PropertiesOf(remote, r.id), now)
  }

  function ToRepositories(remote: Remote, rs: seq<RemoteRepo>, now: Time): (repos: seq<Repository>)
    ensures |repos| == |rs|
    ensures forall i :: 0 <= i < |rs| ==> repos[i] == ToRepository(remote, rs[i], now)
  {
    if |rs| == 0 then [] else [ToRepository(remote, rs[0], now)] + ToRepositories(remote, rs[1..], now)
  }

  function ToTeams(ts: seq<RemoteTeam>, now: Time): (teams: seq<Team>)
    ensures |teams| == |ts|
    ensures forall i :: 0 <= i < |ts| ==>
              teams[i] == Team(ts[i].id, ts[i].name, ts[i].slug, ts[i].description, ts[i].htmlUrl, now)
  {
    if |ts| == 0 then []
    else [Team(ts[0].id, ts[0].name, ts[0].slug, ts[0].description, ts[0].htmlUrl, now)] + ToTeams(ts[1..], now)
  }

  /** Commits counted for one repository: a failed listing counts 0. */
  function CommitsOf(commits: map<nat, nat>, id: nat): nat {
    if id in commits then commits[id] else 0
  }

  function SumCommits(repos: seq<Repository>, commits: map<nat, nat>): nat {
    if |repos| == 0 then 0 else CommitsOf(commits, repos[0].id) + SumCommits(repos[1..], commits)
  }

  /** The commit count of the summary: over the first five repositories of
      the table only. */
  function CommitCount(repos: seq<Repository>, commits: map<nat, nat>): (n: nat)
    ensures |repos| <= CommitRepoLimit ==> n == SumCommits(repos, commits)
  {
    assert repos[..|repos|] == repos;
    SumCommits(repos[..if |repos| < CommitRepoLimit then |repos| else CommitRepoLimit], commits)
  }

  /** One stage: each writes one table, the owner assignment rewriting the
      findings table in place. */
  function RunStage(s: Stage, db: ValidDb, remote: Remote, now: Time): (db': ValidDb)
    ensures s != Repositories ==> db'.repositories == db.repositories
    ensures s != Teams ==> db'.teams == db.teams
    ensures s != SecurityFindings && s != AssignOwners ==> db'.securityFindings == db.securityFindings
    ensures s != CodeOwnerRules ==> db'.codeOwners == db.codeOwners
    ensures s != ComplianceChecks ==> db'.complianceChecks == db.complianceChecks
    ensures s != Metrics ==> db'.metricsSummary == db.metricsSummary
    ensures s == CodeOwnerRules ==>
              db'.codeOwners == Table.PutAll(db.codeOwners, CodeOwners.FetchCodeOwners(db.repositories, remote.contents, now), CodeOwnerKey)
    ensures s == Metrics ==>
              db' == db.(metricsSummary := Table.Put(db.metricsSummary, SummaryOf(db, remote, now), SummaryKey))
  {
    match s
    case Repositories => RepositoriesStage(db, remote, now)
    case Teams => TeamsStage(db, remote, now)
    case SecurityFindings => FindingsStage(db, remote, now)
    case CodeOwnerRules => RulesStage(db, remote, now)
    case AssignOwners => AssignStage(db)
    case ComplianceChecks => ComplianceStage(db, remote, now)
    case Metrics => MetricsStage(db, remote, now)
  }

  /** `fetchRepositories`: each listed repository is put under its id. */
  function RepositoriesStage(db: ValidDb, remote: Remote, now: Time): (db': ValidDb)
    ensures db' == db.(repositories := db'.repositories)
  {
    db.(repositories := Table.PutAll(db.repositories, ToRepositories(remote, remote.repos, now), RepositoryKey))
  }

  /** `fetchTeams`: the listed teams are bulk-put. */
  function TeamsStage(db: ValidDb, remote: Remote, now: Time): (db': ValidDb)
    ensures db' == db.(teams := db'.teams)
  {
    db.(teams := Table.PutAll(db.teams, ToTeams(remote.teams, now), TeamKey))
  }

  /** `fetchSecurityFindings`: the findings of every repository are bulk-put. */
  function FindingsStage(db: ValidDb, remote: Remote, now: Time): (db': ValidDb)
    ensures db' == db.(securityFindings := db'.securityFindings)
  {
    var fs := Findings.FetchSecurityFindings(db.repositories, remote.alerts, now);
    db.(securityFindings := Table.PutAll(db.securityFindings, fs, FindingKey))
  }

  /** `fetchCodeOwners`: the rules of every repository are bulk-put. */
  function RulesStage(db: ValidDb, remote: Remote, now: Time): (db': ValidDb)
    ensures db' == db.(codeOwners := db'.codeOwners)
  {
    var rules := CodeOwners.FetchCodeOwners(db.repositories, remote.contents, now);
    db.(codeOwners := Table.PutAll(db.codeOwners, rules, CodeOwnerKey))
  }

  /** `assignOwnersToFindings`: the findings table is rewritten in place. */
  function AssignStage(db: ValidDb): (db': ValidDb)
    ensures db' == db.(securityFindings := db'.securityFindings)
  {
    db.(securityFindings := CodeOwners.AssignOwners(db.securityFindings, db.codeOwners))
  }

  /** `performComplianceChecks`: one record per production repository is put. */
  function ComplianceStage(db: ValidDb, remote: Remote, now: Time): (db': ValidDb)
    ensures db' == db.(complianceChecks := db'.complianceChecks)
  {
    db.(complianceChecks := Compliance.PerformComplianceChecks(
      db.complianceChecks, db.repositories, remote.contents, db.securityFindings, remote.collaborators, now))
  }

  /** `fetchMetricsSummary`: the summary is put under the singleton id. */
  function MetricsStage(db: ValidDb, remote: Remote, now: Time): (db': ValidDb)
    ensures db' == db.(metricsSummary := db'.metricsSummary)
  {
    db.(metricsSummary := Table.Put(db.metricsSummary, SummaryOf(db, remote, now), SummaryKey))
  }

  /** The summary written by the last stage: singleton id, the sizes of the
      repository and team tables, the commit count, the sync time. */
  function SummaryOf(db: Db, remote: Remote, now: Time): (m: MetricsSummary)
    ensures m.id == SummaryId && m.lastFetched == now
    ensures m.repositoryCount == |db.repositories| && m.teamCount == |db.teams|
    ensures m.commitCount == CommitCount(db.repositories, remote.commits)
  {
    MetricsSummary(SummaryId, |db.repositories|, |db.teams|, CommitCount(db.repositories, remote.commits), now)
  }

  /** The cache after a sync, and the stage that failed, if any. */
  datatype Outcome<D> = Outcome(db: D, failed: Option<Stage>)

  /** Every stage of `stages`, none failing. */
  function Run<D>(stages: seq<Stage>, d: D, step: (Stage, D) -> D): D {
    if |stages| == 0 then d else Run(stages[1..], step(stages[0], d), step)
  }

  /** The stages in order until one of them is in `faults`; a failing stage
      fails before writing, and no later stage runs. */
  function RunUntil<D>(stages: seq<Stage>, d: D, faults: set<Stage>, step: (Stage, D) -> D): (out: Outcome<D>)
    ensures out.failed.None? <==> forall i :: 0 <= i < |stages| ==> stages[i] !in faults
    ensures out.failed.Some? ==> out.failed.value in faults && out.failed.value in stages
  {
    if |stages| == 0 then Outcome(d, None)
    else if stages[0] in faults then Outcome(d, Some(stages[0]))
    else
      var out := RunUntil(stages[1..], step(stages[0], d), faults, step);
      assert forall i :: 1 <= i < |stages| ==> stages[i] == stages[1..][i - 1];
      out
  }

  /** Position of the first stage of `stages` in `faults`. */
  function FirstFault(stages: seq<Stage>, faults: set<Stage>): (k: nat)
    ensures k <= |stages|
    ensures forall i :: 0 <= i < k ==> stages[i] !in faults
    ensures k < |stages| ==> stages[k] in faults
  {
    if |stages| == 0 then 0
    else if stages[0] in faults then 0
    else 1 + FirstFault(stages[1..], faults)
  }

  /** A sync stops at its first faulty stage, leaving exactly the effects of
      the stages before it. */
  lemma {:induction false} RunUntilStopsAtFirstFault<D>(stages: seq<Stage>, d: D, faults: set<Stage>, step: (Stage, D) -> D)
    ensures var k := FirstFault(stages, faults);
            RunUntil(stages, d, faults, step)
            == Outcome(Run(stages[..k], d, step), if k < |stages| then Some(stages[k]) else None)
    decreases |stages|
  {
    if |stages| > 0 && stages[0] !in faults {
      RunUntilStopsAtFirstFault(stages[1..], step(stages[0], d), faults, step);
      var k := FirstFault(stages, faults);
      assert stages[..k][1..] == stages[1..][..k - 1];
    }
  }

  /** Running two lists of stages one after the other. */
  lemma {:induction false} RunSplit<D>(a: seq<Stage>, b: seq<Stage>, d: D, step: (Stage, D) -> D)
    ensures Run(a + b, d, step) == Run(b, Run(a, d, step), step)
    decreases |a|
  {
    if |a| > 0 {
      assert (a + b)[0] == a[0] && (a + b)[1..] == a[1..] + b;
      RunSplit(a[1..], b, step(a[0], d), step);
    } else {
      assert a + b == b;
    }
  }

  /** A property every stage preserves holds after any run, failed or not. */
  lemma {:induction false} RunUntilPreserves<D>(stages: seq<Stage>, d: D, faults: set<Stage>, step: (Stage, D) -> D, inv: D -> bool)
    requires forall s, x :: inv(x) ==> inv(step(s, x))
    requires inv(d)
    ensures inv(RunUntil(stages, d, faults, step).db)
    decreases |stages|
  {
    if |stages| > 0 && stages[0] !in faults {
      RunUntilPreserves(stages[1..], step(stages[0], d), faults, step, inv);
    }
  }

  /** A projection no stage of `stages` touches is unchanged by running them. */
  lemma {:induction false} RunKeeps<D, P>(stages: seq<Stage>, d: D, step: (Stage, D) -> D, proj: D -> P)
    requires forall i, x :: 0 <= i < |stages| ==> proj(step(stages[i], x)) == proj(x)
    ensures proj(Run(stages, d, step)) == proj(d)
    decreases |stages|
  {
    if |stages| > 0 {
      assert forall i :: 1 <= i < |stages| ==> stages[1..][i - 1] == stages[i];
      RunKeeps(stages[1..], step(stages[0], d), step, proj);
    }
  }

  /** When only the last stage of a list changes a projection, a run that
      meets a fault keeps the projection: the last stage either fails itself
      or is never reached. */
  lemma {:induction false} FailedRunKeeps<D, P>(stages: seq<Stage>, d: D, faults: set<Stage>, step: (Stage, D) -> D,
                                               proj: D -> P, last: Stage)
    requires |stages| > 0 && stages[|stages| - 1] == last
    requires forall i :: 0 <= i < |stages| - 1 ==> stages[i] != last
    requires exists s :: s in faults && s in stages
    requires forall s, x :: s != last ==> proj(step(s, x)) == proj(x)
    ensures proj(RunUntil(stages, d, faults, step).db) == proj(d)
    decreases |stages|
  {
    if stages[0] !in faults {
      var rest := stages[1..];
      var s :| s in faults && s in stages;
      assert s in rest;
      assert forall i :: 0 <= i < |rest| ==> rest[i] == stages[i + 1];
      FailedRunKeeps(rest, step(stages[0], d), faults, step, proj, last);
    }
  }

  lemma AllStagesInOrder(s: Stage)
    ensures s in StageOrder
  {
    match s
    case Repositories => assert StageOrder[0] == s;
    case Teams => assert StageOrder[1] == s;
    case SecurityFindings => assert StageOrder[2] == s;
    case CodeOwnerRules => assert StageOrder[3] == s;
    case AssignOwners => assert StageOrder[4] == s;
    case ComplianceChecks => assert StageOrder[5] == s;
    case Metrics => assert StageOrder[6] == s;
  }

  /** `fetchAllData`. */
  function FetchAllData(db: ValidDb, remote: Remote, faults: set<Stage>, now: Time): (out: Outcome<ValidDb>)
    ensures out.failed.None? <==> faults == {}
    ensures out.failed.Some? ==> out.failed.value in faults
  {
    NoFaultInOrder(faults);
    RunUntil(StageOrder, db, faults, (s: Stage, d: ValidDb) => RunStage(s, d, remote, now))
  }

  /** Every stage is in the order, so a run meets no fault only when there is none. */
  lemma NoFaultInOrder(faults: set<Stage>)
    ensures (forall i :: 0 <= i < |StageOrder| ==> StageOrder[i] !in faults) <==> faults == {}
  {
    if faults != {} {
      var s :| s in faults;
      AllStagesInOrder(s);
    }
  }

  /** The summary, and with it the freshness of the data, is written only
      when every earlier stage has succeeded: a failed sync leaves it as it
      was. */
  lemma FailedSyncKeepsSummary(db: ValidDb, remote: Remote, faults: set<Stage>, now: Time)
    requires faults != {}
    ensures FetchAllData(db, remote, faults, now).db.metricsSummary == db.metricsSummary
    ensures IsDataStale(FetchAllData(db, remote, faults, now).db, now) == IsDataStale(db, now)
  {
    var step := (s: Stage, d: ValidDb) => RunStage(s, d, remote, now);
    var summary := (d: ValidDb) => d.metricsSummary;
    forall s, x | s != Metrics
      ensures summary(step(s, x)) == summary(x)
    {
    }
    var f :| f in faults;
    AllStagesInOrder(f);
    assert forall i :: 0 <= i < |StageOrder| - 1 ==> StageOrder[i] != Metrics;
    FailedRunKeeps(StageOrder, db, faults, step, summary, Metrics);
  }

  /** A successful sync stores summary 1, stamped with the sync time, with
      the counts of the repository and team tables as they stand after the
      earlier stages; the data is then fresh. */
  lemma SuccessfulSyncWritesSummary(db: ValidDb, remote: Remote, now: Time)
    ensures var step := (s: Stage, d: ValidDb) => RunStage(s, d, remote, now);
            var before := Run(StageOrder[..6], db, step);
            var after := FetchAllData(db, remote, {}, now).db;
            && Summary(after) == Some(SummaryOf(before, remote, now))
            && !IsDataStale(after, now)
  {
    var step := (s: Stage, d: ValidDb) => RunStage(s, d, remote, now);
    RunUntilStopsAtFirstFault(StageOrder, db, {}, step);
    StageOrderEnds();
    RunSplit(StageOrder[..6], [Metrics], db, step);
    var before := Run(StageOrder[..6], db, step);
    assert Run([Metrics], before, step) == RunStage(Metrics, before, remote, now);
    MetricsStageFresh(before, remote, now);
  }

  /** No stage faults without a fault, and the metrics stage comes last. */
  lemma StageOrderEnds()
    ensures FirstFault(StageOrder, {}) == |StageOrder| == 7
    ensures StageOrder[..7] == StageOrder[..6] + [Metrics]
  {
    assert StageOrder[..7] == StageOrder;
  }

  /** The metrics stage stores the summary under key 1, making the data fresh. */
  lemma MetricsStageFresh(db: ValidDb, remote: Remote, now: Time)
    ensures Summary(RunStage(Metrics, db, remote, now)) == Some(SummaryOf(db, remote, now))
    ensures !IsDataStale(RunStage(Metrics, db, remote, now), now)
  {
    var m := SummaryOf(db, remote, now);
    assert SummaryKey(m) == Table.Key(SummaryId, "");
  }

  /** The commit count looks only at the first five repositories: any table
      with the same first five gives the same count. */
  lemma CommitCountFirstFive(repos: seq<Repository>, other: seq<Repository>, commits: map<nat, nat>)
    requires |repos| >= CommitRepoLimit && |other| >= CommitRepoLimit
    requires repos[..CommitRepoLimit] == other[..CommitRepoLimit]
    ensures CommitCount(repos, commits) == CommitCount(other, commits)
  {
  }

  /** With one page of at most 100 commits per repository, the count is at most 500. */
  lemma {:induction false} SumCommitsBound(repos: seq<Repository>, commits: map<nat, nat>, page: nat)
    requires forall id :: id in commits ==> commits[id] <= page
    ensures SumCommits(repos, commits) <= |repos| * page
  {
    if |repos| > 0 {
      SumCommitsBound(repos[1..], commits, page);
    }
  }

  lemma CommitCountBound(repos: seq<Repository>, commits: map<nat, nat>)
    requires forall id :: id in commits ==> commits[id] <= 100
    ensures CommitCount(repos, commits) <= 500
  {
    var first := repos[..if |repos| < CommitRepoLimit then |repos| else CommitRepoLimit];
    SumCommitsBound(first, commits, 100);
  }

  /** A failed commit listing counts 0, so repositories missing from the
      answers add nothing. */
  lemma {:induction false} SumCommitsOfFailures(repos: seq<Repository>, commits: map<nat, nat>)
    requires forall i :: 0 <= i < |repos| ==> repos[i].id !in commits
    ensures SumCommits(repos, commits) == 0
  {
    if |repos| > 0 {
      assert forall i :: 1 <= i < |repos| ==> repos[i] == repos[1..][i - 1];
      SumCommitsOfFailures(repos[1..], commits);
    }
  }

  /** Ownership rules are only ever added or overwritten by a sync, never
      removed: a rule key present before is present after, whatever fails. */
  lemma SyncKeepsRules(db: ValidDb, remote: Remote, faults: set<Stage>, now: Time, k: Table.Key)
    requires Table.Get(db.codeOwners, k, CodeOwnerKey).Some?
    ensures Table.Get(FetchAllData(db, remote, faults, now).db.codeOwners, k, CodeOwnerKey).Some?
  {
    var step := (s: Stage, d: ValidDb) => RunStage(s, d, remote, now);
    var inv := (d: ValidDb) => Table.Get(d.codeOwners, k, CodeOwnerKey).Some?;
    forall s, x | inv(x)
      ensures inv(step(s, x))
    {
      if s == CodeOwnerRules {
        Table.PutAllKeepsKeys(x.codeOwners, CodeOwners.FetchCodeOwners(x.repositories, remote.contents, now), CodeOwnerKey, k);
      }
    }
    RunUntilPreserves(StageOrder, db, faults, step, inv);
  }
}

=== FILE: syncstages.dfy ===
/** What each stage of `fetchAllData` (src/services/github.ts) writes. Every
    stage but the owner assignment puts records into its one table: each
    record is stored under its key, the last record of a repeated key wins,
    and the other keys of the table read as before. `Sync.RunStage` runs
    these functions, one per stage, and its contract says that each stage
    leaves the other tables alone. */
module SyncStages {
  import opened Wrappers
  import Table
  import opened Store
  import Findings
  import CodeOwners
  import Compliance
  import Sync

  /** Listed repositories are stored under their ids: the last listing of
      an id is the one kept. */
  lemma RepositoriesStageStores(db: ValidDb, remote: Sync.Remote, now: Time)
    ensures forall i :: 0 <= i < |remote.repos| && (forall j :: i < j < |remote.repos| ==> remote.repos[j].id != remote.repos[i].id) ==>
              Table.Get(Sync.RepositoriesStage(db, remote, now).repositories, Table.Key(remote.repos[i].id, ""), RepositoryKey)
              == Some(Sync.ToRepository(remote, remote.repos[i], now))
  {
    var rs := Sync.ToRepositories(remote, remote.repos, now);
    assert Sync.RepositoriesStage(db, remote, now).repositories == Table.PutAll(db.repositories, rs, RepositoryKey);
    forall i | 0 <= i < |remote.repos| && (forall j :: i < j < |remote.repos| ==> remote.repos[j].id != remote.repos[i].id)
      ensures Table.Get(Table.PutAll(db.repositories, rs, RepositoryKey), Table.Key(remote.repos[i].id, ""), RepositoryKey)
              == Some(Sync.ToRepository(remote, remote.repos[i], now))
    {
      RepositoryStored(db.repositories, remote, now, i);
    }
  }

  /** A repository id that is not listed reads as before. */
  lemma RepositoriesStageKeeps(db: ValidDb, remote: Sync.Remote, now: Time)
    ensures forall id: nat :: (forall i :: 0 <= i < |remote.repos| ==> remote.repos[i].id != id) ==>
              Table.Get(Sync.RepositoriesStage(db, remote, now).repositories, Table.Key(id, ""), RepositoryKey)
              == Table.Get(db.repositories, Table.Key(id, ""), RepositoryKey)
  {
    var rs := Sync.ToRepositories(remote, remote.repos, now);
    assert Sync.RepositoriesStage(db, remote, now).repositories == Table.PutAll(db.repositories, rs, RepositoryKey);
    forall id: nat | forall i :: 0 <= i < |remote.repos| ==> remote.repos[i].id != id
      ensures Table.Get(Table.PutAll(db.repositories, rs, RepositoryKey), Table.Key(id, ""), RepositoryKey)
              == Table.Get(db.repositories, Table.Key(id, ""), RepositoryKey)
    {
      Table.PutAllOther(db.repositories, rs, RepositoryKey, Table.Key(id, ""));
    }
  }

  /** Listed teams are stored under their ids: the last listing of an id is
      the one kept. */
  lemma TeamsStageStores(db: ValidDb, remote: Sync.Remote, now: Time)
    ensures forall i :: 0 <= i < |remote.teams| && (forall j :: i < j < |remote.teams| ==> remote.teams[j].id != remote.teams[i].id) ==>
              Table.Get(Sync.TeamsStage(db, remote, now).teams, Table.Key(remote.teams[i].id, ""), TeamKey)
              == Some(Sync.ToTeams(remote.teams, now)[i])
  {
    var ts := Sync.ToTeams(remote.teams, now);
    assert Sync.TeamsStage(db, remote, now).teams == Table.PutAll(db.teams, ts, TeamKey);
    forall i | 0 <= i < |remote.teams| && (forall j :: i < j < |remote.teams| ==> remote.teams[j].id != remote.teams[i].id)
      ensures Table.Get(Table.PutAll(db.teams, ts, TeamKey), Table.Key(remote.teams[i].id, ""), TeamKey) == Some(ts[i])
    {
      TeamStored(db.teams, remote.teams, now, i);
    }
  }

  /** A team id that is not listed reads as before. */
  lemma TeamsStageKeeps(db: ValidDb, remote: Sync.Remote, now: Time)
    ensures forall id: nat :: (forall i :: 0 <= i < |remote.teams| ==> remote.teams[i].id != id) ==>
              Table.Get(Sync.TeamsStage(db, remote, now).teams, Table.Key(id, ""), TeamKey)
              == Table.Get(db.teams, Table.Key(id, ""), TeamKey)
  {
    var ts := Sync.ToTeams(remote.teams, now);
    assert Sync.TeamsStage(db, remote, now).teams == Table.PutAll(db.teams, ts, TeamKey);
    forall id: nat | forall i :: 0 <= i < |remote.teams| ==> remote.teams[i].id != id
      ensures Table.Get(Table.PutAll(db.teams, ts, TeamKey), Table.Key(id, ""), TeamKey)
              == Table.Get(db.teams, Table.Key(id, ""), TeamKey)
    {
      Table.PutAllOther(db.teams, ts, TeamKey, Table.Key(id, ""));
    }
  }

  /** Under the id of every fetched finding the table holds the last finding
      fetched with that id, which has the same tool and repository. */
  lemma FindingsStageStores(db: ValidDb, remote: Sync.Remote, now: Time)
    ensures var fs := Findings.FetchSecurityFindings(db.repositories, remote.alerts, now);
            forall f :: f in fs ==>
              exists j :: && 0 <= j < |fs| && fs[j].id == f.id && fs[j].tool == f.tool && fs[j].repositoryId == f.repositoryId
                          && (forall l :: j < l < |fs| ==> FindingKey(fs[l]) != FindingKey(f))
                          && Table.Get(Sync.FindingsStage(db, remote, now).securityFindings, FindingKey(f), FindingKey) == Some(fs[j])
  {
    var fs := Findings.FetchSecurityFindings(db.repositories, remote.alerts, now);
    assert Sync.FindingsStage(db, remote, now).securityFindings == Table.PutAll(db.securityFindings, fs, FindingKey);
    Findings.FetchedFresh(db.repositories, remote.alerts, now);
    FindingsStored(db.securityFindings, db.repositories, fs, now);
  }

  /** When the fetched ids are distinct, each fetched finding is stored
      exactly. */
  lemma FindingsStageDistinct(db: ValidDb, remote: Sync.Remote, now: Time)
    ensures Table.DistinctKeys(Findings.FetchSecurityFindings(db.repositories, remote.alerts, now), FindingKey) ==>
              forall f :: f in Findings.FetchSecurityFindings(db.repositories, remote.alerts, now) ==>
                Table.Get(Sync.FindingsStage(db, remote, now).securityFindings, FindingKey(f), FindingKey) == Some(f)
  {
    var fs := Findings.FetchSecurityFindings(db.repositories, remote.alerts, now);
    assert Sync.FindingsStage(db, remote, now).securityFindings == Table.PutAll(db.securityFindings, fs, FindingKey);
    if Table.DistinctKeys(fs, FindingKey) {
      Table.PutAllDistinct(db.securityFindings, fs, FindingKey);
    }
  }

  /** Findings that were not fetched again are kept as they were. */
  lemma FindingsStageKeeps(db: ValidDb, remote: Sync.Remote, now: Time)
    ensures forall k :: k !in Table.Keys(Findings.FetchSecurityFindings(db.repositories, remote.alerts, now), FindingKey) ==>
              Table.Get(Sync.FindingsStage(db, remote, now).securityFindings, k, FindingKey)
              == Table.Get(db.securityFindings, k, FindingKey)
  {
    var fs := Findings.FetchSecurityFindings(db.repositories, remote.alerts, now);
    assert Sync.FindingsStage(db, remote, now).securityFindings == Table.PutAll(db.securityFindings, fs, FindingKey);
    forall k | k !in Table.Keys(fs, FindingKey)
      ensures Table.Get(Table.PutAll(db.securityFindings, fs, FindingKey), k, FindingKey)
              == Table.Get(db.securityFindings, k, FindingKey)
    {
      Table.PutAllOther(db.securityFindings, fs, FindingKey, k);
    }
  }

  /** Each fresh finding's id reads back the last finding put with that id,
      which has the same tool and repository. */
  lemma FindingsStored(table: seq<Finding>, repos: seq<Repository>, fs: seq<Finding>, now: Time)
    requires Table.Ordered(table, FindingKey)
    requires forall g :: g in fs ==> exists i :: 0 <= i < |repos| && Findings.Fresh(g, repos[i], now)
    ensures forall f :: f in fs ==>
              exists j :: && 0 <= j < |fs| && fs[j].id == f.id && fs[j].tool == f.tool && fs[j].repositoryId == f.repositoryId
                          && (forall l :: j < l < |fs| ==> FindingKey(fs[l]) != FindingKey(f))
                          && Table.Get(Table.PutAll(table, fs, FindingKey), FindingKey(f), FindingKey) == Some(fs[j])
  {
    forall f | f in fs
      ensures exists j :: && 0 <= j < |fs| && fs[j].id == f.id && fs[j].tool == f.tool && fs[j].repositoryId == f.repositoryId
                          && (forall l :: j < l < |fs| ==> FindingKey(fs[l]) != FindingKey(f))
                          && Table.Get(Table.PutAll(table, fs, FindingKey), FindingKey(f), FindingKey) == Some(fs[j])
    {
      FindingStored(table, repos, fs, now, f);
    }
  }

  /** One finding of `FindingsStored`. */
  lemma FindingStored(table: seq<Finding>, repos: seq<Repository>, fs: seq<Finding>, now: Time, f: Finding)
    requires Table.Ordered(table, FindingKey) && f in fs
    requires forall g :: g in fs ==> exists i :: 0 <= i < |repos| && Findings.Fresh(g, repos[i], now)
    ensures exists j :: && 0 <= j < |fs| && fs[j].id == f.id && fs[j].tool == f.tool && fs[j].repositoryId == f.repositoryId
                        && (forall l :: j < l < |fs| ==> FindingKey(fs[l]) != FindingKey(f))
                        && Table.Get(Table.PutAll(table, fs, FindingKey), FindingKey(f), FindingKey) == Some(fs[j])
  {
    var i :| 0 <= i < |fs| && fs[i] == f;
    Table.PutAllFinds(table, fs, FindingKey, i);
    var j :| i <= j < |fs| && FindingKey(fs[j]) == FindingKey(f)
             && (forall l :: j < l < |fs| ==> FindingKey(fs[l]) != FindingKey(f))
             && Table.Get(Table.PutAll(table, fs, FindingKey), FindingKey(f), FindingKey) == Some(fs[j]);
    assert fs[j] in fs;
    SameIdSameSource(repos, f, fs[j], now);
  }

  /** The last listing of a repository id is the one stored. */
  lemma RepositoryStored(table: seq<Repository>, remote: Sync.Remote, now: Time, i: nat)
    requires Table.Ordered(table, RepositoryKey) && i < |remote.repos|
    requires forall j :: i < j < |remote.repos| ==> remote.repos[j].id != remote.repos[i].id
    ensures Table.Get(Table.PutAll(table, Sync.ToRepositories(remote, remote.repos, now), RepositoryKey),
                      Table.Key(remote.repos[i].id, ""), RepositoryKey)
            == Some(Sync.ToRepository(remote, remote.repos[i], now))
  {
    var rs := Sync.ToRepositories(remote, remote.repos, now);
    forall j | i < j < |rs|
      ensures RepositoryKey(rs[j]) != RepositoryKey(rs[i])
    {
      assert rs[j].id == remote.repos[j].id;
    }
    Table.PutAllLast(table, rs, RepositoryKey, i);
  }

  /** The last listing of a team id is the one stored. */
  lemma TeamStored(table: seq<Team>, teams: seq<Sync.RemoteTeam>, now: Time, i: nat)
    requires Table.Ordered(table, TeamKey) && i < |teams|
    requires forall j :: i < j < |teams| ==> teams[j].id != teams[i].id
    ensures Table.Get(Table.PutAll(table, Sync.ToTeams(teams, now), TeamKey), Table.Key(teams[i].id, ""), TeamKey)
            == Some(Sync.ToTeams(teams, now)[i])
  {
    var ts := Sync.ToTeams(teams, now);
    forall j | i < j < |ts|
      ensures TeamKey(ts[j]) != TeamKey(ts[i])
    {
      assert ts[j].id == teams[j].id;
    }
    Table.PutAllLast(table, ts, TeamKey, i);
  }

  /** Two fresh findings with one id come from the same tool and repository. */
  lemma SameIdSameSource(repos: seq<Repository>, f: Finding, g: Finding, now: Time)
    requires exists i :: 0 <= i < |repos| && Findings.Fresh(f, repos[i], now)
    requires exists i :: 0 <= i < |repos| && Findings.Fresh(g, repos[i], now)
    requires f.id == g.id
    ensures f.tool == g.tool && f.repositoryId == g.repositoryId
  {
    var i :| 0 <= i < |repos| && Findings.Fresh(f, repos[i], now);
    var j :| 0 <= j < |repos| && Findings.Fresh(g, repos[j], now);
    var n: nat :| f.id == Findings.FindingId(f.tool, repos[i].id, n);
    var m: nat :| g.id == Findings.FindingId(g.tool, repos[j].id, m);
    Findings.FindingIdInjective(f.tool, repos[i].id, n, g.tool, repos[j].id, m);
  }

  /** Under the key of every fetched rule the table holds the last fetched
      rule with that key; in particular a rule not repeated later in the
      fetch is stored exactly, so of a repeated (repository, pattern) line the
      last one wins. */
  lemma RulesStageStores(db: ValidDb, remote: Sync.Remote, now: Time)
    ensures var rs := CodeOwners.FetchCodeOwners(db.repositories, remote.contents, now);
            forall c :: c in rs ==>
              exists j :: && 0 <= j < |rs| && CodeOwnerKey(rs[j]) == CodeOwnerKey(c)
                          && (forall l :: j < l < |rs| ==> CodeOwnerKey(rs[l]) != CodeOwnerKey(c))
                          && Table.Get(Sync.RulesStage(db, remote, now).codeOwners, CodeOwnerKey(c), CodeOwnerKey) == Some(rs[j])
  {
    var rs := CodeOwners.FetchCodeOwners(db.repositories, remote.contents, now);
    assert Sync.RulesStage(db, remote, now).codeOwners == Table.PutAll(db.codeOwners, rs, CodeOwnerKey);
    RulesStored(db.codeOwners, rs);
  }

  /** Each rule's key reads back the last rule put with that key. */
  lemma RulesStored(table: seq<CodeOwner>, rs: seq<CodeOwner>)
    requires Table.Ordered(table, CodeOwnerKey)
    ensures forall c :: c in rs ==>
              exists j :: && 0 <= j < |rs| && CodeOwnerKey(rs[j]) == CodeOwnerKey(c)
                          && (forall l :: j < l < |rs| ==> CodeOwnerKey(rs[l]) != CodeOwnerKey(c))
                          && Table.Get(Table.PutAll(table, rs, CodeOwnerKey), CodeOwnerKey(c), CodeOwnerKey) == Some(rs[j])
  {
    forall c | c in rs
      ensures exists j :: && 0 <= j < |rs| && CodeOwnerKey(rs[j]) == CodeOwnerKey(c)
                          && (forall l :: j < l < |rs| ==> CodeOwnerKey(rs[l]) != CodeOwnerKey(c))
                          && Table.Get(Table.PutAll(table, rs, CodeOwnerKey), CodeOwnerKey(c), CodeOwnerKey) == Some(rs[j])
    {
      var i :| 0 <= i < |rs| && rs[i] == c;
      Table.PutAllFinds(table, rs, CodeOwnerKey, i);
    }
  }

  /** A fetched rule whose key is not fetched again later reads back exactly. */
  lemma RulesStageLast(db: ValidDb, remote: Sync.Remote, now: Time)
    ensures var rs := CodeOwners.FetchCodeOwners(db.repositories, remote.contents, now);
            forall i :: 0 <= i < |rs| && (forall l :: i < l < |rs| ==> CodeOwnerKey(rs[l]) != CodeOwnerKey(rs[i])) ==>
              Table.Get(Sync.RulesStage(db, remote, now).codeOwners, CodeOwnerKey(rs[i]), CodeOwnerKey) == Some(rs[i])
  {
    var rs := CodeOwners.FetchCodeOwners(db.repositories, remote.contents, now);
    assert Sync.RulesStage(db, remote, now).codeOwners == Table.PutAll(db.codeOwners, rs, CodeOwnerKey);
    forall i | 0 <= i < |rs| && (forall l :: i < l < |rs| ==> CodeOwnerKey(rs[l]) != CodeOwnerKey(rs[i]))
      ensures Table.Get(Table.PutAll(db.codeOwners, rs, CodeOwnerKey), CodeOwnerKey(rs[i]), CodeOwnerKey) == Some(rs[i])
    {
      Table.PutAllLast(db.codeOwners, rs, CodeOwnerKey, i);
    }
  }

  /** Rules whose key is not fetched again are kept as they were. */
  lemma RulesStageKeeps(db: ValidDb, remote: Sync.Remote, now: Time)
    ensures forall k :: k !in Table.Keys(CodeOwners.FetchCodeOwners(db.repositories, remote.contents, now), CodeOwnerKey) ==>
              Table.Get(Sync.RulesStage(db, remote, now).codeOwners, k, CodeOwnerKey)
              == Table.Get(db.codeOwners, k, CodeOwnerKey)
  {
    var rs := CodeOwners.FetchCodeOwners(db.repositories, remote.contents, now);
    assert Sync.RulesStage(db, remote, now).codeOwners == Table.PutAll(db.codeOwners, rs, CodeOwnerKey);
    forall k | k !in Table.Keys(rs, CodeOwnerKey)
      ensures Table.Get(Table.PutAll(db.codeOwners, rs, CodeOwnerKey), k, CodeOwnerKey) == Table.Get(db.codeOwners, k, CodeOwnerKey)
    {
      Table.PutAllOther(db.codeOwners, rs, CodeOwnerKey, k);
    }
  }

  /** The assignment stage rewrites every finding in place with its owner
      resolved against the stored rules. */
  lemma AssignStageStores(db: ValidDb)
    ensures |Sync.AssignStage(db).securityFindings| == |db.securityFindings|
    ensures forall i :: 0 <= i < |db.securityFindings| ==>
              Sync.AssignStage(db).securityFindings[i] == CodeOwners.AssignOwner(db.securityFindings[i], db.codeOwners)
  {
    CodeOwners.AssignOwnersPointwise(db.securityFindings, db.codeOwners);
  }
}

=== FILE: table.dfy ===
/** A keyed object-store table, as the browser store behind the cache keeps
    one: records ordered by primary key, at most one record per key, `put`
    replacing the record with the same key, `toArray` listing the records in
    key order. The table is the key-ordered sequence of its records. */
module Table {
  import opened Wrappers
  import Seqs
  import Text

  /** Primary keys. Each table embeds its own key type here: a numeric key
      `n` is `Key(n, "")`, a string key `s` is `Key(0, s)`, and the compound
      key `[repository_id+directory_path]` is `Key(repository_id, directory_path)`.
      Within one table this order is the store's key order. */
  datatype Key = Key(num: nat, text: string)

  predicate Less(a: Key, b: Key) {
    a.num < b.num || (a.num == b.num && Text.Compare(a.text, b.text) < 0)
  }

  lemma LessIrreflexive(a: Key)
    ensures !Less(a, a)
  {
    Text.CompareEqual(a.text, a.text);
  }

  lemma LessTransitive(a: Key, b: Key, c: Key)
    requires Less(a, b) && Less(b, c)
    ensures Less(a, c)
  {
    if a.num == b.num == c.num {
      Text.CompareTransitive(a.text, b.text, c.text);
    }
  }

  lemma LessTotal(a: Key, b: Key)
    ensures a == b || Less(a, b) || Less(b, a)
  {
    Text.CompareEqual(a.text, b.text);
    Text.CompareAntisymmetric(a.text, b.text);
  }

  /** Keys strictly increase along the table, so no key occurs twice. */
  predicate Ordered<V>(t: seq<V>, key: V -> Key) {
    forall i, j :: 0 <= i < j < |t| ==> Less(key(t[i]), key(t[j]))
  }

  function Keys<V>(t: seq<V>, key: V -> Key): set<Key> {
    set i | 0 <= i < |t| :: key(t[i])
  }

  /** `table.get(k)`. */
  function Get<V>(t: seq<V>, k: Key, key: V -> Key): (r: Option<V>)
    ensures r.Some? ==> key(r.value) == k && r.value in t
    ensures r.None? <==> forall i :: 0 <= i < |t| ==> key(t[i]) != k
  {
    if |t| == 0 then None
    else if key(t[0]) == k then Some(t[0])
    else Get(t[1..], k, key)
  }

  /** In an ordered table `get` finds the record sitting at the key's position. */
  lemma GetAt<V>(t: seq<V>, i: nat, key: V -> Key)
    requires Ordered(t, key) && i < |t|
    ensures Get(t, key(t[i]), key) == Some(t[i])
  {
    if i > 0 {
      LessIrreflexive(key(t[0]));
      assert key(t[0]) != key(t[i]);
      GetAt(t[1..], i - 1, key);
    }
  }

  /** `table.put(r)`: insert `r` at its key's position, or replace the record
      already stored under that key. */
  function Put<V>(t: seq<V>, r: V, key: V -> Key): (u: seq<V>)
    requires Ordered(t, key)
    ensures Ordered(u, key)
    ensures Get(u, key(r), key) == Some(r)
    ensures forall k :: k != key(r) ==> Get(u, k, key) == Get(t, k, key)
    ensures forall x :: x in u ==> x == r || x in t
    ensures |u| == if Get(t, key(r), key).Some? then |t| else |t| + 1
  {
    if |t| == 0 then [r]
    else if Less(key(r), key(t[0])) then
      PutBefore(t, r, key);
      [r] + t
    else if key(r) == key(t[0]) then
      assert t == [t[0]] + t[1..];
      PutBefore(t[1..], r, key);
      [r] + t[1..]
    else
      LessTotal(key(r), key(t[0]));
      var u := [t[0]] + Put(t[1..], r, key);
      forall i | 1 <= i < |u|
        ensures Less(key(t[0]), key(u[i]))
      {
        assert u[i] in Put(t[1..], r, key);
      }
      u
  }

  /** A record whose key is below every key of an ordered table goes first. */
  lemma PutBefore<V>(t: seq<V>, r: V, key: V -> Key)
    requires Ordered(t, key)
    requires |t| == 0 || Less(key(r), key(t[0]))
    ensures Ordered([r] + t, key)
    ensures Get(t, key(r), key).None?
  {
    forall i | 0 <= i < |t|
      ensures Less(key(r), key(t[i]))
    {
      if i > 0 {
        LessTransitive(key(r), key(t[0]), key(t[i]));
      }
    }
    forall i | 0 <= i < |t|
      ensures key(t[i]) != key(r)
    {
      LessIrreflexive(key(r));
    }
  }

  /** A put replacing an existing record keeps its place in the table. */
  lemma {:induction false} PutExisting<V>(t: seq<V>, i: nat, r: V, key: V -> Key)
    requires Ordered(t, key) && i < |t| && key(t[i]) == key(r)
    ensures Put(t, r, key) == t[i := r]
  {
    if i > 0 {
      assert Less(key(t[0]), key(t[i]));
      LessIrreflexive(key(r));
      assert key(r) != key(t[0]);
      assert !Less(key(r), key(t[0])) by {
        if Less(key(r), key(t[0])) {
          LessTransitive(key(r), key(t[0]), key(r));
        }
      }
      assert Put(t, r, key) == [t[0]] + Put(t[1..], r, key);
      PutExisting(t[1..], i - 1, r, key);
      UpdateTail(t, i, r);
      assert Put(t, r, key) == [t[0]] + t[1..][i - 1 := r];
    } else {
      assert Put(t, r, key) == [r] + t[1..];
      assert [r] + t[1..] == t[0 := r];
    }
  }

  lemma UpdateTail<V>(t: seq<V>, i: nat, r: V)
    requires 0 < i < |t|
    ensures [t[0]] + t[1..][i - 1 := r] == t[i := r]
  {
    var u := [t[0]] + t[1..][i - 1 := r];
    forall j | 0 <= j < |u|
      ensures u[j] == t[i := r][j]
    {
      if j > 0 {
        assert u[j] == t[1..][i - 1 := r][j - 1];
      }
    }
  }

  /** `table.bulkPut(rs)`: the records are put one after the other. */
  function PutAll<V>(t: seq<V>, rs: seq<V>, key: V -> Key): (u: seq<V>)
    requires Ordered(t, key)
    ensures Ordered(u, key)
    decreases |rs|
  {
    if |rs| == 0 then t else PutAll(Put(t, rs[0], key), rs[1..], key)
  }

  /** Keys a bulk put does not mention keep their old record. */
  lemma {:induction false} PutAllOther<V>(t: seq<V>, rs: seq<V>, key: V -> Key, k: Key)
    requires Ordered(t, key)
    requires forall i :: 0 <= i < |rs| ==> key(rs[i]) != k
    ensures Get(PutAll(t, rs, key), k, key) == Get(t, k, key)
    decreases |rs|
  {
    if |rs| > 0 {
      assert forall i :: 0 <= i < |rs[1..]| ==> rs[1..][i] == rs[i + 1];
      PutAllOther(Put(t, rs[0], key), rs[1..], key, k);
    }
  }

  /** The last record of a key in a bulk put is the one stored. */
  lemma {:induction false} PutAllLast<V>(t: seq<V>, rs: seq<V>, key: V -> Key, i: nat)
    requires Ordered(t, key) && i < |rs|
    requires forall j :: i < j < |rs| ==> key(rs[j]) != key(rs[i])
    ensures Get(PutAll(t, rs, key), key(rs[i]), key) == Some(rs[i])
    decreases |rs|
  {
    assert forall j :: 0 <= j < |rs[1..]| ==> rs[1..][j] == rs[j + 1];
    if i == 0 {
      PutAllOther(Put(t, rs[0], key), rs[1..], key, key(rs[0]));
    } else {
      PutAllLast(Put(t, rs[0], key), rs[1..], key, i - 1);
    }
  }

  /** A bulk put never removes a key. */
  lemma PutAllKeepsKeys<V>(t: seq<V>, rs: seq<V>, key: V -> Key, k: Key)
    requires Ordered(t, key)
    requires Get(t, k, key).Some?
    ensures Get(PutAll(t, rs, key), k, key).Some?
  {
    if i :| 0 <= i < |rs| && key(rs[i]) == k {
      LastWithKey(t, rs, key, i);
    } else {
      PutAllOther(t, rs, key, k);
    }
  }

  lemma {:induction false} LastWithKey<V>(t: seq<V>, rs: seq<V>, key: V -> Key, i: nat)
    requires Ordered(t, key) && i < |rs|
    ensures Get(PutAll(t, rs, key), key(rs[i]), key).Some?
    decreases |rs| - i
  {
    if j :| i < j < |rs| && key(rs[j]) == key(rs[i]) {
      LastWithKey(t, rs, key, j);
    } else {
      PutAllLast(t, rs, key, i);
    }
  }

  /** Each key of a bulk put reads back the last record given for it. */
  lemma {:induction false} PutAllFinds<V>(t: seq<V>, rs: seq<V>, key: V -> Key, i: nat)
    requires Ordered(t, key) && i < |rs|
    ensures exists j :: i <= j < |rs| && key(rs[j]) == key(rs[i])
                        && (forall l :: j < l < |rs| ==> key(rs[l]) != key(rs[i]))
                        && Get(PutAll(t, rs, key), key(rs[i]), key) == Some(rs[j])
    decreases |rs| - i
  {
    if j :| i < j < |rs| && key(rs[j]) == key(rs[i]) {
      PutAllFinds(t, rs, key, j);
    } else {
      PutAllLast(t, rs, key, i);
    }
  }

  /** A filtered table is still in key order. */
  lemma {:induction false} FilterOrdered<V(!new)>(t: seq<V>, p: V -> bool, key: V -> Key)
    requires Ordered(t, key)
    ensures Ordered(Seqs.Filter(t, p), key)
  {
    if |t| > 0 {
      FilterOrdered(t[1..], p, key);
      var rest := Seqs.Filter(t[1..], p);
      forall i | 0 <= i < |rest|
        ensures Less(key(t[0]), key(rest[i]))
      {
        assert rest[i] in t[1..];
        var j :| 0 <= j < |t[1..]| && t[1..][j] == rest[i];
        assert t[j + 1] == rest[i];
      }
    }
  }

  /** No key occurs twice in `rs`: the records of one bulk put, in any order. */
  predicate DistinctKeys<V>(rs: seq<V>, key: V -> Key) {
    forall i, j :: 0 <= i < j < |rs| ==> key(rs[i]) != key(rs[j])
  }

  /** A key-ordered sequence has distinct keys. */
  lemma OrderedDistinct<V>(rs: seq<V>, key: V -> Key)
    requires Ordered(rs, key)
    ensures DistinctKeys(rs, key)
  {
    forall i, j | 0 <= i < j < |rs|
      ensures key(rs[i]) != key(rs[j])
    {
      LessIrreflexive(key(rs[i]));
    }
  }

  /** A bulk put of records with distinct keys, in whatever order, stores
      every one of them and keeps every other key. */
  lemma PutAllDistinct<V>(t: seq<V>, rs: seq<V>, key: V -> Key)
    requires Ordered(t, key) && DistinctKeys(rs, key)
    ensures forall i :: 0 <= i < |rs| ==> Get(PutAll(t, rs, key), key(rs[i]), key) == Some(rs[i])
    ensures forall k :: k !in Keys(rs, key) ==> Get(PutAll(t, rs, key), k, key) == Get(t, k, key)
  {
    forall i | 0 <= i < |rs|
      ensures Get(PutAll(t, rs, key), key(rs[i]), key) == Some(rs[i])
    {
      PutAllLast(t, rs, key, i);
    }
    forall k | k !in Keys(rs, key)
      ensures Get(PutAll(t, rs, key), k, key) == Get(t, k, key)
    {
      PutAllOther(t, rs, key, k);
    }
  }
}

=== FILE: text.dfy ===
/** The JavaScript string operations the engine relies on, over `seq<char>`:
    `trim`, `split(/\s+/)`, `split("\n")`, `join`, `includes`, `startsWith`,
    `endsWith`, `toLowerCase`, ordering of strings, and decimal rendering of
    numbers inside template literals. */
module Text {
  import Utf16

  /** The characters JavaScript's `\s` and `String.prototype.trim` treat as
      white space (WhiteSpace and LineTerminator of ECMA-262). */
  const Spaces: set<char> := {
      '\U{0009}', '\U{000A}', '\U{000B}', '\U{000C}', '\U{000D}', '\U{0020}', '\U{00A0}', '\U{1680}',
      '\U{2000}', '\U{2001}', '\U{2002}', '\U{2003}', '\U{2004}', '\U{2005}', '\U{2006}', '\U{2007}',
      '\U{2008}', '\U{2009}', '\U{200A}', '\U{2028}', '\U{2029}', '\U{202F}', '\U{205F}', '\U{3000}',
      '\U{FEFF}'
    }

  predicate IsSpace(c: char) {
    c in Spaces
  }

  predicate AllSpace(s: string) {
    forall i :: 0 <= i < |s| ==> IsSpace(s[i])
  }

  /** A maximal run of non-space characters, as produced by `split(/\s+/)`. */
  predicate IsWord(w: string) {
    |w| > 0 && forall i :: 0 <= i < |w| ==> !IsSpace(w[i])
  }

  function TrimStart(s: string): (r: string)
    ensures |r| <= |s| && r == s[|s| - |r|..]
    ensures r == [] || !IsSpace(r[0])
    ensures AllSpace(s[..|s| - |r|])
  {
    if |s| > 0 && IsSpace(s[0]) then TrimStart(s[1..]) else s
  }

  function TrimEnd(s: string): (r: string)
    ensures |r| <= |s| && r == s[..|r|]
    ensures r == [] || !IsSpace(r[|r| - 1])
    ensures AllSpace(s[|r|..])
  {
    if |s| > 0 && IsSpace(s[|s| - 1]) then
      var r := TrimEnd(s[..|s| - 1]);
      assert s[..|s| - 1][..|r|] == s[..|r|];
      assert s[|r|..] == s[..|s| - 1][|r|..] + [s[|s| - 1]];
      r
    else s
  }

  /** `s.trim()`: `s` without its leading and trailing spaces. */
  function Trim(s: string): (r: string)
    ensures |r| <= |s|
    ensures r == [] || (!IsSpace(r[0]) && !IsSpace(r[|r| - 1]))
  {
    TrimEnd(TrimStart(s))
  }

  /** Only an all-space string trims to the empty string. */
  lemma TrimEmpty(s: string)
    ensures Trim(s) == [] <==> AllSpace(s)
  {
    var t := TrimStart(s);
    var k := |s| - |t|;
    assert t == s[k..];
    if AllSpace(s) {
      assert t == [];
    }
    if Trim(s) == [] {
      assert AllSpace(t[0..]);
      assert t[0..] == t;
      forall i | 0 <= i < |s|
        ensures IsSpace(s[i])
      {
        if i < k {
          assert s[i] == s[..k][i];
        } else {
          assert s[i] == t[i - k];
        }
      }
    }
  }

  lemma TrimIdempotent(s: string)
    ensures Trim(Trim(s)) == Trim(s)
  {
  }

  /** The leading run of non-space characters. */
  function TakeWord(s: string): (w: string)
    ensures w <= s
    ensures forall i :: 0 <= i < |w| ==> !IsSpace(w[i])
    ensures |w| == |s| || IsSpace(s[|w|])
    ensures |s| > 0 && !IsSpace(s[0]) ==> |w| > 0
  {
    if |s| == 0 || IsSpace(s[0]) then [] else [s[0]] + TakeWord(s[1..])
  }

  /** The maximal runs of non-space characters of `s`, left to right. On a
      trimmed non-empty string this is exactly `s.split(/\s+/)`. */
  function Words(s: string): (ws: seq<string>)
    ensures forall w :: w in ws ==> IsWord(w)
    decreases |s|
  {
    var t := TrimStart(s);
    if |t| == 0 then []
    else
      var w := TakeWord(t);
      assert IsWord(w);
      var rest := t[|w|..];
      assert |rest| < |s|;
      [w] + Words(rest)
  }

  /** `parts.join(sep)`. */
  function Join(parts: seq<string>, sep: string): (r: string)
    decreases |parts|
  {
    if |parts| == 0 then ""
    else if |parts| == 1 then parts[0]
    else parts[0] + sep + Join(parts[1..], sep)
  }

  lemma {:induction false} TakeWordOfWord(w: string, rest: string)
    requires forall i :: 0 <= i < |w| ==> !IsSpace(w[i])
    requires rest == [] || IsSpace(rest[0])
    ensures TakeWord(w + rest) == w
  {
    if |w| > 0 {
      assert (w + rest)[1..] == w[1..] + rest;
      TakeWordOfWord(w[1..], rest);
    } else {
      assert w + rest == rest;
    }
  }

  lemma WordsAfterSpace(c: char, s: string)
    requires IsSpace(c)
    ensures Words([c] + s) == Words(s)
  {
    assert ([c] + s)[1..] == s;
  }

  lemma WordsEmpty()
    ensures Words([]) == []
  {
    assert TrimStart([]) == [];
  }

  lemma WordsOfWord(w: string)
    requires IsWord(w)
    ensures Words(w) == [w]
  {
    WordsCons(w, []);
    WordsEmpty();
    assert w + [] == w;
  }

  /** A word followed by a space (or by nothing) is the first word. */
  lemma WordsCons(w: string, rest: string)
    requires IsWord(w)
    requires rest == [] || IsSpace(rest[0])
    ensures Words(w + rest) == [w] + Words(rest)
  {
    var s := w + rest;
    assert s[0] == w[0];
    assert TrimStart(s) == s;
    TakeWordOfWord(w, rest);
    assert s[|w|..] == rest;
  }

  /** Splitting a space-joined list of words gives the words back. */
  lemma {:induction false} WordsOfJoin(ws: seq<string>)
    requires forall w :: w in ws ==> IsWord(w)
    ensures Words(Join(ws, " ")) == ws
    decreases |ws|
  {
    if |ws| <= 1 {
      WordsOfJoinShort(ws);
    } else {
      assert ws[0] in ws && forall w :: w in ws[1..] ==> w in ws;
      WordsOfJoin(ws[1..]);
      WordsOfJoinCons(ws);
    }
  }

  lemma WordsOfJoinShort(ws: seq<string>)
    requires |ws| <= 1 && forall w :: w in ws ==> IsWord(w)
    ensures Words(Join(ws, " ")) == ws
  {
    if |ws| == 0 {
      WordsOfJoinNone(ws);
    } else {
      assert ws[0] in ws;
      Singleton(ws);
      WordsOfJoinOne(ws[0]);
    }
  }

  lemma WordsOfJoinNone(ws: seq<string>)
    requires |ws| == 0
    ensures Words(Join(ws, " ")) == ws
  {
    WordsEmpty();
  }

  lemma WordsOfJoinOne(w: string)
    requires IsWord(w)
    ensures Words(Join([w], " ")) == [w]
  {
    assert Join([w], " ") == w;
    WordsOfWord(w);
  }

  lemma Singleton<T>(s: seq<T>)
    requires |s| == 1
    ensures s == [s[0]]
  {
  }

  lemma WordsOfJoinCons(ws: seq<string>)
    requires |ws| >= 2 && IsWord(ws[0])
    requires Words(Join(ws[1..], " ")) == ws[1..]
    ensures Words(Join(ws, " ")) == ws
  {
    var joined := Join(ws[1..], " ");
    assert Join(ws, " ") == ws[0] + " " + joined;
    WordsOfJoinStep(ws[0], joined);
    HeadTail(ws);
  }

  lemma HeadTail<T>(s: seq<T>)
    requires |s| > 0
    ensures s == [s[0]] + s[1..]
  {
  }

  lemma WordsOfJoinStep(w: string, rest: string)
    requires IsWord(w)
    ensures Words(w + " " + rest) == [w] + Words(rest)
  {
    var tail := [' '] + rest;
    assert w + " " + rest == w + tail;
    WordsCons(w, tail);
    WordsAfterSpace(' ', rest);
  }

  /** A join whose first part is non-empty starts with that part's first character. */
  lemma JoinFirst(parts: seq<string>, sep: string)
    requires |parts| >= 1 && |parts[0]| > 0
    ensures |Join(parts, sep)| > 0 && Join(parts, sep)[0] == parts[0][0]
  {
  }

  /** A join whose last part is non-empty ends with that part's last character. */
  lemma {:induction false} JoinLast(parts: seq<string>, sep: string)
    requires |parts| >= 1 && |parts[|parts| - 1]| > 0
    ensures |Join(parts, sep)| > 0
    ensures Join(parts, sep)[|Join(parts, sep)| - 1] == parts[|parts| - 1][|parts[|parts| - 1]| - 1]
    decreases |parts|
  {
    if |parts| > 1 {
      assert parts[1..][|parts[1..]| - 1] == parts[|parts| - 1];
      JoinLast(parts[1..], sep);
    }
  }

  /** A string with no space at either end is its own trim. */
  lemma TrimOfTrimmed(s: string)
    requires |s| > 0 && !IsSpace(s[0]) && !IsSpace(s[|s| - 1])
    ensures Trim(s) == s
  {
  }

  /** The first word of a string that starts with a non-space character
      starts with that character. */
  lemma WordsHead(s: string)
    requires |s| > 0 && !IsSpace(s[0])
    ensures |Words(s)| > 0 && Words(s)[0][0] == s[0]
  {
    assert TrimStart(s) == s;
    assert Words(s)[0] == TakeWord(s);
  }

  /** Words joined by single spaces form a non-empty string that is its own trim. */
  lemma JoinTrimmed(ws: seq<string>)
    requires |ws| >= 1 && forall w :: w in ws ==> IsWord(w)
    ensures Join(ws, " ") != [] && Trim(Join(ws, " ")) == Join(ws, " ")
  {
    assert ws[0] in ws && ws[|ws| - 1] in ws;
    JoinFirst(ws, " ");
    JoinLast(ws, " ");
    TrimOfTrimmed(Join(ws, " "));
  }

  /** Position of the first occurrence of `c` in `s`. */
  function IndexOf(s: string, c: char): (i: nat)
    requires c in s
    ensures i < |s| && s[i] == c && c !in s[..i]
  {
    if s[0] == c then 0 else 1 + IndexOf(s[1..], c)
  }

  /** `s.split(sep)` for a one-character separator. Joining the parts with
      the separator gives `s` back. */
  function Split(s: string, sep: char): (parts: seq<string>)
    ensures |parts| >= 1
    ensures forall i :: 0 <= i < |parts| ==> sep !in parts[i]
    ensures Join(parts, [sep]) == s
    decreases |s|
  {
    if sep !in s then [s]
    else
      var i := IndexOf(s, sep);
      var rest := Split(s[i + 1..], sep);
      assert s == s[..i] + [sep] + s[i + 1..];
      [s[..i]] + rest
  }

  lemma SplitEmpty(sep: char)
    ensures Split("", sep) == [""]
  {
  }

  lemma {:induction false} IndexOfAfter(a: string, sep: char, b: string)
    requires sep !in a
    ensures IndexOf(a + [sep] + b, sep) == |a|
    decreases |a|
  {
    if |a| > 0 {
      assert (a + [sep] + b)[1..] == a[1..] + [sep] + b;
      IndexOfAfter(a[1..], sep, b);
    }
  }

  lemma SplitCons(a: string, sep: char, b: string)
    requires sep !in a
    ensures Split(a + [sep] + b, sep) == [a] + Split(b, sep)
  {
    var s := a + [sep] + b;
    assert s[|a|] == sep;
    IndexOfAfter(a, sep, b);
    assert s[..|a|] == a && s[|a| + 1..] == b;
  }

  /** The other round trip: splitting a join of separator-free parts gives the parts. */
  lemma {:induction false} SplitOfJoin(parts: seq<string>, sep: char)
    requires |parts| >= 1
    requires forall i :: 0 <= i < |parts| ==> sep !in parts[i]
    ensures Split(Join(parts, [sep]), sep) == parts
    decreases |parts|
  {
    if |parts| > 1 {
      SplitCons(parts[0], sep, Join(parts[1..], [sep]));
      SplitOfJoin(parts[1..], sep);
    }
  }

  /** `s.includes(t)`. */
  predicate Contains(s: string, t: string)
    decreases |s|
  {
    t <= s || (|s| > 0 && Contains(s[1..], t))
  }

  /** `t` occurs in `s` starting at position `i`. */
  predicate OccursAt(s: string, t: string, i: int) {
    0 <= i <= |s| - |t| && s[i..i + |t|] == t
  }

  lemma {:induction false} ContainsIff(s: string, t: string)
    ensures Contains(s, t) <==> exists i :: OccursAt(s, t, i)
    decreases |s|
  {
    if t <= s {
      assert s[0..|t|] == t;
      assert OccursAt(s, t, 0);
    } else if |s| > 0 {
      ContainsIff(s[1..], t);
      if Contains(s[1..], t) {
        var i :| OccursAt(s[1..], t, i);
        assert s[i + 1..i + 1 + |t|] == s[1..][i..i + |t|];
        assert OccursAt(s, t, i + 1);
      }
      if i :| OccursAt(s, t, i) {
        assert i > 0;
        assert s[1..][i - 1..i - 1 + |t|] == s[i..i + |t|];
        assert OccursAt(s[1..], t, i - 1);
      }
    }
  }

  lemma ContainsChar(s: string, c: char)
    ensures Contains(s, [c]) <==> c in s
  {
    ContainsIff(s, [c]);
    if c in s {
      var i :| 0 <= i < |s| && s[i] == c;
      assert OccursAt(s, [c], i);
    }
    if Contains(s, [c]) {
      var i :| OccursAt(s, [c], i);
      assert s[i] == c;
    }
  }

  /** `s.endsWith(t)`. */
  predicate EndsWith(s: string, t: string) {
    |t| <= |s| && s[|s| - |t|..] == t
  }

  /** `toLowerCase` on one character; only the ASCII letters are modelled. */
  function LowerChar(c: char): (d: char)
    ensures 'A' <= c <= 'Z' ==> d as int == c as int + 32
    ensures !('A' <= c <= 'Z') ==> d == c
  {
    if 'A' <= c <= 'Z' then (c as int + 32) as char else c
  }

  function ToLower(s: string): (r: string)
    ensures |r| == |s|
    ensures forall i :: 0 <= i < |s| ==> r[i] == LowerChar(s[i])
  {
    seq(|s|, i requires 0 <= i < |s| => LowerChar(s[i]))
  }

  lemma ToLowerIdempotent(s: string)
    ensures ToLower(ToLower(s)) == ToLower(s)
  {
  }

  /** Lower-casing keeps a lower-case string and maps upper-case letters to it. */
  lemma ToLowerExamples()
    ensures ToLower("HIGH") == "high" && ToLower("high") == "high"
    ensures ToLower("High") == "high" && ToLower("Critical") == "critical"
  {
  }

  /** Lexicographic comparison character by character in code-unit order,
      -1, 0 or 1. `CompareIsCodeUnitOrder` shows it agrees with comparing the
      UTF-16 encodings. It stands for the store's key order and for
      `localeCompare`. */
  function Compare(a: string, b: string): (r: int)
    ensures -1 <= r <= 1
  {
    if |a| == 0 && |b| == 0 then 0
    else if |a| == 0 then -1
    else if |b| == 0 then 1
    else if Utf16.UnitRank(a[0]) < Utf16.UnitRank(b[0]) then -1
    else if Utf16.UnitRank(a[0]) > Utf16.UnitRank(b[0]) then 1
    else Compare(a[1..], b[1..])
  }

  /** Comparing by rank is comparing the UTF-16 code units. */
  lemma {:induction false} CompareIsCodeUnitOrder(a: string, b: string)
    ensures Compare(a, b) == Utf16.CompareUnits(Utf16.Encode(a), Utf16.Encode(b))
    decreases |a|
  {
    if |a| > 0 && |b| > 0 {
      if a[0] == b[0] {
        Utf16.CompareUnitsPrefix(Utf16.Units(a[0]), Utf16.Encode(a[1..]), Utf16.Encode(b[1..]));
        CompareIsCodeUnitOrder(a[1..], b[1..]);
      } else {
        Utf16.FirstUnitsDecide(a[0], b[0], Utf16.Encode(a[1..]), Utf16.Encode(b[1..]));
      }
    }
  }

  /** U+E000 sorts after an emoji, whose first unit is a surrogate. */
  lemma CodeUnitOrderExamples()
    ensures Compare("\U{E000}", "\U{1F600}") == 1
    ensures Compare("a", "\U{1F600}") == -1
  {
  }

  lemma {:induction false} CompareEqual(a: string, b: string)
    ensures Compare(a, b) == 0 <==> a == b
    decreases |a|
  {
    if |a| > 0 && |b| > 0 {
      Utf16.RankInjective(a[0], b[0]);
    }
    if |a| > 0 && |b| > 0 && a[0] == b[0] {
      CompareEqual(a[1..], b[1..]);
      assert a == [a[0]] + a[1..] && b == [b[0]] + b[1..];
    }
  }

  lemma {:induction false} CompareAntisymmetric(a: string, b: string)
    ensures Compare(a, b) == -Compare(b, a)
    decreases |a|
  {
    if |a| > 0 && |b| > 0 && a[0] == b[0] {
      CompareAntisymmetric(a[1..], b[1..]);
    }
  }

  lemma {:induction false} CompareTransitive(a: string, b: string, c: string)
    requires Compare(a, b) < 0 && Compare(b, c) < 0
    ensures Compare(a, c) < 0
    decreases |a|
  {
    if |a| > 0 && |b| > 0 && |c| > 0 && a[0] == b[0] && b[0] == c[0] {
      CompareTransitive(a[1..], b[1..], c[1..]);
    }
  }

  lemma CompareTransitiveLe(a: string, b: string, c: string)
    requires Compare(a, b) <= 0 && Compare(b, c) <= 0
    ensures Compare(a, c) <= 0
  {
    CompareEqual(a, b);
    CompareEqual(b, c);
    if Compare(a, b) < 0 && Compare(b, c) < 0 {
      CompareTransitive(a, b, c);
    }
  }

  predicate IsDigit(c: char) {
    '0' <= c <= '9'
  }

  function DigitChar(d: nat): (c: char)
    requires d < 10
    ensures IsDigit(c) && c as int - '0' as int == d
  {
    ('0' as int + d) as char
  }

  /** Decimal rendering of a number, as in a template literal `${n}`. */
  function NatToString(n: nat): (s: string)
    ensures |s| >= 1
    ensures forall i :: 0 <= i < |s| ==> IsDigit(s[i])
  {
    if n < 10 then [DigitChar(n)] else NatToString(n / 10) + [DigitChar(n % 10)]
  }

  function DigitValue(c: char): (d: nat)
    requires IsDigit(c)
    ensures d < 10
  {
    c as int - '0' as int
  }

  function ParseDigits(s: string): nat
    requires forall i :: 0 <= i < |s| ==> IsDigit(s[i])
  {
    if |s| == 0 then 0 else ParseDigits(s[..|s| - 1]) * 10 + DigitValue(s[|s| - 1])
  }

  lemma {:induction false} ParseNatToString(n: nat)
    ensures ParseDigits(NatToString(n)) == n
  {
    if n >= 10 {
      ParseNatToString(n / 10);
      var s := NatToString(n);
      assert s[..|s| - 1] == NatToString(n / 10);
    }
  }

  lemma NatToStringInjective(m: nat, n: nat)
    ensures NatToString(m) == NatToString(n) <==> m == n
  {
    ParseNatToString(m);
    ParseNatToString(n);
  }

  /** The first occurrence of a separator absent from `a` is right after `a`. */
  lemma FirstSeparator(a: string, b: string, sep: char)
    requires sep !in a
    ensures (a + [sep] + b)[|a|] == sep
    ensures forall i :: 0 <= i < |a| ==> (a + [sep] + b)[i] != sep
  {
    forall i | 0 <= i < |a|
      ensures (a + [sep] + b)[i] != sep
    {
      assert (a + [sep] + b)[i] == a[i];
    }
  }

  /** A separator that occurs in neither left part splits two joins at the
      same place. */
  lemma SeparatorSplit(a: string, b: string, c: string, d: string, sep: char)
    requires sep !in a && sep !in c
    requires a + [sep] + b == c + [sep] + d
    ensures a == c && b == d
  {
    var x := a + [sep] + b;
    FirstSeparator(a, b, sep);
    FirstSeparator(c, d, sep);
    assert |a| == |c|;
    assert a == x[..|a|] == c;
    assert b == x[|a| + 1..] == d;
  }
}

=== FILE: utf16.dfy ===
/** Strings as JavaScript stores them: sequences of UTF-16 code units. A
    character below U+10000 is one unit; any other is a surrogate pair. */
module Utf16 {
  /** The UTF-16 code units of one character, as JavaScript stores it: the
      character itself below U+10000, otherwise a surrogate pair. */
  function Units(c: char): (u: seq<int>)
    ensures 1 <= |u| <= 2
    ensures |u| == 1 <==> c as int < 0x10000
  {
    var n := c as int;
    if n < 0x10000 then [n]
    else [0xD800 + (n - 0x10000) / 0x400, 0xDC00 + (n - 0x10000) % 0x400]
  }

  /** A string as a sequence of UTF-16 code units. */
  function Encode(s: string): (u: seq<int>)
    ensures |s| <= |u| <= 2 * |s|
    ensures (forall i :: 0 <= i < |s| ==> s[i] as int < 0x10000) ==> |u| == |s|
  {
    if |s| == 0 then []
    else
      assert forall i :: 0 <= i < |s| - 1 ==> s[1..][i] == s[i + 1];
      Units(s[0]) + Encode(s[1..])
  }

  /** JavaScript's `length`: one unit per character below U+10000 and two
      per character above. */
  function Length(s: string): (n: nat)
    ensures |s| <= n <= 2 * |s|
    ensures (forall i :: 0 <= i < |s| ==> s[i] as int < 0x10000) ==> n == |s|
  {
    |Encode(s)|
  }

  /** A character above U+FFFF counts twice. */
  lemma LengthExamples()
    ensures Length("a/*") == 3
    ensures Length("a/\U{1F600}") == 4
  {
    assert Encode("a/*") == [97, 47, 42];
    assert Encode("a/\U{1F600}") == [97, 47, 0xD83D, 0xDE00];
  }

  /** Lexicographic order of code-unit sequences, -1, 0 or 1: the order of
      `<` on JavaScript strings and of string keys in the object store. */
  function CompareUnits(x: seq<int>, y: seq<int>): (r: int)
    ensures -1 <= r <= 1
  {
    if |x| == 0 && |y| == 0 then 0
    else if |x| == 0 then -1
    else if |y| == 0 then 1
    else if x[0] < y[0] then -1
    else if x[0] > y[0] then 1
    else CompareUnits(x[1..], y[1..])
  }

  /** The place of a character in code-unit order: characters below U+D800
      first, then the characters above U+FFFF (whose first unit is a
      surrogate), then U+E000 to U+FFFF. */
  function UnitRank(c: char): (k: int)
    ensures c as int < 0xD800 ==> k == c as int
  {
    var n := c as int;
    if n < 0xD800 then n
    else if n >= 0x10000 then n - 0x10000 + 0xD800
    else n - 0xD800 + 0x10D800
  }

  lemma RankInjective(c: char, d: char)
    ensures UnitRank(c) == UnitRank(d) <==> c == d
  {
  }

  lemma {:induction false} CompareUnitsPrefix(p: seq<int>, x: seq<int>, y: seq<int>)
    ensures CompareUnits(p + x, p + y) == CompareUnits(x, y)
    decreases |p|
  {
    if |p| > 0 {
      assert (p + x)[1..] == p[1..] + x && (p + y)[1..] == p[1..] + y;
      CompareUnitsPrefix(p[1..], x, y);
    } else {
      assert p + x == x && p + y == y;
    }
  }

  lemma SurrogateOrder(n: int, m: int)
    requires 0 <= n && 0 <= m
    ensures n / 0x400 < m / 0x400 ==> n < m
    ensures n / 0x400 == m / 0x400 && n % 0x400 < m % 0x400 ==> n < m
    ensures n / 0x400 == m / 0x400 && n % 0x400 == m % 0x400 ==> n == m
  {
  }

  /** Two different characters decide the comparison of their encodings,
      whatever follows them. */
  lemma FirstUnitsDecide(c: char, d: char, x: seq<int>, y: seq<int>)
    requires c != d
    ensures CompareUnits(Units(c) + x, Units(d) + y) == (if UnitRank(c) < UnitRank(d) then -1 else 1)
  {
    var u, v := Units(c) + x, Units(d) + y;
    var n, m := c as int, d as int;
    if n >= 0x10000 && m >= 0x10000 {
      SurrogateOrder(n - 0x10000, m - 0x10000);
      if u[0] == v[0] {
        assert u[1..][0] == Units(c)[1] && v[1..][0] == Units(d)[1];
      }
    }
  }
}

=== FILE: wrappers.dfy ===
/** Optional values, standing in for the source's `null` / `undefined`. */
module Wrappers {

  datatype Option<+T> = None | Some(value: T)

  /** JavaScript's `s || fallback` on a string that may be null: an absent or
      empty string yields the fallback. */
  function OrElse(s: Option<string>, fallback: string): (r: string)
    ensures s.Some? && s.value != "" ==> r == s.value
    ensures (s.None? || s.value == "") ==> r == fallback
    ensures fallback != "" ==> r != ""
  {
    if s.Some? && s.value != "" then s.value else fallback
  }

  /** Truthiness of an optional string: present and non-empty. */
  predicate Truthy(s: Option<string>) {
    s.Some? && s.value != ""
  }
}
